=== FILE: README.md ===
# mandala-examples, modelled in Dafny

A model of the parts of remogatto/mandala-examples that have logic of their own. The repository's two demos are:

- a falling-boxes physics toy. It comes in two versions: the `chipmunklib` library and the older `chipmunk` package.
- a rotating textured cube: the `cubelib` library and the `cube` front end.

Both demos wrap external libraries: the chipmunk physics engine, OpenGL ES, and the mandala/gorgasm windowing frameworks. The model treats those libraries as inputs and effects. It keeps what the repository itself decides:

- **Box bookkeeping in the physics world.** `addBox`, `removeBox`, hit-test `Remove`, `Destroy` and `setGround`. The world is a `seq<Box>` plus the set of body ids in the physics space and the set of bodies carrying impact `UserData`. `LibWorld.Valid` states the invariant every operation keeps: a box is in the list iff its body is in the space iff its body carries `UserData`.
- **The per-frame cull.** `GameState.Draw` steps the physics once, then walks the list with the `removeBox(box, i); i--` idiom. It draws the boxes that are still in view and drops the others. `LibGameState.CullBoxes` is that loop, with its invariant. `Survivors` is the reference definition: the in-view boxes, drawn, in their original order.
- **The scene builders.**
  - `CreateFromString` lays out a character grid: one square box per `+`, in row-major order. Rows are byte strings, as Go's `len` and `range` see them.
  - `CreateFromSvg` lays out SVG rectangles: one box per `<rect>`, with scaling, a y-flip, the fixed 90° rotation, and the ground taken from group 0. The XML decode is an input.
  - The scan of `rotate(%f %f,%f)` is modelled as a recogniser with `fmt`'s rules: the format's space needs at least one input space, a newline matches no space, and a float token may be `nan`, `inf` or carry a binary `p` exponent.
- **Collision callbacks and box drawing.** `inViewport`, `draw`, `CollisionEnter` and `CollisionPreSolve`, in both the library and the older package.
- **The render loops and event loops of both front ends.**
  - Each `select` case is a pure step function over a small state: ticker running, scene present, and the cube's `angle`/`savedAngle`.
  - A run is a fold over a signal sequence.
  - Both event loops are instances of one generic dispatcher, `Dispatcher.Dispatch`. It forwards some events, only logs the rest, and returns at `DestroyEvent`.
- **The cube library.**
  - Buffer sizes.
  - The vertex and index tables.
  - The RGBA texture-packing loop: an imperative array fill with its index invariant.
  - `Rotate`.
  - The world's `Attach`/`Resize`/`SetCamera`/`Draw`. Matrices are compared as terms; numeric identities such as P·I = P are not used, so a claim that two matrices differ is made only for views that are different translations.
- **The `-size` flag.** `"WxH"` is lower-cased and split on `x`, and the first two pieces go through `strconv.Atoi`.

Go panics, nil dereferences and `Fatalf` calls end the process. The model returns `Fatal(fault)` from `Outcomes.Result` instead. A panic inside a render loop sets `crash` and stops the loop.

Touch events are only logged, event types the loops do not name are dropped, and a pause is a plain signal with no acknowledgement.

## Model

| member | source | states |
|---|---|---|
| Outcomes.GoDiv | chipmunk/src/chipmunk/game.go:48 | Go's `h/3` truncates toward zero: for a non-negative dividend the quotient is the floor; for a negative one, the ceiling |
| LibBox.NewBox | chipmunk/src/chipmunklib/box.go:58-79 | a new box has mass 5 and elasticity 0.6; its physics shape and its drawable have the same width and height; it is not yet attached to a world |
| LibBox.Draw | chipmunk/src/chipmunklib/box.go:81-87 | drawing moves the drawable to the body's position and sets its rotation to the body's angle times `DegreeConst`; nothing else changes |
| LibBox.DrawIdempotent | chipmunk/src/chipmunklib/box.go:81-87 | drawing a second time without a physics step changes nothing |
| LibBox.InViewport | chipmunk/src/chipmunklib/box.go:89-94 | a box at or left of -w is out of view without `box.world` being read (Go's `&&` stops there); past that test, a box with no world pointer panics with a nil dereference; otherwise true exactly when -w < x < worldWidth + w |
| LibBox.InViewportIgnoresHeight | chipmunk/src/chipmunklib/box.go:89-94 | the verdict is the same at every vertical position |
| LibBox.InViewportBand | chipmunk/src/chipmunklib/box.go:89-94 | a centre inside [0, worldWidth] is kept; a centre a full box width beyond either edge is culled |
| LibBox.CollisionEnter | chipmunk/src/chipmunklib/box.go:36-48 | A and B are checked independently; each body with impact UserData plays exactly one sound, A's before B's; no other body plays; the contact is accepted |
| LibBox.CollisionPreSolve | chipmunk/src/chipmunklib/box.go:50-52 | always accepts and plays nothing |
| LibBox.SilentWithoutUserData | chipmunk/src/chipmunklib/box.go:36-48 | a contact between bodies without impact UserData (the ground, removed boxes) plays no sound |
| LibWorld.NewWorld | chipmunk/src/chipmunklib/world.go:62-71 | the new world has the given size, gravity (0, -900), no boxes, no ground and an empty space, and is Valid |
| LibWorld.MembershipAgrees | chipmunk/src/chipmunklib/world.go:188-195 | in a Valid world, for a non-ground body: it is in the box list iff it is in the space iff it carries UserData |
| LibWorld.AddBox | chipmunk/src/chipmunklib/world.go:188-195 | the box is appended last with its world pointer set; its body joins both the space and the UserData set; the earlier boxes, the ground and the size are unchanged |
| LibWorld.AddBoxPreservesValid | chipmunk/src/chipmunklib/world.go:188-195 | adding a box with a fresh body keeps the list/space/UserData invariant |
| LibWorld.RemoveBox | chipmunk/src/chipmunklib/world.go:239-243 | removes exactly index i; boxes before i keep their place and boxes after it shift down by one; the body leaves the space and loses its UserData; nothing else changes |
| LibWorld.RemoveBoxPreservesValid | chipmunk/src/chipmunklib/world.go:239-243 | removal keeps the invariant, and the removed body is no longer in the list |
| LibWorld.SpecBox | chipmunk/src/chipmunklib/world.go:174-182 | a built box has the requested body id, size, position and angle, the library's mass and elasticity, and its world pointer set |
| LibWorld.AddNewBox | chipmunk/src/chipmunklib/world.go:174-182 | building one box is `addBox` of that box with the next fresh body id, after which the allocator advances |
| LibWorld.AddBoxes | chipmunk/src/chipmunklib/world.go:171-185 | one box per spec, appended in order with consecutive body ids; the old boxes are a prefix; exactly the new ids join the space and the UserData set; the ground is untouched |
| LibWorld.AddBoxesPreservesValid | chipmunk/src/chipmunklib/world.go:171-185 | building any number of boxes keeps the invariant |
| LibWorld.NewGround | chipmunk/src/chipmunklib/ground.go:21-41 | the ground segment runs between the given end points with a freshly allocated static body |
| LibWorld.SetGround | chipmunk/src/chipmunklib/world.go:245-250 | the ground is replaced, its body joins the space and the ground bodies; the boxes, UserData, size, gravity and audio are untouched |
| LibWorld.SetNewGroundPreservesValid | chipmunk/src/chipmunklib/world.go:245-250 | setting a new ground keeps the invariant |
| LibWorld.DestroyingStep | chipmunk/src/chipmunklib/world.go:255-258 | one turn of `Destroy`'s loop removes the head of the remaining list, which extends the removed prefix by one box |
| LibWorld.Destroy | chipmunk/src/chipmunklib/world.go:252-259 | the loop terminates with no boxes; exactly the box bodies leave the space and the UserData set; the audio is released and the ground is left alone; a Valid world ends Valid, with only ground bodies in the space |
| LibWorld.FirstHit | chipmunk/src/chipmunklib/world.go:225-235 | the index returned is the first one at or after `from` within the pick radius; -1 means no box from `from` on is hit |
| LibWorld.Remove | chipmunk/src/chipmunklib/world.go:223-237 | y is flipped to a bottom-left origin; the first box in list order within squared distance 2500 is removed and its index returned; with no hit, -1 is returned and the world is unchanged |
| LibWorld.RemoveKeepsValid | chipmunk/src/chipmunklib/world.go:223-243 | a pick keeps the invariant; a successful pick shortens the list by one and takes the picked body out of the space |
| LibGrid.RowCellsSpec | chipmunk/src/chipmunklib/world.go:172-173 | the cells of one line are exactly the byte offsets of its `+` characters, in increasing order |
| LibGrid.GridCellsSpec | chipmunk/src/chipmunklib/world.go:171-173 | the grid's cells are exactly its `+` positions, in row-major order |
| LibGrid.CellLayout | chipmunk/src/chipmunklib/world.go:155-169 | the cell side is min(width/nX, (height - groundY)/nY), with nX the byte length of the first row; the top row is at groundY + nY·side; an empty first row is refused when width/0 is not +Inf |
| LibGrid.CellSpecs | chipmunk/src/chipmunklib/world.go:175-180 | one spec per cell, in order: the box for column x, row y sits at (x·side, startY - y·side) with angle 0 |
| LibGrid.CreateFromString | chipmunk/src/chipmunklib/world.go:148-186 | an empty grid panics on `s[0]`; a missing ground panics; otherwise the result is Ok exactly when the side is finite, and then it adds one box per `+` after the existing boxes, with the ground unchanged |
| LibGrid.CreateFromStringPlacesBoxes | chipmunk/src/chipmunklib/world.go:169-185 | the k-th new box is the box of the k-th `+` in row-major order, at (byte offset·side, startY - row·side) with the cell's size; every `+` gets a box; no other character does |
| LibGrid.CreateFromStringValid | chipmunk/src/chipmunklib/world.go:171-185 | building from a grid keeps the invariant |
| LibGrid.SingleGlyph | chipmunk/src/chipmunklib/world.go:148-186 | a one-`+` grid yields one side × side box at (0, groundY + side), with angle 0 |
| LibGrid.MultiByteRow | chipmunk/src/chipmunklib/world.go:151-172 | in the row `é+` the two bytes of `é` make nX = 3, and the `+` sits at column 2 |
| LibSvg.ScanFloat | chipmunk/src/chipmunklib/svg.go:77 | a successful `%f` scan consumes at least one character and stays inside the string |
| LibSvg.ScansAsRotateAt | chipmunk/src/chipmunklib/svg.go:77 | a transform is accepted when the `rotate(` prefix, a float followed by at least one space, two more floats, the comma and the closing parenthesis scan at the given positions |
| LibSvg.ScanPlainRotate | chipmunk/src/chipmunklib/svg.go:77 | `rotate(90 10,20)` is accepted |
| LibSvg.ScanSignedFractionExponent | chipmunk/src/chipmunklib/svg.go:77 | a transform with signs, fractions and an exponent is accepted |
| LibSvg.ScanOneArgumentFails | chipmunk/src/chipmunklib/svg.go:77-80 | `rotate(90)` is refused, so it is fatal |
| LibSvg.ScanOtherTransformFails | chipmunk/src/chipmunklib/svg.go:77-80 | a transform other than `rotate` is refused, so it is fatal |
| LibSvg.ScanMissingSpaceFails | chipmunk/src/chipmunklib/svg.go:77-80 | `rotate(90-10,20)` is refused: the format's space needs at least one input space |
| LibSvg.ScanSecondPointFails | chipmunk/src/chipmunklib/svg.go:77-80 | `rotate(1.5.5,2)` is refused: the float token ends at the second point, which is not a space |
| LibSvg.ScanNewlineFails | chipmunk/src/chipmunklib/svg.go:77-80 | a newline between the angle and the centre is refused |
| LibSvg.ScanSpecialValues | chipmunk/src/chipmunklib/svg.go:77 | `rotate(-Inf<tab>1p3,NaN)` is accepted: infinities, NaN, binary exponents and a tab separator all scan |
| LibSvg.RectSpec | chipmunk/src/chipmunklib/svg.go:63-81 | the size is (w·sx, h·sy); the angle is 90° (as radians) for any non-empty transform, whatever it rotates by, and stays 0 for an empty one |
| LibSvg.AllTransformsOkIff | chipmunk/src/chipmunklib/svg.go:75-80 | the recursive all-transforms check holds iff every rect's transform is empty or scans as `rotate` |
| LibSvg.RectSpecs | chipmunk/src/chipmunklib/svg.go:61-86 | all rects of all groups, in document order, one spec each; it fails with BadTransform exactly when some transform does not scan |
| LibSvg.SvgGround | chipmunk/src/chipmunklib/svg.go:88-95 | the ground runs from (0, H - y1·sy) to (width, H - y2·sy) of the given line; the boxes are untouched |
| LibSvg.CreateFromSvg | chipmunk/src/chipmunklib/svg.go:41-96 | a read or decode failure is fatal; zero groups panics on `Groups[0]`; a bad transform is fatal; a zero file height, or a zero file width with rects to place, is refused; a zero width with no rects still sets the ground and adds nothing; otherwise one box per rect follows the existing boxes, and a ground is set |
| LibSvg.SvgWorld | chipmunk/src/chipmunklib/svg.go:58-95 | the k-th new box is the box for the k-th rect, with centre ((x+w/2)·sx, H - (y+h/2)·sy); the ground comes from group 0's line, flipped and scaled, spanning x from 0 to width |
| LibSvg.CreateFromSvgUnfold | chipmunk/src/chipmunklib/svg.go:41-96 | a decoded file succeeds iff its scaled geometry is finite (non-zero height, and non-zero width unless there are no rects), it has a group, and every transform scans; the result is then `SvgWorld` |
| LibSvg.CreateFromSvgValid | chipmunk/src/chipmunklib/svg.go:61-95 | loading a drawing keeps the invariant |
| LibSvg.RotatedRectDrawsAtRightAngle | chipmunk/src/chipmunklib/svg.go:75-82 | a box from a rect with any transform is drawn at exactly 90 degrees |
| LibSvg.WorkedExample | chipmunk/src/chipmunklib/svg.go:58-66 | rect (0,0,10,10) of a 100×100 drawing in a 200×200 world gives a 20×20 box centred at (10, 190) |
| LibGameState.NewGameState | chipmunk/src/chipmunklib/gamestate.go:19-37 | the state runs at 30 fps, has the window's size, and fails exactly when loading the drawing fails; otherwise it has a ground and is Valid |
| LibGameState.Advanced | chipmunk/src/chipmunklib/gamestate.go:61 | one physics step moves every box to the pose the engine reports and keeps the order |
| LibGameState.DrawnBoxes | chipmunk/src/chipmunklib/gamestate.go:63-71 | one draw call per kept box, in list order |
| LibGameState.SurvivorsSpec | chipmunk/src/chipmunklib/gamestate.go:63-71 | every in-view box survives, drawn; every survivor is a drawn in-view box; the culled bodies are exactly those of the out-of-view boxes |
| LibGameState.SurvivorsStable | chipmunk/src/chipmunklib/gamestate.go:63-71 | culling again without a physics step keeps every box |
| LibGameState.SurvivorBodies | chipmunk/src/chipmunklib/gamestate.go:63-71 | the survivors' bodies are the original bodies minus the culled ones, and stay distinct |
| LibGameState.SameBodiesKeepValid | chipmunk/src/chipmunklib/gamestate.go:61 | a physics step, which changes poses but not bodies, keeps the invariant |
| LibGameState.KeepStep | chipmunk/src/chipmunklib/gamestate.go:64-66 | drawing an in-view box and advancing i keeps the cull loop's invariant |
| LibGameState.DropStep | chipmunk/src/chipmunklib/gamestate.go:67-69 | `removeBox` plus `i--` on an out-of-view box keeps the cull loop's invariant |
| LibGameState.CullBoxes | chipmunk/src/chipmunklib/gamestate.go:63-71 | the loop terminates; it panics exactly when some box lacks its world pointer and lies right of -w, where `inViewport` reads it; otherwise the list becomes exactly the in-view boxes, drawn, in their original order; each kept box is drawn once; the culled bodies leave the space and the UserData set; validity is kept |
| LibGameState.DrawFrame | chipmunk/src/chipmunklib/gamestate.go:58-76 | a zero Fps is refused (the step 1/Fps divides by zero); a missing ground panics, and so does a missing world pointer on a stepped box right of -w; otherwise the frame clears the screen, steps once by 1/Fps, draws exactly the in-view boxes in order, then the ground, then the frame-rate text at (width/2, height - 25); validity is kept |
| LibGameState.DrawKeepsExactlyTheVisible | chipmunk/src/chipmunklib/gamestate.go:63-71 | after a frame, every remaining box is in view and drawn at its body's position, and every box that was in view after the step remains |
| OldChipmunk.NewWorld | chipmunk/src/chipmunk/world.go:23-33 | the world has the given size, gravity (0, -900), no boxes and no ground |
| OldChipmunk.AddBox | chipmunk/src/chipmunk/world.go:43-48 | the box is appended last and its body joins the space; the same box is returned; its world pointer is left as it was (never set) |
| OldChipmunk.AddBoxCorrected | chipmunk/src/chipmunk/world.go:43-48 | as `addBox`, and also setting the box's world pointer |
| OldChipmunk.AddBoxPreservesValid | chipmunk/src/chipmunk/world.go:43-48 | either version of `addBox` keeps the list/space invariant |
| OldChipmunk.NewGround | chipmunk/src/chipmunk/game.go:48 | the ground segment has the given ends and a fresh static body |
| OldChipmunk.SetGround | chipmunk/src/chipmunk/world.go:50-55 | the ground is replaced, its body joins the space and the ground bodies; the boxes, size and gravity are untouched |
| OldChipmunk.SetNewGroundPreservesValid | chipmunk/src/chipmunk/world.go:50-55 | setting a new ground keeps the invariant |
| OldChipmunk.SceneBox | chipmunk/src/chipmunk/game.go:53-57 | box k is a 40×40 box at (draw·w, h), with angle draw·2π, taken from the random stream |
| OldChipmunk.AddSceneBox | chipmunk/src/chipmunk/game.go:53-57 | one loop turn appends that box with the next body id |
| OldChipmunk.AddSceneBoxValid | chipmunk/src/chipmunk/game.go:52-58 | one loop turn keeps the invariant |
| OldChipmunk.SceneBoxes | chipmunk/src/chipmunk/game.go:52-58 | n boxes; box k is scene box k with body id firstId + k |
| OldChipmunk.AddSceneBoxes | chipmunk/src/chipmunk/game.go:52-58 | the loop appends exactly the scene boxes after the existing ones, allocating n ids; the size and ground are unchanged |
| OldChipmunk.AddSceneBoxesValid | chipmunk/src/chipmunk/game.go:52-58 | the whole loop keeps the invariant |
| OldChipmunk.GroundedWorld | chipmunk/src/chipmunk/game.go:44-48 | a fresh world with the ground from (0, h/3) to (w, h/3), with integer division truncating toward zero |
| OldChipmunk.NewGameState | chipmunk/src/chipmunk/game.go:37-64 | the scene holds exactly NumOfBoxes (50) scene boxes on a ground at integer h/3, and is Valid |
| OldChipmunk.StepCallbacks | chipmunk/src/chipmunk/box.go:39-51 | the step's callbacks, one `CollisionEnter` per reported contact in order: as written, it panics exactly when some contact's B lacks impact UserData; with the library's callback it never panics; only bodies with UserData play |
| OldChipmunk.StepWithoutUserData | chipmunk/src/chipmunk/box.go:46 | with no body carrying UserData, as in this package, the step panics exactly when it reports a contact, unless the callback is corrected |
| OldChipmunk.DrawFrame | chipmunk/src/chipmunk/game.go:75-91 | as written, a step that reports any contact panics in the callback; otherwise the frame panics exactly when a stepped box right of -w lacks its world pointer, or there is no ground; a drawn frame keeps exactly `Survivors` of the stepped boxes (the in-view ones, drawn, in order), removes the culled bodies from the space, changes nothing else, emits clear, step by 1/30, one draw per kept box and the ground, and keeps validity |
| OldChipmunk.ValidAfterCull | chipmunk/src/chipmunk/game.go:80-88 | culling after a step keeps the invariant |
| OldChipmunk.FirstFramePanics | chipmunk/src/chipmunk/box.go:101-105 | as written, the first frame of a new scene panics in the callback if the step reports a contact; otherwise it panics with a nil dereference in `inViewport` exactly when the step leaves some box right of x = -40, and draws with every box culled when it carries them all to x <= -40 |
| OldChipmunk.UnattachedFrame | chipmunk/src/chipmunk/box.go:101-105 | over boxes without world pointers, a frame panics on a contact, panics on any stepped box right of its -w, and otherwise draws and keeps no box |
| OldChipmunk.FirstFrameAllLeftDraws | chipmunk/src/chipmunk/box.go:101-105 | a step that puts every box at x = -1000 lets the first frame as written draw, with no box left |
| OldChipmunk.CorrectedFirstFrameDraws | chipmunk/src/chipmunk/game.go:75-91 | with the world pointer set and the library's callback, the first frame succeeds whatever contacts the step reports, and keeps the scene valid |
| OldChipmunk.CollisionEnter | chipmunk/src/chipmunk/box.go:39-51 | the callback panics exactly when B lacks impact UserData; otherwise it plays a sound iff A has UserData, and then behaves as the library's callback |
| OldChipmunk.CollisionSkipsB | chipmunk/src/chipmunk/box.go:42-49 | when only B has impact data, no sound plays; the library callback plays B's sound |
| OldChipmunk.EveryContactPanics | chipmunk/src/chipmunk/box.go:46 | with no bodies carrying UserData (this package never sets it), every contact panics; the library callback is silent |
| ChipmunkLoop.Step | chipmunk/src/chipmunk/game.go:112-137 | a window stops the ticker, replaces the scene with a fresh valid one of 50 boxes, sets the viewport and restarts the ticker; pause and stop stop the ticker; stop ends the loop; resume changes nothing; a tick does nothing while the ticker is stopped; at most one frame per tick |
| ChipmunkLoop.StepKeepsInv | chipmunk/src/chipmunk/game.go:112-137 | a running ticker implies a scene; the scene stays valid; a crash ends the loop |
| ChipmunkLoop.RunKeepsInv | chipmunk/src/chipmunk/game.go:95-140 | the invariant holds after every sequence of signals |
| ChipmunkLoop.NoFrameBeforeWindow | chipmunk/src/chipmunk/game.go:106-110 | before the first window, the ticker is stopped, no scene exists and no frame is drawn |
| ChipmunkLoop.TickingIffWindowSincePause | chipmunk/src/chipmunk/game.go:114-133 | while the loop runs, the ticker runs iff a window arrived after the last pause, so resume alone never restarts rendering |
| ChipmunkLoop.FirstTickPanics | chipmunk/src/chipmunk/game.go:125-127 | a window followed by one tick crashes the render loop before any frame exactly when the step reports a contact (B's type assertion) or leaves some box right of x = -40 (a nil dereference); otherwise the tick draws one frame and the loop keeps running |
| ChipmunkLoop.CorrectedFirstTickDraws | chipmunk/src/chipmunk/game.go:114-127 | with the world pointer set and the library's callback, the same sequence draws one frame whatever the step reports, and the loop keeps ticking without a crash |
| ChipmunkLoop.Forward | chipmunk/src/chipmunk/game.go:150-188 | window-created, pause and resume each forward exactly their own signal; touch, redraw, destroy and any event type the switch does not name forward nothing |
| ChipmunkLoop.EventLoop | chipmunk/src/chipmunk/game.go:144-192 | the loop returns iff a DestroyEvent occurs, and sends only window/pause/resume signals |
| ChipmunkLoop.OnlyControlSignals | chipmunk/src/chipmunk/game.go:150-188 | the dispatcher never sends a tick or a stop to the render loop |
| ChipmunkLoop.LoggedEventsIgnored | chipmunk/src/chipmunk/game.go:161-178 | removing a touch, redraw or unnamed event from any stream changes nothing the loop sends |
| ChipmunkLoop.NothingAfterDestroy | chipmunk/src/chipmunk/game.go:173-176 | events after a DestroyEvent are never read |
| Dispatcher.Dispatch | chipmunk/src/chipmunk/game.go:147-190 | the generic loop quits iff some event is a quitting one |
| Dispatcher.DispatchAppend | chipmunk/src/chipmunk/game.go:147-190 | running over a + b is running over a, then over b if the loop is still listening |
| Dispatcher.SilentEventIgnored | cube/src/cube/game.go:181-190 | an event that forwards nothing and does not quit can be dropped from any stream |
| Dispatcher.QuietStreamForwardsAll | chipmunk/src/chipmunk/game.go:147-190 | without a quitting event, the loop sends exactly the in-order concatenation of what each event forwards |
| CubeLib.NewBufferFloat | cube/src/cubelib/cube.go:60-67 | uploads 4 bytes per float; empty data panics at `&data[0]` |
| CubeLib.NewBufferByte | cube/src/cubelib/cube.go:51-58 | uploads one byte per entry; empty data panics at `&data[0]` |
| CubeLib.VertexTableLayout | cube/src/cubelib/cube.go:92-123 | 24 vertices of 6 floats, 4 per face; position components come before the texture coordinates at offset 4, matching the stride of 6 |
| CubeLib.FaceIndices | cube/src/cubelib/cube.go:124-143 | each face's 6 entries lie among its own 4 vertices and use all of them |
| CubeLib.FacesIndicesAt | cube/src/cubelib/cube.go:124-143 | entry k of the table is entry k mod 6 of face k div 6 |
| CubeLib.IndexTableLayout | cube/src/cubelib/cube.go:124-143 | 36 entries, each < 24; each face's triangles use only that face's vertices; every vertex is used |
| CubeLib.LowByteOfWidened | cube/src/cubelib/cube.go:213-217 | `byte(v)` of a 16-bit channel v·0x101 gives back the 8-bit v |
| CubeLib.PixelOffset | cube/src/cubelib/cube.go:210-220 | pixel (x, y) channel c is at 4·(y·w + x) + c, inside the buffer, and holds the low byte of that channel |
| CubeLib.PixelBytes | cube/src/cubelib/cube.go:213-218 | one pixel's four bytes are its R, G, B, A low bytes, in that order |
| CubeLib.PackRow | cube/src/cubelib/cube.go:212-219 | the inner loop fills one row; the index ends at 4·(row + 1)·w, within the buffer |
| CubeLib.PackRgba | cube/src/cubelib/cube.go:206-220 | the buffer has length 4·w·h, and every byte is the expected channel of the expected pixel, in row-major order |
| CubeLib.NewCube | cube/src/cubelib/cube.go:88-143 | the cube starts with the identity model, no texture, and both tables uploaded at their sizes |
| CubeLib.Rotate | cube/src/cubelib/cube.go:187-189 | the model becomes the rotation by the given absolute angle; nothing else changes |
| CubeLib.RotateForgets | cube/src/cubelib/cube.go:187-189 | rotations do not compose: only the last one counts |
| CubeLib.AttachTexture | cube/src/cubelib/cube.go:206-226 | a zero-area image panics at `&buffer[0]`; otherwise the cube gets a w×h texture of 4·w·h bytes, equal to `Packed(img)` (which `PackRgba`'s loop is proved to produce), and nothing else changes |
| CubeLib.AttachTextureHoldsPixels | cube/src/cubelib/cube.go:210-222 | every pixel (minX + x, minY + y) of the image appears in the texture as its R, G, B, A low bytes at offset 4·(y·width + x) |
| CubeLib.DrawCube | cube/src/cubelib/cube.go:236-253 | a draw uses the cube's model, projection·view and texture, the whole index table, a 24-byte stride and a 16-byte texture offset |
| CubeLib.NewCubeDrawsWholeTable | cube/src/cubelib/cube.go:250 | drawing a new cube submits all 36 indices |
| CubeLib.NewWorld | cube/src/cubelib/world.go:22-34 | the world has the given size, no objects, the perspective for that size and the identity view |
| CubeLib.Attach | cube/src/cubelib/world.go:52-57 | appends exactly one object at the end, carrying projection·view; the earlier objects are unchanged; a synced world stays synced |
| CubeLib.SetCamera | cube/src/cubelib/world.go:47-50 | only the view changes, to the translation by (-x, -y, -z) |
| CubeLib.SetCameraLeavesObjectsStale | cube/src/cubelib/world.go:47-50 | moving the camera to a different translation leaves already-attached objects with the old projection·view |
| CubeLib.WithProjectionView | cube/src/cubelib/world.go:42-44 | every object gets the given matrix, in place and order |
| CubeLib.Resize | cube/src/cubelib/world.go:36-45 | the size and perspective are updated; every object and the world get the projection alone, since the `Mul4` result is dropped |
| CubeLib.ResizeCorrected | cube/src/cubelib/world.go:36-45 | as `Resize`, but with projection·view, as `Attach` computes it |
| CubeLib.ResizeDropsView | cube/src/cubelib/world.go:40-41 | once the view is a non-zero translation (as after the scene's camera set-up), objects after `Resize` as written no longer hold projection·view, and differ from the corrected version |
| CubeLib.ResizeCorrectedSyncs | cube/src/cubelib/world.go:36-45 | the corrected resize leaves every object synced, and otherwise agrees with `Resize` |
| CubeLib.DrawWorld | cube/src/cubelib/world.go:59-64 | one draw call per attached object |
| CubeLib.DrawObjects | cube/src/cubelib/world.go:61-63 | one draw per object |
| CubeLib.DrawAfterAttach | cube/src/cubelib/world.go:52-64 | after an attach, a frame draws the old objects and then the new one |
| CubeLib.DrawObjectsInOrder | cube/src/cubelib/world.go:59-64 | the k-th draw is the k-th object's, so each object is drawn once, in attach order |
| CubeLoop.InitScene | cube/src/cube/game.go:38-65 | it fails with `EglError` when the context is not current and panics unless the image loads with non-zero area; otherwise the world has the surface size and exactly one cube, with the identity model, a texture and projection·view, camera at z = 5, synced |
| CubeLoop.Spin | cube/src/cube/game.go:107-108 | the cube is rotated to the absolute angle about y; the world is otherwise unchanged |
| CubeLoop.Step | cube/src/cube/game.go:97-134 | EGL rebuilds the scene, zeroes the angle and restarts the ticker; pause saves the angle and stops the ticker; resume restores the saved angle without restarting the ticker; a resize with no world or an unchanged size is ignored; stop ends the loop; ticks do nothing while stopped |
| CubeLoop.StepKeepsInv | cube/src/cube/game.go:97-134 | a running ticker implies a world holding exactly one cube; a crash ends the loop |
| CubeLoop.RunKeepsInv | cube/src/cube/game.go:78-137 | the invariant holds after every sequence of signals |
| CubeLoop.NothingBeforeEgl | cube/src/cube/game.go:91-95 | before the first EGL state, the ticker is stopped, no world exists and no frame is drawn |
| CubeLoop.TickTurnsCube | cube/src/cube/game.go:106-110 | each tick adds exactly 0.05 to the angle, rotates the cube to that absolute angle, and draws one frame of one cube |
| CubeLoop.PauseEglResumeRestoresAngle | cube/src/cube/game.go:122-128 | pause, then EGL, then resume brings back the angle from before the pause, and leaves the ticker running |
| CubeLoop.ResumeWithoutPauseZeroes | cube/src/cube/game.go:127-128 | a resume with no earlier pause sets the angle to 0, the zero value of `savedAngle` |
| CubeLoop.SavedAngleStaysZero | cube/src/cube/game.go:122-123 | only a pause writes `savedAngle` |
| CubeLoop.ResizeRestartsTicker | cube/src/cube/game.go:112-129 | after a pause, a real resize restarts the ticker, while resume does not |
| CubeLoop.ResizeLosesCamera | cube/src/cube/game.go:112-119 | resizing the initial scene leaves the cube with the bare projection, no longer synced with the camera |
| CubeLoop.Forward | cube/src/cube/game.go:150-208 | EGL init, redraw-needed, pause and resume each forward exactly their own signal; touch, destroy and any event type the switch does not name forward nothing |
| CubeLoop.EventLoop | cube/src/cube/game.go:141-213 | the loop returns iff a DestroyEvent occurs, and sends only EGL/resize/pause/resume signals |
| CubeLoop.OnlyControlSignals | cube/src/cube/game.go:150-208 | the dispatcher never sends a tick or a stop |
| CubeLoop.TouchEventsIgnored | cube/src/cube/game.go:181-190 | removing a touch or unnamed event from any stream changes nothing the loop sends |
| CubeLoop.NothingAfterDestroy | cube/src/cube/game.go:192-195 | events after a DestroyEvent are never read |
| SizeFlag.Lower | chipmunk/src/chipmunk/main.go:36 | lower-casing keeps the length |
| SizeFlag.LowerConcat | chipmunk/src/chipmunk/main.go:36 | lower-casing works piece by piece |
| SizeFlag.LowerIdempotent | chipmunk/src/chipmunk/main.go:36 | lower-casing twice is lower-casing once |
| SizeFlag.Split | chipmunk/src/chipmunk/main.go:36 | `strings.Split` always yields at least one piece |
| SizeFlag.SplitJoin | chipmunk/src/chipmunk/main.go:36 | splitting the join of separator-free pieces gives back those pieces |
| SizeFlag.JoinSplit | chipmunk/src/chipmunk/main.go:36 | joining the pieces of a split gives back the string |
| SizeFlag.Atoi | chipmunk/src/chipmunk/main.go:37-40 | a success is a value in Go's int range; a failure is InvalidNumber; the empty string fails |
| SizeFlag.AtoiItoa | chipmunk/src/chipmunk/main.go:37-44 | Atoi reads back any printed int, negative numbers included |
| SizeFlag.ParseSize | chipmunk/src/chipmunk/main.go:36-44 | a success has both dimensions in int range; a failure is a bad number or the missing second piece |
| SizeFlag.ParseDims | chipmunk/src/chipmunk/main.go:37-44 | a success needs at least two pieces, and is Atoi of the first and of the second |
| SizeFlag.ParseSizeIgnoresCase | chipmunk/src/chipmunk/main.go:36 | the flag's case does not matter |
| SizeFlag.ParseSizeItoa | chipmunk/src/chipmunk/main.go:36-44 | `"<w>x<h>"` parses to (w, h) for every pair of ints |
| SizeFlag.ParseDimsFirstTwo | chipmunk/src/chipmunk/main.go:37-44 | only the first two pieces matter |
| SizeFlag.ParseSizeIgnoresThirdPiece | chipmunk/src/chipmunk/main.go:36-44 | whatever follows a second `x` is ignored |
| SizeFlag.ParseSizeNeedsSeparator | chipmunk/src/chipmunk/main.go:41 | a flag without `x` panics: a number panics at `dims[1]` |
| SizeFlag.DefaultsPrinted | cube/src/cube/main.go:16 | the defaults are 480x320 (physics demo) and 320x480 (cube demo), printed as numbers |
| SizeFlag.ParseSizeDefaults | chipmunk/src/chipmunk/main.go:24 | the defaults parse to 480×320 and 320×480 |
| SizeFlag.ParseSizeUpperCaseExample | cube/src/cube/main.go:28-36 | `"320X480"` parses to 320×480 |
| SizeFlag.ParseSizeThirdPieceExample | chipmunk/src/chipmunk/main.go:36-44 | `"1x2x3"` parses to 1×2 |
| SizeFlag.ParseSizeSignExample | chipmunk/src/chipmunk/main.go:36-44 | `"0x-5"` parses to 0×-5: zero and signs are not rejected |
| SizeFlag.ParseSizeBadWidth | cube/src/cube/main.go:29-32 | a non-numeric width panics before the height is looked at |

## Left out

- The physics engine: stepping, collision detection, and body and shape internals. Each step's poses are an input function, and body ids are drawn from a counter.
- OpenGL ES, EGL, shader compile and link, the text renderer and buffer swaps. They appear as effect values or not at all.
- Audio players and resource, font and image loading in `NewWorld`, `loadImage` and `AttachTextureFromFile`. A loaded texture image and a decoded SVG file are inputs. The XML decoder is not modelled.
- `World.Explosion` (chipmunklib world.go:207-220): floating-point vector maths through an external API.
- `dropBox` (chipmunklib world.go:197-204): a random angle and an external mass change. Its `addBox` is modelled.
- Randomness (`rand.Float32`, `HappyColor`) is an input stream. Colours are not modelled.
- Channels, blocking, channel capacities, `runtime.LockOSThread` and `loop.GoRecoverable` are left out. Each `select` case is one step on the signal it receives, and a stop request is one more signal.
- The ticker's timing, and a tick already buffered when `Stop` is called. A stopped ticker delivers nothing.
- float32 rounding and Inf/NaN. Coordinates are `real`, and a float division by zero is refused as `NonFiniteGeometry`.
- LibGrid.CellLayout: an empty first row with a non-positive width makes Go compute with -Inf or NaN. The model reports a failure instead of building boxes at non-finite positions.
- LibSvg.ScansAsRotate: float values out of float32 range (`1e39`), which Go's scan refuses, are accepted. Hexadecimal mantissas and `_` digit separators are refused; Go releases differ on them. Older Go releases also let a newline stand for the format's space; the model follows current ones.
- LibSvg.RectSpecs: inherits the float-range gap of `ScansAsRotate`: a transform whose numbers overflow float32 scans here.
- LibSvg.CreateFromSvgUnfold: inherits the same float-range gap.
- LibBox.InViewport: uses the drawable's width, as the older package's `GetSize` does. The library reads `float32(Bounds().Dx())` of the shapes library's drawable, a whole number that for a rotated box is the width of its bounding rectangle; the shapes library is not part of this model.
- OldChipmunk.DrawFrame: `s.world.removeBox` (game.go:85) names a method that chipmunk/src/chipmunk/world.go does not declare: it declares `newWorld`, `Projection`, `View`, `addBox` and `setGround`, and no `removeBox`. The model uses the library's `removeBox` (list cut and space removal). Sounds played by the step's callbacks are not among the frame's effects.
- LibSvg.CreateFromSvg: a drawing with zero height, or with zero width and at least one rect, is refused, while Go divides by zero in float32 and builds the ground or the boxes with infinite or NaN coordinates. A zero width with no rects is modelled as Go runs it, since `scaleX` is then never read. A bad transform is reported before any box is added, while Go panics part-way through the loop. The process ends either way.
- CubeLoop.InitScene: an `egl.MakeCurrent` failure is reported as `EglError` without the EGL error code.
- CubeLib.VertexTableLayout: only the table's shape is stated (sizes, stride, offsets), not each vertex's coordinates.
- The mathgl matrices are compared as terms, so no numeric facts about perspective or rotation matrices are proved; lemmas that claim two matrices differ require views that are different translations.
- SizeFlag.Lower: only ASCII letters are lower-cased. `strings.ToLower` also folds other Unicode letters, but only digits and `x` can matter to the parse.
- Flag parsing other than `-size` (`-verbose`, `-debug`) and the window creation in `main`.
- The Android, Raspberry Pi and template copies of these files, the build tasks, and the screenshot-comparison test programs under `chipmunk/test`.

## Findings

| source | as written | input that shows it | evidently intended | confidence | as-written member | corrected member |
|---|---|---|---|---|---|---|
| chipmunk/src/chipmunk/world.go:43-48 | `addBox` never sets `box.world`, and `inViewport` (box.go:104) reads `box.world.width` | any window and a first step that reports no contact (a contact panics first, see below) and leaves some box right of x = -40: `inViewport` on that box dereferences nil | `addBox` sets `box.world = w`, as the library version does; the corrected member also uses the library's callback | high, not executed | ChipmunkLoop.FirstTickPanics | ChipmunkLoop.CorrectedFirstTickDraws |
| chipmunk/src/chipmunk/box.go:42-48 | B's sound is guarded by the `ok` of A's type assertion | a contact where only B carries impact data: no sound plays | each body is checked on its own, as in the library's `CollisionEnter` | high, not executed | OldChipmunk.CollisionSkipsB | LibBox.CollisionEnter |
| chipmunk/src/chipmunk/box.go:46 | single-value type assertion `b.UserData.(impactUserData)` | any contact whose B has no impact data; in this package no body ever gets it | the comma-ok form, as for A | high, not executed | OldChipmunk.EveryContactPanics | LibBox.CollisionEnter |
| cube/src/cubelib/world.go:40-41 | `w.projectionView.Mul4(w.view)` drops its result, so objects get the projection alone | resize the initial scene (camera at z = 5) to a new size | `w.projectionView = w.projectionView.Mul4(w.view)`, as `Attach` does | medium (assumes `Mul4` returns its product, as `Attach` uses it), not executed | CubeLib.ResizeDropsView | CubeLib.ResizeCorrected |

=== FILE: chipmunk_loop.dfy ===
/** The older chipmunk package's two loops (chipmunk/game.go): the render
    loop, one pure step per `select` case, and the event loop that feeds it.
    The ticker is a flag: a stopped ticker delivers no tick. A panic inside
    the render loop ends the program, recorded as `crash`. */
module ChipmunkLoop {
  import opened Outcomes
  import opened LibBox
  import OldChipmunk
  import LibGameState
  import Dispatcher

  /** What the render loop can receive: a window, a tick of its ticker, a
      pause or resume request, or the loop framework's stop request. */
  datatype Signal = WindowReady(width: int, height: int) | Tick | Pause | Resume | Stop

  /** What one signal reads from outside the loop: the random stream that a
      fresh scene draws from, and the engine's poses and new contacts after a
      physics step. */
  datatype Env = Env(draws: nat -> real, pose: BodyId -> Pose, contacts: seq<Arbiter>)

  datatype Loop = Loop(
    ticking: bool,                      // the ticker is running
    scene: Option<OldChipmunk.World>,   // `state`, nil until the first window
    viewport: (int, int),
    frames: nat,                        // frames drawn and swapped
    running: bool,
    crash: Option<Fault>)

  /** The loop as it starts: no scene, ticker created and stopped at once. */
  const Start := Loop(false, None, (0, 0), 0, true, None)

  /** Facts that hold in every state the loop reaches. */
  ghost predicate Inv(l: Loop) {
    && (l.ticking ==> l.running && l.scene.Some?)
    && (l.scene.Some? ==> OldChipmunk.Valid(l.scene.value))
    && (l.crash.Some? ==> !l.running)
  }

  /** One `select` case. `fixed` chooses between the package as written and
      the corrected one, whose `addBox` sets each box's world pointer and
      whose collision callback is the library's. */
  function Step(l: Loop, sig: Signal, env: Env, fixed: bool): (r: Loop)
    ensures !l.running ==> r == l
    ensures sig.Resume? ==> r == l
    ensures l.running && (sig.Pause? || sig.Stop?) ==> !r.ticking && r.scene == l.scene && r.frames == l.frames
    ensures sig.Stop? ==> !r.running
    ensures l.running && sig.WindowReady? ==>
      && r.ticking && r.running && r.scene.Some?
      && |r.scene.value.boxes| == OldChipmunk.NumOfBoxes
      && OldChipmunk.Valid(r.scene.value)
      && r.viewport == (sig.width, sig.height)
    ensures sig.Tick? && !l.ticking ==> r == l
    ensures r.frames == l.frames || (sig.Tick? && l.ticking && r.frames == l.frames + 1)
    ensures r.running ==> l.running
  {
    if !l.running then l
    else match sig
      case WindowReady(width, height) =>
        l.(ticking := true, scene := Some(OldChipmunk.NewGameState(width, height, env.draws, fixed)),
           viewport := (width, height))
      case Tick =>
        if !l.ticking then l
        else if l.scene.None? then l.(ticking := false, running := false, crash := Some(NilDereference))
        else
          (match OldChipmunk.DrawFrame(l.scene.value, env.pose, env.contacts, fixed)
           case Fatal(f) => l.(ticking := false, running := false, crash := Some(f))
           case Ok(frame) => l.(scene := Some(frame.world), frames := l.frames + 1))
      case Pause => l.(ticking := false)
      case Resume => l
      case Stop => l.(ticking := false, running := false)
  }

  /** Every step keeps the loop's invariant; in particular a tick never
      finds the scene missing. */
  lemma StepKeepsInv(l: Loop, sig: Signal, env: Env, fixed: bool)
    requires Inv(l)
    ensures Inv(Step(l, sig, env, fixed))
  {
    if l.running && sig.Tick? && l.ticking {
      var d := OldChipmunk.DrawFrame(l.scene.value, env.pose, env.contacts, fixed);
      if d.Ok? {
        assert OldChipmunk.Valid(d.value.world);
      }
    }
  }

  /** The loop after a sequence of signals, `env(i)` being what the i-th one
      reads. */
  function Run(sigs: seq<Signal>, env: nat -> Env, fixed: bool): Loop
    decreases |sigs|
  {
    if sigs == [] then Start
    else Step(Run(sigs[..|sigs| - 1], env, fixed), sigs[|sigs| - 1], env(|sigs| - 1), fixed)
  }

  lemma {:induction false} RunKeepsInv(sigs: seq<Signal>, env: nat -> Env, fixed: bool)
    ensures Inv(Run(sigs, env, fixed))
    decreases |sigs|
  {
    if sigs != [] {
      RunKeepsInv(sigs[..|sigs| - 1], env, fixed);
      StepKeepsInv(Run(sigs[..|sigs| - 1], env, fixed), sigs[|sigs| - 1], env(|sigs| - 1), fixed);
    }
  }

  predicate NoWindow(sigs: seq<Signal>) {
    forall i :: 0 <= i < |sigs| ==> !sigs[i].WindowReady?
  }

  /** Until the first window arrives no tick is handled: nothing is drawn,
      there is no scene and the ticker stays stopped. */
  lemma {:induction false} NoFrameBeforeWindow(sigs: seq<Signal>, env: nat -> Env, fixed: bool)
    requires NoWindow(sigs)
    ensures var l := Run(sigs, env, fixed);
            l.frames == 0 && l.scene.None? && !l.ticking && l.crash.None?
    decreases |sigs|
  {
    if sigs != [] {
      var init := sigs[..|sigs| - 1];
      assert NoWindow(init) by {
        forall i | 0 <= i < |init| ensures !init[i].WindowReady? {
          assert init[i] == sigs[i];
        }
      }
      NoFrameBeforeWindow(init, env, fixed);
    }
  }

  /** Reference definition of "the ticker runs": some window arrived and no
      pause came after it. */
  predicate WindowSincePause(sigs: seq<Signal>) {
    exists i :: 0 <= i < |sigs| && sigs[i].WindowReady? && forall j :: i < j < |sigs| ==> !sigs[j].Pause?
  }

  lemma WindowSincePauseSnoc(sigs: seq<Signal>, s: Signal)
    ensures s.WindowReady? ==> WindowSincePause(sigs + [s])
    ensures s.Pause? ==> !WindowSincePause(sigs + [s])
    ensures !s.WindowReady? && !s.Pause? ==> (WindowSincePause(sigs + [s]) <==> WindowSincePause(sigs))
  {
    var t := sigs + [s];
    if s.WindowReady? {
      assert t[|sigs|].WindowReady?;
    }
    if s.Pause? {
      forall i | 0 <= i < |t| && t[i].WindowReady? ensures !t[|sigs|].Pause? ==> false {
      }
      assert t[|sigs|].Pause?;
    }
    if !s.WindowReady? && !s.Pause? {
      if WindowSincePause(t) {
        var i :| 0 <= i < |t| && t[i].WindowReady? && forall j :: i < j < |t| ==> !t[j].Pause?;
        assert i < |sigs| && sigs[i] == t[i];
        forall j | i < j < |sigs| ensures !sigs[j].Pause? {
          assert sigs[j] == t[j];
        }
      }
      if WindowSincePause(sigs) {
        var i :| 0 <= i < |sigs| && sigs[i].WindowReady? && forall j :: i < j < |sigs| ==> !sigs[j].Pause?;
        assert t[i] == sigs[i];
        forall j | i < j < |t| ensures !t[j].Pause? {
          if j < |sigs| { assert t[j] == sigs[j]; }
        }
      }
    }
  }

  /** While the loop runs, its ticker is active exactly when a window has
      arrived with no pause after it: a resume never restarts the ticker,
      only the next window does. */
  lemma {:induction false} TickingIffWindowSincePause(sigs: seq<Signal>, env: nat -> Env, fixed: bool)
    requires Run(sigs, env, fixed).running
    ensures Run(sigs, env, fixed).ticking <==> WindowSincePause(sigs)
    decreases |sigs|
  {
    if sigs != [] {
      var init := sigs[..|sigs| - 1];
      var last := sigs[|sigs| - 1];
      assert sigs == init + [last];
      WindowSincePauseSnoc(init, last);
      TickingIffWindowSincePause(init, env, fixed);
    }
  }

  /** As written, the first tick after a window panics, on B's type
      assertion if the step reports a contact and otherwise on the nil world
      pointer inside `inViewport` as soon as some box is right of the left
      edge, and the program ends. Only a step that carries every box past
      the left edge lets the tick draw. */
  lemma FirstTickPanics(width: int, height: int, env: nat -> Env)
    ensures var adv := LibGameState.Advanced(OldChipmunk.NewGameState(width, height, env(0).draws, false).boxes, env(1).pose);
            var l := Run([WindowReady(width, height), Tick], env, false);
            && (l.crash.Some? <==> env(1).contacts != [] || exists k :: 0 <= k < |adv| && ReadsWorld(adv[k]))
            && (l.crash.Some? ==>
                  && l.crash == Some(if env(1).contacts == [] then NilDereference else FailedTypeAssertion)
                  && !l.running && l.frames == 0)
            && (l.crash.None? ==> l.running && l.frames == 1)
  {
    var s := [WindowReady(width, height), Tick];
    assert s[..1] == [WindowReady(width, height)] && s[..1][..0] == [];
    var w := OldChipmunk.NewGameState(width, height, env(0).draws, false);
    var l1 := Start.(ticking := true, scene := Some(w), viewport := (width, height));
    assert Run(s[..1], env, false) == l1;
    OldChipmunk.FirstFramePanics(width, height, env(0).draws, env(1).pose, env(1).contacts);
    assert Run(s, env, false) == Step(l1, Tick, env(1), false);
  }

  /** Corrected, the first tick draws one frame, whatever contacts the step
      reports, and the loop keeps running. */
  lemma CorrectedFirstTickDraws(width: int, height: int, env: nat -> Env)
    ensures var l := Run([WindowReady(width, height), Tick], env, true);
            l.frames == 1 && l.running && l.ticking && l.crash.None?
  {
    var s := [WindowReady(width, height), Tick];
    assert s[..1] == [WindowReady(width, height)] && s[..1][..0] == [];
    var w := OldChipmunk.NewGameState(width, height, env(0).draws, true);
    var l1 := Start.(ticking := true, scene := Some(w), viewport := (width, height));
    assert Run(s[..1], env, true) == l1;
    OldChipmunk.CorrectedFirstFrameDraws(width, height, env(0).draws, env(1).pose, env(1).contacts);
    assert Run(s, env, true) == Step(l1, Tick, env(1), true);
  }

  // ---------------------------------------------------------------------------
  // Event loop

  datatype Event =
    | NativeWindowCreated(width: int, height: int)
    | ActionUpDown(down: bool, x: real, y: real)
    | ActionMove(x: real, y: real)
    | Destroy
    | NativeWindowRedrawNeeded
    | PauseEvent
    | ResumeEvent
    | OtherEvent  // any event type the loop's type switch does not name

  /** What one event sends to the render loop: a created window (its size),
      a pause, a resume; touch and redraw events are only logged, and
      event types the switch does not name are dropped. */
  function Forward(e: Event): (s: seq<Signal>)
    ensures |s| <= 1
    ensures s == [] <==> !(e.NativeWindowCreated? || e.PauseEvent? || e.ResumeEvent?)
    ensures e.NativeWindowCreated? ==> s == [WindowReady(e.width, e.height)]
    ensures e.PauseEvent? ==> s == [Pause]
    ensures e.ResumeEvent? ==> s == [Resume]
  {
    match e
    case NativeWindowCreated(width, height) => [WindowReady(width, height)]
    case PauseEvent => [Pause]
    case ResumeEvent => [Resume]
    case _ => []
  }

  predicate IsDestroy(e: Event) { e.Destroy? }

  /** `eventLoopFunc`: returns only on `DestroyEvent`, and only ever sends
      windows, pauses and resumes (never a tick or a stop). */
  function EventLoop(es: seq<Event>): (r: Dispatcher.Outcome<Signal>)
    ensures r.quit <==> Destroy in es
    ensures ControlOnly(r.sent)
  {
    var r := Dispatcher.Dispatch(es, Forward, IsDestroy);
    assert Dispatcher.QuitsWithin(es, IsDestroy) <==> Destroy in es by {
      if Destroy in es {
        var i :| 0 <= i < |es| && es[i] == Destroy;
        assert IsDestroy(es[i]);
      }
    }
    OnlyControlSignals(es);
    r
  }

  /** Only windows, pauses and resumes. */
  predicate ControlOnly(sent: seq<Signal>) {
    forall k :: 0 <= k < |sent| ==> sent[k].WindowReady? || sent[k].Pause? || sent[k].Resume?
  }

  lemma {:induction false} OnlyControlSignals(es: seq<Event>)
    ensures ControlOnly(Dispatcher.Dispatch(es, Forward, IsDestroy).sent)
    decreases |es|
  {
    if es != [] && !IsDestroy(es[0]) {
      OnlyControlSignals(es[1..]);
      var head: seq<Signal> := Forward(es[0]);
      var rest: seq<Signal> := Dispatcher.Dispatch(es[1..], Forward, IsDestroy).sent;
      assert Dispatcher.Dispatch(es, Forward, IsDestroy).sent == head + rest;
      forall k | 0 <= k < |head + rest|
        ensures (head + rest)[k].WindowReady? || (head + rest)[k].Pause? || (head + rest)[k].Resume?
      {
        if k >= |head| {
          var m := k - |head|;
          assert (head + rest)[k] == rest[m];
        }
        else {
          assert (head + rest)[k] == head[k] && k == 0;
          assert head[0].WindowReady? || head[0].Pause? || head[0].Resume?;
        }
      }
    }
  }

  /** Touch, redraw and unnamed events change nothing the render loop sees. */
  lemma LoggedEventsIgnored(a: seq<Event>, e: Event, b: seq<Event>)
    requires e.ActionUpDown? || e.ActionMove? || e.NativeWindowRedrawNeeded? || e.OtherEvent?
    ensures EventLoop(a + [e] + b) == EventLoop(a + b)
  {
    assert Forward(e) == [] && !IsDestroy(e);
    Dispatcher.SilentEventIgnored(a, e, b, Forward, IsDestroy);
  }

  /** Events after `DestroyEvent` are never read. */
  lemma NothingAfterDestroy(a: seq<Event>, b: seq<Event>)
    ensures EventLoop(a + [Destroy] + b) == EventLoop(a + [Destroy])
  {
    assert Dispatcher.QuitsWithin(a + [Destroy], IsDestroy) by {
      assert IsDestroy((a + [Destroy])[|a|]);
    }
    Dispatcher.DispatchAppend(a + [Destroy], b, Forward, IsDestroy);
  }
}

=== FILE: cube_loop.dfy ===
/** The cube example's two loops (cube/game.go): the render loop, one pure
    step per `select` case, and the event loop that feeds it. The ticker is
    a flag: a stopped ticker delivers no tick. A panic inside the render
    loop ends the program, recorded as `crash`. */
module CubeLoop {
  import opened Outcomes
  import CubeLib
  import Dispatcher

  /** Angle added on every tick. */
  const AngleStep: real := 0.05
  /** The cube turns about the y axis. */
  const SpinAxis: CubeLib.Vec3 := CubeLib.Vec3(0.0, 1.0, 0.0)
  /** `SetCamera(0, 0, 5)` in `init`. */
  const CameraZ: real := 5.0

  /** What the render loop can receive: an EGL state with its surface size,
      a tick, a viewport size, a pause or resume request, or the loop
      framework's stop request. */
  datatype Signal =
    | EglReady(width: int, height: int)
    | Tick
    | ResizeViewport(width: int, height: int)
    | Pause
    | Resume
    | Stop

  /** What `init` reads from outside the loop: whether the EGL context could
      be made current, and the texture image from the assets (or the
      error loading or decoding it). */
  datatype Env = Env(current: bool, image: Result<CubeLib.Image>)

  datatype Render = Render(
    ticking: bool,
    world: Option<CubeLib.World>,   // nil until the first EGL state; its one object is the cube
    angle: real,
    savedAngle: real,
    frames: nat,                    // frames drawn and swapped
    lastFrame: seq<CubeLib.DrawCall>,
    running: bool,
    crash: Option<Fault>)

  /** A fresh `renderState` (every field zero) with the ticker stopped. */
  const Start := Render(false, None, 0.0, 0.0, 0, [], true, None)

  /** `renderState.init`: make the context current (panic otherwise), build
      the world with the camera at z = 5, create the cube, load and attach
      its texture (panic on a load error or an empty image), and attach the
      cube. */
  function InitScene(width: int, height: int, env: Env): (r: Result<CubeLib.World>)
    ensures r.Ok? <==> env.current && env.image.Ok? && env.image.value.width > 0 && env.image.value.height > 0
    ensures !env.current ==> r.Fatal? && r.fault == EglError
    ensures r.Ok? ==>
      && r.value.width == width && r.value.height == height
      && |r.value.objects| == 1
      && r.value.objects[0].model == CubeLib.Identity
      && r.value.objects[0].texture.Some?
      && r.value.objects[0].projectionView
           == CubeLib.Product(CubeLib.ProjectionFor(width, height), CubeLib.Translate(CubeLib.Vec3(-0.0, -0.0, -CameraZ)))
      && r.value.view == CubeLib.Translate(CubeLib.Vec3(-0.0, -0.0, -CameraZ))
      && CubeLib.Synced(r.value)
  {
    if !env.current then Fatal(EglError)
    else
      var world := CubeLib.SetCamera(CubeLib.NewWorld(width, height), 0.0, 0.0, CameraZ);
      var cube := CubeLib.NewCube();
      if env.image.Fatal? then Fatal(env.image.fault)
      else
        match CubeLib.AttachTexture(cube, env.image.value)
        case Fatal(f) => Fatal(f)
        case Ok(textured) => Ok(CubeLib.Attach(world, textured))
  }

  /** Facts that hold in every state the loop reaches. */
  predicate Inv(r: Render) {
    && (r.ticking ==> r.running && r.world.Some?)
    && (r.world.Some? ==> |r.world.value.objects| == 1)
    && (r.crash.Some? ==> !r.running)
  }

  /** The cube after a tick: rotated to the absolute angle. */
  function Spin(w: CubeLib.World, angle: real): (r: CubeLib.World)
    requires |w.objects| == 1
    ensures |r.objects| == 1 && r.objects[0] == CubeLib.Rotate(w.objects[0], angle, SpinAxis)
    ensures r.(objects := w.objects) == w
  {
    w.(objects := [CubeLib.Rotate(w.objects[0], angle, SpinAxis)])
  }

  /** One `select` case. */
  function Step(r: Render, sig: Signal, env: Env): (s: Render)
    ensures !r.running ==> s == r
    ensures r.running && sig.Resume? ==> s == r.(angle := r.savedAngle)
    ensures r.running && sig.Pause? ==> s == r.(savedAngle := r.angle, ticking := false)
    ensures sig.Stop? ==> !s.running
    ensures sig.Tick? && !r.ticking ==> s == r
    ensures r.running && sig.EglReady? && InitScene(sig.width, sig.height, env).Ok? ==>
      s.ticking && s.angle == 0.0 && s.savedAngle == r.savedAngle && s.world == Some(InitScene(sig.width, sig.height, env).value)
    ensures r.running && sig.EglReady? && InitScene(sig.width, sig.height, env).Fatal? ==>
      !s.running && s.crash == Some(InitScene(sig.width, sig.height, env).fault)
    ensures sig.ResizeViewport? && r.world.None? ==> s == r
    ensures sig.ResizeViewport? && r.world.Some? ==>
      (r.world.value.width == sig.width && r.world.value.height == sig.height ==> s == r)
    ensures s.savedAngle == r.savedAngle || (r.running && sig.Pause?)
  {
    if !r.running then r
    else match sig
      case EglReady(width, height) =>
        (match InitScene(width, height, env)
         case Fatal(f) => r.(ticking := false, running := false, crash := Some(f))
         case Ok(world) => r.(world := Some(world), angle := 0.0, ticking := true))
      case Tick =>
        if !r.ticking then r
        else if r.world.None? || |r.world.value.objects| != 1 then
          r.(ticking := false, running := false, crash := Some(NilDereference))
        else
          var angle := r.angle + AngleStep;
          var world := Spin(r.world.value, angle);
          r.(angle := angle, world := Some(world), frames := r.frames + 1, lastFrame := CubeLib.DrawWorld(world))
      case ResizeViewport(width, height) =>
        if r.world.Some? && (width != r.world.value.width || height != r.world.value.height) then
          r.(world := Some(CubeLib.Resize(r.world.value, width, height)), ticking := true)
        else r
      case Pause => r.(savedAngle := r.angle, ticking := false)
      case Resume => r.(angle := r.savedAngle)
      case Stop => r.(ticking := false, running := false)
  }

  lemma StepKeepsInv(r: Render, sig: Signal, env: Env)
    requires Inv(r)
    ensures Inv(Step(r, sig, env))
  {
  }

  /** The loop after `sigs` from state `r`; the i-th signal reads `env(i)`. */
  function RunFrom(r: Render, sigs: seq<Signal>, env: nat -> Env): Render
    decreases |sigs|
  {
    if sigs == [] then r
    else Step(RunFrom(r, sigs[..|sigs| - 1], env), sigs[|sigs| - 1], env(|sigs| - 1))
  }

  lemma {:induction false} RunKeepsInv(r: Render, sigs: seq<Signal>, env: nat -> Env)
    requires Inv(r)
    ensures Inv(RunFrom(r, sigs, env))
    decreases |sigs|
  {
    if sigs != [] {
      RunKeepsInv(r, sigs[..|sigs| - 1], env);
      StepKeepsInv(RunFrom(r, sigs[..|sigs| - 1], env), sigs[|sigs| - 1], env(|sigs| - 1));
    }
  }

  predicate NoEgl(sigs: seq<Signal>) {
    forall i :: 0 <= i < |sigs| ==> !sigs[i].EglReady?
  }

  /** Until the first EGL state arrives the ticker stays stopped: nothing
      is drawn and the angle never moves. */
  lemma {:induction false} NothingBeforeEgl(sigs: seq<Signal>, env: nat -> Env)
    requires NoEgl(sigs)
    ensures var r := RunFrom(Start, sigs, env);
            r.frames == 0 && r.world.None? && !r.ticking && r.angle == 0.0 && r.savedAngle == 0.0
    decreases |sigs|
  {
    if sigs != [] {
      var init := sigs[..|sigs| - 1];
      assert NoEgl(init) by {
        forall i | 0 <= i < |init| ensures !init[i].EglReady? {
          assert init[i] == sigs[i];
        }
      }
      NothingBeforeEgl(init, env);
    }
  }

  /** A tick adds exactly 0.05 to the angle, turns the cube to that
      absolute angle and draws it once. */
  lemma TickTurnsCube(r: Render, env: Env)
    requires Inv(r) && r.running && r.ticking
    ensures var s := Step(r, Tick, env);
            && s.angle == r.angle + AngleStep
            && s.frames == r.frames + 1
            && s.world.Some? && s.world.value.objects[0].model == CubeLib.Rotation(r.angle + AngleStep, SpinAxis)
            && |s.lastFrame| == 1
            && s.lastFrame[0].model == CubeLib.Rotation(r.angle + AngleStep, SpinAxis)
  {
    var s := Step(r, Tick, env);
    CubeLib.DrawObjectsInOrder(s.world.value.objects);
  }

  /** Pause, a fresh EGL state, then resume: the angle is back where it was
      before the pause, though `init` reset it to 0, and the ticker runs. */
  lemma PauseEglResumeRestoresAngle(r: Render, width: int, height: int, env: nat -> Env)
    requires r.running && InitScene(width, height, env(1)).Ok?
    ensures var s := RunFrom(r, [Pause, EglReady(width, height), Resume], env);
            s.angle == r.angle && s.ticking && s.running
  {
    var sigs := [Pause, EglReady(width, height), Resume];
    assert sigs[..2] == [Pause, EglReady(width, height)];
    assert sigs[..2][..1] == [Pause];
    assert sigs[..2][..1][..0] == [];
    var r1 := Step(r, Pause, env(0));
    assert RunFrom(r, sigs[..2][..1], env) == r1;
    var r2 := Step(r1, EglReady(width, height), env(1));
    assert RunFrom(r, sigs[..2], env) == r2;
    assert r2.savedAngle == r.angle && r2.running && r2.ticking;
  }

  /** A resume that no pause preceded sets the angle to 0: `savedAngle` is
      still its zero value. */
  lemma {:induction false} ResumeWithoutPauseZeroes(sigs: seq<Signal>, env: nat -> Env)
    requires forall i :: 0 <= i < |sigs| ==> !sigs[i].Pause?
    requires RunFrom(Start, sigs, env).running
    ensures RunFrom(Start, sigs + [Resume], env).angle == 0.0
  {
    SavedAngleStaysZero(sigs, env);
    assert (sigs + [Resume])[..|sigs|] == sigs;
  }

  lemma {:induction false} SavedAngleStaysZero(sigs: seq<Signal>, env: nat -> Env)
    requires forall i :: 0 <= i < |sigs| ==> !sigs[i].Pause?
    ensures RunFrom(Start, sigs, env).savedAngle == 0.0
    decreases |sigs|
  {
    if sigs != [] {
      var init := sigs[..|sigs| - 1];
      forall i | 0 <= i < |init| ensures !init[i].Pause? {
        assert init[i] == sigs[i];
      }
      SavedAngleStaysZero(init, env);
    }
  }

  /** A resize to a new size restarts the ticker even while paused, and a
      resume never does. */
  lemma ResizeRestartsTicker(r: Render, width: int, height: int, env: Env)
    requires r.running && !r.ticking && r.world.Some?
    requires width != r.world.value.width || height != r.world.value.height
    ensures Step(r, ResizeViewport(width, height), env).ticking
    ensures !Step(r, Resume, env).ticking
  {
  }

  /** After a resize, the cube's projection·view no longer includes the
      camera set up in `init`. */
  lemma ResizeLosesCamera(width: int, height: int, env: Env, w2: int, h2: int)
    requires InitScene(width, height, env).Ok? && (w2 != width || h2 != height)
    ensures var world := InitScene(width, height, env).value;
            var s := Step(Start.(world := Some(world), ticking := true), ResizeViewport(w2, h2), env);
            && s.world.Some?
            && s.world.value.objects[0].projectionView == CubeLib.ProjectionFor(w2, h2)
            && !CubeLib.Synced(s.world.value)
  {
    CubeLib.ResizeDropsView(InitScene(width, height, env).value, w2, h2);
  }

  // ---------------------------------------------------------------------------
  // Event loop

  datatype Event =
    | EglInit(width: int, height: int)
    | ActionUpDown(down: bool, x: real, y: real)
    | ActionMove(x: real, y: real)
    | Destroy
    | NativeWindowRedrawNeeded(width: int, height: int)
    | PauseEvent
    | ResumeEvent
    | OtherEvent  // any event type the loop's type switch does not name

  /** What one event sends to the render loop: the EGL state, the window's
      size on a redraw request, a pause, a resume; touch events are only
      logged, and event types the switch does not name are dropped. */
  function Forward(e: Event): (s: seq<Signal>)
    ensures |s| <= 1
    ensures s == [] <==> (e.ActionUpDown? || e.ActionMove? || e.Destroy? || e.OtherEvent?)
    ensures e.EglInit? ==> s == [EglReady(e.width, e.height)]
    ensures e.NativeWindowRedrawNeeded? ==> s == [ResizeViewport(e.width, e.height)]
    ensures e.PauseEvent? ==> s == [Pause]
    ensures e.ResumeEvent? ==> s == [Resume]
  {
    match e
    case EglInit(width, height) => [EglReady(width, height)]
    case NativeWindowRedrawNeeded(width, height) => [ResizeViewport(width, height)]
    case PauseEvent => [Pause]
    case ResumeEvent => [Resume]
    case _ => []
  }

  predicate IsDestroy(e: Event) { e.Destroy? }

  /** Never a tick or a stop: those come from the ticker and the loop
      framework. */
  predicate ControlOnly(sent: seq<Signal>) {
    forall k :: 0 <= k < |sent| ==> !sent[k].Tick? && !sent[k].Stop?
  }

  /** `eventLoopFunc`: returns only on `DestroyEvent`, and never sends a
      tick or a stop. */
  function EventLoop(es: seq<Event>): (r: Dispatcher.Outcome<Signal>)
    ensures r.quit <==> Destroy in es
    ensures ControlOnly(r.sent)
  {
    var r := Dispatcher.Dispatch(es, Forward, IsDestroy);
    assert Dispatcher.QuitsWithin(es, IsDestroy) <==> Destroy in es by {
      if Destroy in es {
        var i :| 0 <= i < |es| && es[i] == Destroy;
        assert IsDestroy(es[i]);
      }
    }
    OnlyControlSignals(es);
    r
  }

  lemma {:induction false} OnlyControlSignals(es: seq<Event>)
    ensures ControlOnly(Dispatcher.Dispatch(es, Forward, IsDestroy).sent)
    decreases |es|
  {
    if es != [] && !IsDestroy(es[0]) {
      OnlyControlSignals(es[1..]);
      var head: seq<Signal> := Forward(es[0]);
      var rest: seq<Signal> := Dispatcher.Dispatch(es[1..], Forward, IsDestroy).sent;
      assert Dispatcher.Dispatch(es, Forward, IsDestroy).sent == head + rest;
      forall k | 0 <= k < |head + rest| ensures !(head + rest)[k].Tick? && !(head + rest)[k].Stop? {
        if k >= |head| {
          var m := k - |head|;
          assert (head + rest)[k] == rest[m];
        } else {
          assert (head + rest)[k] == head[k] && k == 0;
        }
      }
    }
  }

  /** Touch events and unnamed events change nothing the render loop sees. */
  lemma TouchEventsIgnored(a: seq<Event>, e: Event, b: seq<Event>)
    requires e.ActionUpDown? || e.ActionMove? || e.OtherEvent?
    ensures EventLoop(a + [e] + b) == EventLoop(a + b)
  {
    assert Forward(e) == [] && !IsDestroy(e);
    Dispatcher.SilentEventIgnored(a, e, b, Forward, IsDestroy);
  }

  /** Events after `DestroyEvent` are never read. */
  lemma NothingAfterDestroy(a: seq<Event>, b: seq<Event>)
    ensures EventLoop(a + [Destroy] + b) == EventLoop(a + [Destroy])
  {
    assert Dispatcher.QuitsWithin(a + [Destroy], IsDestroy) by {
      assert IsDestroy((a + [Destroy])[|a|]);
    }
    Dispatcher.DispatchAppend(a + [Destroy], b, Forward, IsDestroy);
  }
}

=== FILE: cubelib.dfy ===
/** The cube library (cube/cubelib/cube.go and world.go): a textured cube
    with its vertex and index tables, RGBA texture packing, and a world
    that hands each attached cube its projection·view matrix. GL calls are
    effects left out. Matrices are compared as terms; numeric identities
    such as P·I = P are not used, so a lemma that claims two matrices
    differ asks for views that differ as matrices (`DistinctViews`). */
module CubeLib {
  import opened Outcomes

  /** Bytes per float32. */
  const SizeOfFloat: nat := 4
  const TexCoordMax: real := 1.0

  /** Layout of one vertex in the table: four position components, then two
      texture coordinates, six floats in all. */
  const PosComponents: nat := 4
  const TexOffset: nat := 4
  const TexComponents: nat := 2
  const Stride: nat := 6

  const NumVertices: nat := 24
  const NumFaces: nat := 6

  datatype Vec3 = Vec3(x: real, y: real, z: real)

  /** Matrix terms: `Perspective` keeps the viewport size that its aspect
      ratio float32(width)/float32(height) comes from; `Product(a, b)` is
      `a.Mul4(b)`; `Zero` is an unset Mat4f. */
  datatype Mat =
    | Identity
    | Zero
    | Perspective(fovy: real, width: int, height: int, near: real, far: real)
    | Translate(offset: Vec3)
    | Rotation(angle: real, axis: Vec3)
    | Product(left: Mat, right: Mat)

  /** The translation a view matrix applies, for the identity and plain
      translations, the only views `NewWorld` and `SetCamera` build. */
  function ViewOffset(m: Mat): Option<Vec3> {
    match m
    case Identity => Some(Vec3(0.0, 0.0, 0.0))
    case Translate(v) => Some(v)
    case _ => None
  }

  /** Two views that are different matrices: both translations (the
      identity being the zero one) by different offsets. Multiplied by an
      invertible perspective projection, they give different products. */
  predicate DistinctViews(a: Mat, b: Mat) {
    ViewOffset(a).Some? && ViewOffset(b).Some? && ViewOffset(a) != ViewOffset(b)
  }

  // ---------------------------------------------------------------------------
  // Buffers and tables

  /** A GL array buffer: the data kept for drawing and the byte count
      uploaded. */
  datatype Buffer<T> = Buffer(data: seq<T>, bytes: nat)

  /** `NewBufferFloat`: uploads four bytes per float; `&data[0]` panics on
      empty data. */
  function NewBufferFloat(data: seq<real>): (r: Result<Buffer<real>>)
    ensures r.Fatal? <==> |data| == 0
    ensures r.Fatal? ==> r.fault == IndexOutOfRange
    ensures r.Ok? ==> r.value.data == data && r.value.bytes == SizeOfFloat * |data|
  {
    if |data| == 0 then Fatal(IndexOutOfRange) else Ok(Buffer(data, |data| * SizeOfFloat))
  }

  /** `NewBufferByte`: uploads one byte per element; `&data[0]` panics on
      empty data. */
  function NewBufferByte(data: seq<byte>): (r: Result<Buffer<byte>>)
    ensures r.Fatal? <==> |data| == 0
    ensures r.Fatal? ==> r.fault == IndexOutOfRange
    ensures r.Ok? ==> r.value.data == data && r.value.bytes == |data|
  {
    if |data| == 0 then Fatal(IndexOutOfRange) else Ok(Buffer(data, |data|))
  }

  /** The vertex table, four vertices per face: position (x, y, z, 1) and
      texture coordinates (u, v), with TEX_COORD_MAX written as 1. */
  const Vertices: seq<real> := FrontFace + BackFace + LeftFace + RightFace + TopFace + BottomFace

  const FrontFace: seq<real> := [
    1.0, -1.0, 1.0, 1.0, 1.0, 0.0,
    1.0, 1.0, 1.0, 1.0, 1.0, 1.0,
    -1.0, 1.0, 1.0, 1.0, 0.0, 1.0,
    -1.0, -1.0, 1.0, 1.0, 0.0, 0.0
  ]
  const BackFace: seq<real> := [
    1.0, 1.0, -1.0, 1.0, 1.0, 0.0,
    -1.0, -1.0, -1.0, 1.0, 0.0, 1.0,
    1.0, -1.0, -1.0, 1.0, 1.0, 1.0,
    -1.0, 1.0, -1.0, 1.0, 0.0, 0.0
  ]
  const LeftFace: seq<real> := [
    -1.0, -1.0, 1.0, 1.0, 1.0, 0.0,
    -1.0, 1.0, 1.0, 1.0, 1.0, 1.0,
    -1.0, 1.0, -1.0, 1.0, 0.0, 1.0,
    -1.0, -1.0, -1.0, 1.0, 0.0, 0.0
  ]
  const RightFace: seq<real> := [
    1.0, -1.0, -1.0, 1.0, 1.0, 0.0,
    1.0, 1.0, -1.0, 1.0, 1.0, 1.0,
    1.0, 1.0, 1.0, 1.0, 0.0, 1.0,
    1.0, -1.0, 1.0, 1.0, 0.0, 0.0
  ]
  const TopFace: seq<real> := [
    1.0, 1.0, 1.0, 1.0, 1.0, 0.0,
    1.0, 1.0, -1.0, 1.0, 1.0, 1.0,
    -1.0, 1.0, -1.0, 1.0, 0.0, 1.0,
    -1.0, 1.0, 1.0, 1.0, 0.0, 0.0
  ]
  const BottomFace: seq<real> := [
    1.0, -1.0, -1.0, 1.0, 1.0, 0.0,
    1.0, -1.0, 1.0, 1.0, 1.0, 1.0,
    -1.0, -1.0, 1.0, 1.0, 0.0, 1.0,
    -1.0, -1.0, -1.0, 1.0, 0.0, 0.0
  ]

  /** The tables agree with the attribute pointers `Draw` sets up: 24
      vertices of six floats, four per face (stride 6·4 bytes, texture
      coordinates 4·4 bytes in, after the four position components). */
  lemma VertexTableLayout()
    ensures |Vertices| == NumVertices * Stride
    ensures |FrontFace| == |BackFace| == |LeftFace| == |RightFace| == |TopFace| == |BottomFace| == 4 * Stride
    ensures PosComponents <= TexOffset && TexOffset + TexComponents == Stride
  {
  }

  /** The six entries of face `f` (front, back, left, right, top, bottom),
      two triangles over that face's four corners. */
  function FaceIndices(f: int): (t: seq<byte>)
    requires 0 <= f < NumFaces
    ensures |t| == 6
    ensures forall i :: 0 <= i < 6 ==> 4 * f <= t[i] as int < 4 * f + 4
    ensures forall v: byte :: 4 * f <= v as int < 4 * f + 4 ==> v in t
  {
    if f == 0 then [0, 1, 2, 2, 3, 0]
    else if f == 1 then [4, 5, 6, 4, 5, 7]
    else if f == 2 then [8, 9, 10, 10, 11, 8]
    else if f == 3 then [12, 13, 14, 14, 15, 12]
    else if f == 4 then [16, 17, 18, 18, 19, 16]
    else [20, 21, 22, 22, 23, 20]
  }

  /** The entries of the first `n` faces, in table order. */
  function FacesIndices(n: nat): (t: seq<byte>)
    requires n <= NumFaces
    ensures |t| == 6 * n
  {
    if n == 0 then [] else FacesIndices(n - 1) + FaceIndices(n - 1)
  }

  /** The index table: two triangles per face, face after face. */
  const Indices: seq<byte> := FacesIndices(NumFaces)

  /** Entry `k` of the table is entry `k % 6` of face `k / 6`. */
  lemma {:induction false} FacesIndicesAt(n: nat, k: int)
    requires n <= NumFaces && 0 <= k < 6 * n
    ensures FacesIndices(n)[k] == FaceIndices(k / 6)[k % 6]
  {
    if k < 6 * (n - 1) {
      FacesIndicesAt(n - 1, k);
    } else {
      DivModUnique(k, 6, n - 1, k - 6 * (n - 1));
    }
  }

  /** The index table: 36 entries (two triangles per face), each a valid
      vertex number, each face's triangles using only that face's four
      vertices, and every vertex used. */
  lemma IndexTableLayout()
    ensures |Indices| == NumFaces * 2 * 3
    ensures forall k :: 0 <= k < |Indices| ==> Indices[k] as int < NumVertices
    ensures forall k :: 0 <= k < |Indices| ==> 4 * (k / 6) <= Indices[k] as int < 4 * (k / 6) + 4
    ensures forall v: byte :: v as int < NumVertices ==> v in Indices
  {
    forall k | 0 <= k < |Indices|
      ensures 4 * (k / 6) <= Indices[k] as int < 4 * (k / 6) + 4
    {
      FacesIndicesAt(NumFaces, k);
    }
    forall v: byte | v as int < NumVertices ensures v in Indices {
      var f := v as int / 4;
      assert 4 * f <= v as int < 4 * f + 4;
      assert v in FaceIndices(f);
      var i :| 0 <= i < 6 && FaceIndices(f)[i] == v;
      DivModUnique(6 * f + i, 6, f, i);
      FacesIndicesAt(NumFaces, 6 * f + i);
      assert Indices[6 * f + i] == v;
    }
  }

  // ---------------------------------------------------------------------------
  // Texture packing

  /** A 16-bit-per-channel colour as returned by `RGBA()`. */
  datatype Rgba = Rgba(r: nat, g: nat, b: nat, a: nat)

  /** An image: its bounds' minimum corner, its size, and its pixels. */
  datatype Image = Image(minX: int, minY: int, width: nat, height: nat, at: (int, int) -> Rgba)

  function Channel(p: Rgba, c: nat): nat {
    if c == 0 then p.r else if c == 1 then p.g else if c == 2 then p.b else p.a
  }

  /** `byte(v)`: Go's conversion keeps the low eight bits. */
  function LowByte(v: nat): byte {
    (v % 256) as byte
  }

  /** A channel of the form v·0x101 (an 8-bit value widened to 16 bits)
      converts back to v. */
  lemma LowByteOfWidened(v: nat)
    requires v < 256
    ensures LowByte(v * 0x101) as int == v
  {
    DivModUnique(v * 0x101, 256, v, v);
  }

  lemma DivModUnique(a: int, d: int, q: int, r: int)
    requires d > 0 && 0 <= r < d && a == q * d + r
    ensures a / d == q && a % d == r
  {
    var q', r' := a / d, a % d;
    assert (q - q') * d == r' - r;
    if q' < q {
      MulAtLeast(q - q', d);
    } else if q < q' {
      assert (q' - q) * d == r - r';
      MulAtLeast(q' - q, d);
    }
  }

  lemma MulAtLeast(k: int, d: int)
    requires k >= 1 && d > 0
    ensures k * d >= d
  {
  }

  /** Byte i of the packed texture: pixel i/4 in row-major order over the
      image's bounds, channel i%4 (red, green, blue, alpha). */
  function ByteAt(img: Image, i: nat): byte {
    if img.width == 0 then 0
    else
      var p := i / 4;
      LowByte(Channel(img.at(img.minX + p % img.width, img.minY + p / img.width), i % 4))
  }

  /** Reference definition of the packed texture. */
  function Packed(img: Image): seq<byte> {
    seq(4 * img.width * img.height, i requires 0 <= i => ByteAt(img, i))
  }

  /** Pixel (minX + x, minY + y), channel c, lands at offset
      4·(y·width + x) + c, inside the buffer. */
  lemma {:induction false} PixelOffset(img: Image, x: nat, y: nat, c: nat)
    requires x < img.width && y < img.height && c < 4
    ensures 4 * (y * img.width + x) + c < 4 * img.width * img.height
    ensures ByteAt(img, 4 * (y * img.width + x) + c) == LowByte(Channel(img.at(img.minX + x, img.minY + y), c))
  {
    var p := y * img.width + x;
    RowMajorBound(x, y, img.width, img.height);
    DivModUnique(4 * p + c, 4, p, c);
    DivModUnique(p, img.width, y, x);
  }

  lemma RowMajorBound(x: nat, y: nat, w: nat, h: nat)
    requires x < w && y < h
    ensures y * w + x < w * h
    ensures 4 * (y * w + x) + 4 <= 4 * w * h
  {
    assert y * w + x < y * w + w == (y + 1) * w;
    MulMono(y + 1, h, w);
  }

  lemma MulMono(a: nat, b: nat, w: nat)
    requires a <= b
    ensures a * w <= b * w
  {
  }

  /** The four bytes of pixel (minX + x, minY + y), at offset
      n = 4·(y·width + x), all inside the buffer. */
  lemma PixelBytes(img: Image, x: nat, y: nat, n: nat)
    requires x < img.width && y < img.height && n == 4 * (y * img.width + x)
    ensures n + 4 <= 4 * img.width * img.height
    ensures var p := img.at(img.minX + x, img.minY + y);
            && ByteAt(img, n) == LowByte(p.r) && ByteAt(img, n + 1) == LowByte(p.g)
            && ByteAt(img, n + 2) == LowByte(p.b) && ByteAt(img, n + 3) == LowByte(p.a)
  {
    RowMajorBound(x, y, img.width, img.height);
    PixelOffset(img, x, y, 0);
    PixelOffset(img, x, y, 1);
    PixelOffset(img, x, y, 2);
    PixelOffset(img, x, y, 3);
  }

  lemma RowEndBound(dy: nat, w: nat, h: nat)
    requires dy < h
    ensures 4 * (dy * w + w) <= 4 * w * h
  {
    MulMono(dy + 1, h, w);
    assert dy * w + w == (dy + 1) * w;
  }

  lemma NextRow(y: nat, w: nat)
    ensures 4 * (y * w + w) == 4 * ((y + 1) * w)
  {
  }

  /** The `AttachTexture` loops: every pixel row by row, four bytes each,
      into a buffer of exactly 4·width·height bytes. */
  method PackRgba(img: Image) returns (buf: seq<byte>)
    ensures |buf| == 4 * img.width * img.height
    ensures forall i :: 0 <= i < |buf| ==> buf[i] == ByteAt(img, i)
    ensures buf == Packed(img)
  {
    var w, h := img.width, img.height;
    var a := new byte[4 * w * h];
    var index := 0;
    var y := img.minY;
    while y < img.minY + h
      invariant img.minY <= y <= img.minY + h
      invariant index == 4 * ((y - img.minY) * w)
      invariant index <= a.Length
      invariant forall i :: 0 <= i < index ==> a[i] == ByteAt(img, i)
      decreases img.minY + h - y
    {
      index := PackRow(img, a, y, index);
      NextRow(y - img.minY, w);
      y := y + 1;
    }
    buf := a[..];
    assert |buf| == index;
  }

  /** The inner loop of `AttachTexture`: the pixels of row y, left to
      right, after the rows above it. */
  method PackRow(img: Image, a: array<byte>, y: int, start: nat) returns (index: nat)
    requires a.Length == 4 * img.width * img.height
    requires img.minY <= y < img.minY + img.height && start == 4 * ((y - img.minY) * img.width)
    requires forall i :: 0 <= i < start ==> a[i] == ByteAt(img, i)
    modifies a
    ensures index == 4 * ((y - img.minY) * img.width + img.width) && index <= a.Length
    ensures forall i :: 0 <= i < index ==> a[i] == ByteAt(img, i)
  {
    RowEndBound(y - img.minY, img.width, img.height);
    index := start;
    var x := img.minX;
    while x < img.minX + img.width
      invariant img.minX <= x <= img.minX + img.width
      invariant index == 4 * ((y - img.minY) * img.width + (x - img.minX))
      invariant index <= a.Length
      invariant forall i :: 0 <= i < index ==> a[i] == ByteAt(img, i)
      decreases img.minX + img.width - x
    {
      var px := img.at(x, y);
      PixelBytes(img, x - img.minX, y - img.minY, index);
      a[index] := LowByte(px.r);
      a[index + 1] := LowByte(px.g);
      a[index + 2] := LowByte(px.b);
      a[index + 3] := LowByte(px.a);
      index := index + 4;
      x := x + 1;
    }
  }

  // ---------------------------------------------------------------------------
  // Cube

  datatype Texture = Texture(width: nat, height: nat, pixels: seq<byte>)

  datatype Cube = Cube(
    vertices: Buffer<real>,
    indices: Buffer<byte>,
    texture: Option<Texture>,
    model: Mat,
    projectionView: Mat)

  /** `NewCube`: identity model, the two tables uploaded, no texture yet and
      an unset projection·view. */
  function NewCube(): (c: Cube)
    ensures c.model == Identity && c.projectionView == Zero && c.texture.None?
    ensures c.vertices.data == Vertices && c.vertices.bytes == NumVertices * Stride * SizeOfFloat
    ensures c.indices.data == Indices && c.indices.bytes == NumFaces * 6
  {
    Cube(NewBufferFloat(Vertices).value, NewBufferByte(Indices).value, None, Identity, Zero)
  }

  /** `Rotate`: the model becomes a rotation by the absolute angle. */
  function Rotate(c: Cube, angle: real, axis: Vec3): (r: Cube)
    ensures r.model.Rotation? && r.model.angle == angle && r.model.axis == axis
    ensures r.(model := c.model) == c
  {
    c.(model := Rotation(angle, axis))
  }

  /** Rotations do not accumulate: only the last one counts. */
  lemma RotateForgets(c: Cube, a1: real, x1: Vec3, a2: real, x2: Vec3)
    ensures Rotate(Rotate(c, a1, x1), a2, x2) == Rotate(c, a2, x2)
  {
  }

  /** `AttachTexture`: pack the image, then upload it; `&buffer[0]` panics on
      a zero-area image. */
  function AttachTexture(c: Cube, img: Image): (r: Result<Cube>)
    ensures r.Fatal? <==> img.width == 0 || img.height == 0
    ensures r.Fatal? ==> r.fault == IndexOutOfRange
    ensures r.Ok? ==> r.value.texture.Some? && r.value.texture.value.width == img.width
                      && r.value.texture.value.height == img.height
                      && |r.value.texture.value.pixels| == 4 * img.width * img.height
    ensures r.Ok? ==> r.value.texture.value.pixels == Packed(img)
    ensures r.Ok? ==> r.value.(texture := c.texture) == c
  {
    var buf := Packed(img);
    if img.width * img.height == 0 then Fatal(IndexOutOfRange)
    else Ok(c.(texture := Some(Texture(img.width, img.height, buf))))
  }

  /** The uploaded texture holds every pixel of the image, row by row from
      the bounds' minimum corner, as its red, green, blue and alpha low
      bytes at offset 4·(y·width + x). */
  lemma AttachTextureHoldsPixels(c: Cube, img: Image, x: nat, y: nat)
    requires x < img.width && y < img.height
    ensures AttachTexture(c, img).Ok?
    ensures var t := AttachTexture(c, img).value.texture.value.pixels;
            var p := img.at(img.minX + x, img.minY + y);
            var n := 4 * (y * img.width + x);
            && n + 4 <= |t|
            && t[n..n + 4] == [LowByte(p.r), LowByte(p.g), LowByte(p.b), LowByte(p.a)]
  {
    var n := 4 * (y * img.width + x);
    PixelBytes(img, x, y, n);
    var t := AttachTexture(c, img).value.texture.value.pixels;
    assert t[n..n + 4] == [t[n], t[n + 1], t[n + 2], t[n + 3]];
  }

  /** One `Cube.Draw`: the matrices bound as uniforms, the texture, and the
      index count handed to DrawElements; attribute stride and texture
      offset in bytes. */
  datatype DrawCall = DrawCall(model: Mat, projectionView: Mat, texture: Option<Texture>,
                               count: nat, strideBytes: nat, texOffsetBytes: nat)

  function DrawCube(c: Cube): (d: DrawCall)
    ensures d.model == c.model && d.projectionView == c.projectionView && d.texture == c.texture
    ensures d.count == |c.indices.data|
    ensures d.strideBytes == Stride * SizeOfFloat && d.texOffsetBytes == TexOffset * SizeOfFloat
  {
    DrawCall(c.model, c.projectionView, c.texture, |c.indices.data|, SizeOfFloat * 6, 4 * SizeOfFloat)
  }

  /** A fresh cube draws all 36 indices, two triangles per face. */
  lemma NewCubeDrawsWholeTable()
    ensures DrawCube(NewCube()).count == NumFaces * 2 * 3
  {
  }

  // ---------------------------------------------------------------------------
  // World

  const FieldOfView: real := 60.0
  const Near: real := 1.0
  const Far: real := 20.0

  datatype World = World(
    width: int,
    height: int,
    view: Mat,
    projection: Mat,
    projectionView: Mat,
    objects: seq<Cube>)

  function ProjectionFor(width: int, height: int): Mat {
    Perspective(FieldOfView, width, height, Near, Far)
  }

  /** `NewWorld`: the given size, no objects, a 60° perspective for that
      size and an identity view. */
  function NewWorld(width: int, height: int): (w: World)
    ensures w.width == width && w.height == height && w.objects == []
    ensures w.projection == ProjectionFor(width, height) && w.view == Identity
  {
    World(width, height, Identity, ProjectionFor(width, height), Zero, [])
  }

  /** Every attached object holds projection·view of the world's current
      matrices. */
  predicate Synced(w: World) {
    forall k :: 0 <= k < |w.objects| ==> w.objects[k].projectionView == Product(w.projection, w.view)
  }

  /** `Attach`: appends the cube last, handing it projection·view. */
  function Attach(w: World, c: Cube): (r: World)
    ensures |r.objects| == |w.objects| + 1 && r.objects[..|w.objects|] == w.objects
    ensures r.objects[|w.objects|] == c.(projectionView := Product(w.projection, w.view))
    ensures r.projectionView == Product(w.projection, w.view)
    ensures r.(projectionView := w.projectionView, objects := w.objects) == w
    ensures Synced(w) ==> Synced(r)
  {
    var pv := Product(w.projection, w.view);
    w.(projectionView := pv, objects := w.objects + [c.(projectionView := pv)])
  }

  /** `SetCamera`: the view becomes a translation by the negated camera
      position; nothing already attached is updated. */
  function SetCamera(w: World, x: real, y: real, z: real): (r: World)
    ensures r.view == Translate(Vec3(-x, -y, -z))
    ensures r.(view := w.view) == w
  {
    w.(view := Translate(Vec3(-x, -y, -z)))
  }

  /** After moving the camera, objects attached before still hold the old
      projection·view, so the world is no longer in sync. */
  lemma SetCameraLeavesObjectsStale(w: World, x: real, y: real, z: real)
    requires |w.objects| > 0 && Synced(w) && DistinctViews(w.view, Translate(Vec3(-x, -y, -z)))
    ensures !Synced(SetCamera(w, x, y, z))
  {
    assert SetCamera(w, x, y, z).objects[0] == w.objects[0];
  }

  /** Every object gets `pv`; nothing else about it changes. */
  function WithProjectionView(objects: seq<Cube>, pv: Mat): (r: seq<Cube>)
    ensures |r| == |objects|
    ensures forall k :: 0 <= k < |r| ==> r[k] == objects[k].(projectionView := pv)
  {
    seq(|objects|, k requires 0 <= k < |objects| => objects[k].(projectionView := pv))
  }

  /** `Resize` as written: the new size and projection, and every object
      gets the world's projectionView, which is the projection alone since
      the product with the view is discarded. */
  function Resize(w: World, width: int, height: int): (r: World)
    ensures r.width == width && r.height == height
    ensures r.projection == ProjectionFor(width, height)
    ensures |r.objects| == |w.objects|
    ensures forall k :: 0 <= k < |r.objects| ==>
      r.objects[k].projectionView == r.projectionView && r.objects[k].(projectionView := w.objects[k].projectionView) == w.objects[k]
    ensures r.projectionView == r.projection
    ensures r.view == w.view
  {
    var p := ProjectionFor(width, height);
    w.(width := width, height := height, projection := p, projectionView := p,
       objects := WithProjectionView(w.objects, p))
  }

  /** `Resize` keeping the `Mul4` result, as `Attach` does. */
  function ResizeCorrected(w: World, width: int, height: int): (r: World)
    ensures r.width == width && r.height == height
    ensures r.projection == ProjectionFor(width, height)
    ensures |r.objects| == |w.objects|
    ensures forall k :: 0 <= k < |r.objects| ==>
      r.objects[k].projectionView == r.projectionView && r.objects[k].(projectionView := w.objects[k].projectionView) == w.objects[k]
    ensures r.projectionView == Product(r.projection, r.view)
    ensures r.view == w.view
  {
    var p := ProjectionFor(width, height);
    var pv := Product(p, w.view);
    w.(width := width, height := height, projection := p, projectionView := pv,
       objects := WithProjectionView(w.objects, pv))
  }

  /** As written, a resize leaves every attached object without the camera:
      once the camera has moved off the origin, a world is out of sync after
      `Resize`. (With the identity view the two resizes agree as matrices.) */
  lemma ResizeDropsView(w: World, width: int, height: int)
    requires |w.objects| > 0 && DistinctViews(w.view, Identity)
    ensures !Synced(Resize(w, width, height))
    ensures Resize(w, width, height).objects[0].projectionView != ResizeCorrected(w, width, height).objects[0].projectionView
  {
    var r := Resize(w, width, height);
    assert r.objects[0].projectionView == ProjectionFor(width, height);
    assert r.objects[0].projectionView != Product(r.projection, r.view);
  }

  /** The corrected resize always leaves the world in sync, and agrees with
      the one as written on everything but the projection·view. */
  lemma ResizeCorrectedSyncs(w: World, width: int, height: int)
    ensures Synced(ResizeCorrected(w, width, height))
    ensures ResizeCorrected(w, width, height).(projectionView := Resize(w, width, height).projectionView,
              objects := Resize(w, width, height).objects) == Resize(w, width, height)
  {
  }

  /** `World.Draw`: clears, then draws each object once, in attach order. */
  function DrawWorld(w: World): (calls: seq<DrawCall>)
    ensures |calls| == |w.objects|
  {
    DrawObjects(w.objects)
  }

  function DrawObjects(objects: seq<Cube>): (calls: seq<DrawCall>)
    ensures |calls| == |objects|
  {
    if |objects| == 0 then [] else DrawObjects(objects[..|objects| - 1]) + [DrawCube(objects[|objects| - 1])]
  }

  /** Drawing after an attach draws what was drawn before and then the new
      object, so draws follow attach order. */
  lemma DrawAfterAttach(w: World, c: Cube)
    ensures DrawWorld(Attach(w, c)) == DrawWorld(w) + [DrawCube(c.(projectionView := Product(w.projection, w.view)))]
  {
    var os := Attach(w, c).objects;
    assert os[..|os| - 1] == w.objects;
  }

  /** Each draw call is that object's, at its own position. */
  lemma {:induction false} DrawObjectsInOrder(objects: seq<Cube>)
    ensures forall k :: 0 <= k < |objects| ==> DrawObjects(objects)[k] == DrawCube(objects[k])
    decreases |objects|
  {
    if |objects| > 0 {
      DrawObjectsInOrder(objects[..|objects| - 1]);
    }
  }
}

=== FILE: dispatcher.dfy ===
/** The shape shared by both `eventLoopFunc`s: read framework events one at a
    time, forward some of them to the render loop as control signals, log the
    rest, and return at the first event that ends the application. Channel
    blocking is not modelled; a forwarded signal is simply appended. */
module Dispatcher {

  /** What an event loop did with a stream of events: the signals it sent,
      in order, and whether it returned. */
  datatype Outcome<S> = Outcome(sent: seq<S>, quit: bool)

  predicate QuitsWithin<E>(es: seq<E>, quits: E -> bool) {
    exists i :: 0 <= i < |es| && quits(es[i])
  }

  /** The event loop: `forward(e)` is what event `e` sends (empty for events
      that are only logged); the loop returns at the first `quits` event and
      never reads past it. */
  function Dispatch<E, S>(es: seq<E>, forward: E -> seq<S>, quits: E -> bool): (r: Outcome<S>)
    ensures r.quit <==> QuitsWithin(es, quits)
    decreases |es|
  {
    if es == [] then Outcome([], false)
    else if quits(es[0]) then Outcome([], true)
    else
      var rest := Dispatch(es[1..], forward, quits);
      assert QuitsWithin(es[1..], quits) <==> QuitsWithin(es, quits) by {
        if QuitsWithin(es, quits) {
          var i :| 0 <= i < |es| && quits(es[i]);
          assert i > 0 && es[1..][i - 1] == es[i];
        }
        if QuitsWithin(es[1..], quits) {
          var i :| 0 <= i < |es[1..]| && quits(es[1..][i]);
          assert es[i + 1] == es[1..][i];
        }
      }
      Outcome(forward(es[0]) + rest.sent, rest.quit)
  }

  /** Reference definition: everything a stream forwards when nothing stops
      the loop, folded from the end. */
  function Forwarded<E, S>(es: seq<E>, forward: E -> seq<S>): seq<S>
    decreases |es|
  {
    if es == [] then [] else Forwarded(es[..|es| - 1], forward) + forward(es[|es| - 1])
  }

  /** Running the loop over `a + b` is running it over `a` and then, if it is
      still listening, over `b`; once it has returned, later events change
      nothing. */
  lemma {:induction false} DispatchAppend<E, S>(a: seq<E>, b: seq<E>, forward: E -> seq<S>, quits: E -> bool)
    ensures QuitsWithin(a, quits) ==> Dispatch(a + b, forward, quits) == Dispatch(a, forward, quits)
    ensures !QuitsWithin(a, quits) ==>
      Dispatch(a + b, forward, quits) ==
        Outcome(Dispatch(a, forward, quits).sent + Dispatch(b, forward, quits).sent, Dispatch(b, forward, quits).quit)
    decreases |a|
  {
    if a == [] {
      assert a + b == b;
    } else {
      assert (a + b)[0] == a[0];
      assert (a + b)[1..] == a[1..] + b;
      if !quits(a[0]) {
        DispatchAppend(a[1..], b, forward, quits);
      }
    }
  }

  /** An event that forwards nothing and does not quit can be dropped from
      any stream without changing what the loop does. */
  lemma SilentEventIgnored<E, S>(a: seq<E>, e: E, b: seq<E>, forward: E -> seq<S>, quits: E -> bool)
    requires forward(e) == [] && !quits(e)
    ensures Dispatch(a + [e] + b, forward, quits) == Dispatch(a + b, forward, quits)
  {
    DispatchAppend(a, [e] + b, forward, quits);
    DispatchAppend(a, b, forward, quits);
    assert ([e] + b)[0] == e && ([e] + b)[1..] == b;
    assert Dispatch([e] + b, forward, quits) == Dispatch(b, forward, quits);
    assert a + [e] + b == a + ([e] + b);
  }

  /** A stream without a quitting event sends exactly what the reference
      fold forwards, in the same order. */
  lemma {:induction false} QuietStreamForwardsAll<E, S>(es: seq<E>, forward: E -> seq<S>, quits: E -> bool)
    requires !QuitsWithin(es, quits)
    ensures Dispatch(es, forward, quits) == Outcome(Forwarded(es, forward), false)
    decreases |es|
  {
    if es != [] {
      var init := es[..|es| - 1];
      var last := es[|es| - 1];
      assert es == init + [last];
      assert !QuitsWithin(init, quits) by {
        forall i | 0 <= i < |init| ensures !quits(init[i]) {
          assert init[i] == es[i];
        }
      }
      QuietStreamForwardsAll(init, forward, quits);
      DispatchAppend(init, [last], forward, quits);
      assert !quits(last) by { assert es[|es| - 1] == last; }
      assert [last][1..] == [];
    }
  }
}

=== FILE: lib_box.dfy ===
/** A falling box of the physics demo (chipmunklib/box.go): one physics body
    with a box shape, paired with one drawable rectangle. The physics engine
    and the GL shapes library are external; a body is an id with the pose the
    engine reports, a drawable is its size and the pose it was last drawn at. */
module LibBox {
  import opened Outcomes

  type BodyId = nat

  datatype Vec = Vec(x: real, y: real)

  /** Mass and elasticity given to every box body. */
  const BoxMass: real := 5.0
  const BoxElasticity: real := 0.6

  /** Squared pick radius of a tap, in pixel² (50 · 50). */
  const BoxSize: real := 2500.0

  /** Degrees per radian, the physics library's `DegreeConst` (180/π written out). */
  const DegreeConst: real := 57.2957795130823208767981548141051703

  /** A physics body: its id, mass, and the pose the engine holds for it. */
  datatype Body = Body(id: BodyId, mass: real, pos: Vec, angle: real)

  /** The physics box shape attached to the body, centred on it. */
  datatype Shape = Shape(width: real, height: real, elasticity: real)

  /** The drawable: its size, and the centre and rotation (degrees) it was last moved to. */
  datatype Sprite = Sprite(width: real, height: real, centre: Vec, rotation: real)

  /** `attached` stands for the `box.world` back pointer being set. */
  datatype Box = Box(body: Body, shape: Shape, sprite: Sprite, attached: bool)

  /** `newBox(world, width, height)` with body id `id`: a body of mass
      `BoxMass` at the origin, a shape of elasticity `BoxElasticity`, and a
      drawable of the same size; not yet attached to the world. */
  function NewBox(id: BodyId, width: real, height: real): (b: Box)
    ensures b.body.id == id && !b.attached
    ensures b.body.mass == BoxMass && b.shape.elasticity == BoxElasticity
    ensures b.shape.width == b.sprite.width == width
    ensures b.shape.height == b.sprite.height == height
  {
    Box(Body(id, BoxMass, Vec(0.0, 0.0), 0.0),
        Shape(width, height, BoxElasticity),
        Sprite(width, height, Vec(0.0, 0.0), 0.0),
        false)
  }

  /** `SetPosition` and `SetAngle` on the body. */
  function Place(b: Box, pos: Vec, angle: real): Box {
    b.(body := b.body.(pos := pos, angle := angle))
  }

  /** The pose the engine reports after a step, as an input to the model. */
  datatype Pose = Pose(pos: Vec, angle: real)

  function Advance(b: Box, pose: BodyId -> Pose): Box {
    Place(b, pose(b.body.id).pos, pose(b.body.id).angle)
  }

  /** `draw`: the drawable is moved to the body's position and rotated to
      the body's angle converted from radians to degrees. */
  function Draw(b: Box): (d: Box)
    ensures d.body == b.body && d.shape == b.shape && d.attached == b.attached
    ensures d.sprite.width == b.sprite.width && d.sprite.height == b.sprite.height
    ensures d.sprite.centre == b.body.pos
    ensures d.sprite.rotation / DegreeConst == b.body.angle
  {
    b.(sprite := b.sprite.(centre := b.body.pos, rotation := b.body.angle * DegreeConst))
  }

  /** Drawing twice in a row changes nothing the second time. */
  lemma DrawIdempotent(b: Box)
    ensures Draw(Draw(b)) == Draw(b)
  {
  }

  /** The horizontal test behind `inViewport`: the body's centre lies
      strictly between `-w` and `worldWidth + w`, `w` the drawable's width. */
  predicate Inside(b: Box, worldWidth: int) {
    -b.sprite.width < b.body.pos.x < b.sprite.width + worldWidth as real
  }

  /** Whether `inViewport` gets as far as `box.world`: Go's `&&` stops at
      the left-edge test, so a box at or left of `-w` is culled without the
      world being read. */
  predicate ReadsWorld(b: Box) {
    -b.sprite.width < b.body.pos.x
  }

  /** `inViewport` runs without fault: the box has its world pointer, or the
      test never reaches it. */
  predicate ViewportTestSafe(b: Box) {
    b.attached || !ReadsWorld(b)
  }

  /** `inViewport`, which reads the world's width through `box.world` once
      the left-edge test has passed; an unattached box dereferences nil
      there. */
  function InViewport(b: Box, worldWidth: int): (r: Result<bool>)
    ensures r.Fatal? <==> !b.attached && ReadsWorld(b)
    ensures r.Fatal? ==> r.fault == NilDereference
    ensures r == Ok(true) <==> b.attached && Inside(b, worldWidth)
    ensures !ReadsWorld(b) ==> r == Ok(false)
  {
    if !ReadsWorld(b) then Ok(false)
    else if !b.attached then Fatal(NilDereference)
    else Ok(Inside(b, worldWidth))
  }

  /** Only the horizontal position decides: a box stays in the viewport
      however far it falls, and the verdict is the same for every height. */
  lemma InViewportIgnoresHeight(b: Box, worldWidth: int, y: real)
    ensures InViewport(Place(b, Vec(b.body.pos.x, y), b.body.angle), worldWidth) == InViewport(b, worldWidth)
  {
  }

  /** A box whose centre is inside the world's horizontal extent is always
      kept, and one a full width beyond either edge is always culled. */
  lemma InViewportBand(b: Box, worldWidth: int)
    requires b.attached && b.sprite.width >= 0.0
    ensures 0.0 <= b.body.pos.x <= worldWidth as real && (b.sprite.width > 0.0 || 0.0 < b.body.pos.x < worldWidth as real)
            ==> InViewport(b, worldWidth) == Ok(true)
    ensures (b.body.pos.x <= -b.sprite.width || b.body.pos.x >= worldWidth as real + b.sprite.width)
            ==> InViewport(b, worldWidth) == Ok(false)
  {
  }

  // ---------------------------------------------------------------------------
  // Collision callbacks

  /** The two bodies of a contact. */
  datatype Arbiter = Arbiter(a: BodyId, b: BodyId)

  /** What a callback did: the bodies whose impact sound it played, in order,
      and the value it returned to the engine. */
  datatype Callback = Callback(sounds: seq<BodyId>, accept: bool)

  /** `CollisionEnter`: body A and body B are each checked, independently,
      for `impactUserData` (the set `impact`), and each that carries it plays
      the impact sound once. The contact is always accepted. */
  function CollisionEnter(arb: Arbiter, impact: set<BodyId>): (c: Callback)
    ensures c.accept
    ensures forall i :: 0 <= i < |c.sounds| ==> c.sounds[i] in impact
    ensures arb.a in impact <==> |c.sounds| >= 1 && c.sounds[0] == arb.a
    ensures arb.b in impact <==> |c.sounds| >= 1 && c.sounds[|c.sounds| - 1] == arb.b
    ensures |c.sounds| == (if arb.a in impact then 1 else 0) + (if arb.b in impact then 1 else 0)
  {
    Callback((if arb.a in impact then [arb.a] else []) + (if arb.b in impact then [arb.b] else []), true)
  }

  /** `CollisionPreSolve`: always lets the contact be solved, plays nothing. */
  function CollisionPreSolve(arb: Arbiter): (c: Callback)
    ensures c.accept && c.sounds == []
  {
    Callback([], true)
  }

  /** A contact between bodies without impact data (the ground, boxes already
      removed) is silent. */
  lemma SilentWithoutUserData(arb: Arbiter, impact: set<BodyId>)
    requires arb.a !in impact && arb.b !in impact
    ensures CollisionEnter(arb, impact).sounds == []
  {
  }
}

=== FILE: lib_gamestate.dfy ===
/** The physics demo's per-frame state (chipmunklib/gamestate.go): the world,
    the frame rate, and `Draw`, which steps the physics, draws the boxes still
    in view, drops the ones that left it, then draws the ground and the frame
    rate. GL calls and text rendering are recorded as effects. */
module LibGameState {
  import opened Outcomes
  import opened LibBox
  import opened LibWorld
  import opened LibSvg

  /** Frames per second the state is created with, and the step length's divisor. */
  const DefaultFps: int := 30

  /** Vertical offset of the frame-rate text from the top of the window. */
  const FpsTextOffset: real := 25.0

  datatype GameState = GameState(world: World, fps: int, frames: int)

  /** What a frame asks of GL, the physics space and the text renderer. */
  datatype Effect =
    | ClearScreen
    | StepSpace(dt: real)
    | DrawBox(b: Box)
    | DrawGround(g: Ground)
    | PrintFps(fps: int, x: real, y: real)

  /** `NewGameState(window)` for a window of the given size, given what
      loading `raw/world.svg` yields: a world of the window's size filled from
      the drawing, at `DefaultFps`. */
  function NewGameState(width: int, height: int, doc: Result<SvgFile>): (r: Result<GameState>)
    ensures r.Fatal? <==> CreateFromSvg(NewWorld(width, height), doc).Fatal?
    ensures r.Ok? ==> r.value.fps == DefaultFps && r.value.frames == 0
    ensures r.Ok? ==> r.value.world.width == width && r.value.world.height == height
    ensures r.Ok? ==> r.value.world.ground.Some? && Valid(r.value.world)
  {
    var w :- CreateFromSvg(NewWorld(width, height), doc);
    CreateFromSvgValid(NewWorld(width, height), doc.value);
    Ok(GameState(w, DefaultFps, 0))
  }

  // ---------------------------------------------------------------------------
  // Reference definitions for one frame

  /** Every box after the physics step moved each body to its new pose. */
  function Advanced(bs: seq<Box>, pose: BodyId -> Pose): (r: seq<Box>)
    ensures |r| == |bs|
    ensures forall k :: 0 <= k < |bs| ==> r[k] == Advance(bs[k], pose)
  {
    seq(|bs|, k requires 0 <= k < |bs| => Advance(bs[k], pose))
  }

  /** The boxes a frame keeps, drawn, in their original order. */
  function Survivors(bs: seq<Box>, width: int): seq<Box>
    decreases |bs|
  {
    if |bs| == 0 then []
    else
      var last := bs[|bs| - 1];
      Survivors(bs[..|bs| - 1], width) + (if Inside(last, width) then [Draw(last)] else [])
  }

  /** The bodies of the boxes a frame drops. */
  function CulledIds(bs: seq<Box>, width: int): set<BodyId>
    decreases |bs|
  {
    if |bs| == 0 then {}
    else
      var last := bs[|bs| - 1];
      CulledIds(bs[..|bs| - 1], width) + (if Inside(last, width) then {} else {last.body.id})
  }

  function DrawnBoxes(ds: seq<Box>): (e: seq<Effect>)
    ensures |e| == |ds| && forall k :: 0 <= k < |ds| ==> e[k] == DrawBox(ds[k])
  {
    seq(|ds|, k requires 0 <= k < |ds| => DrawBox(ds[k]))
  }

  /** Survivors keeps exactly the boxes in view, drawn, in order, and
      CulledIds names exactly the bodies of the others. */
  lemma {:induction false} SurvivorsSpec(bs: seq<Box>, width: int)
    ensures |Survivors(bs, width)| <= |bs|
    ensures forall k :: 0 <= k < |bs| && Inside(bs[k], width) ==> Draw(bs[k]) in Survivors(bs, width)
    ensures forall d :: d in Survivors(bs, width) ==>
      exists k :: 0 <= k < |bs| && Inside(bs[k], width) && d == Draw(bs[k])
    ensures forall id :: id in CulledIds(bs, width) <==>
      exists k :: 0 <= k < |bs| && !Inside(bs[k], width) && bs[k].body.id == id
    decreases |bs|
  {
    if |bs| > 0 {
      var init := bs[..|bs| - 1];
      SurvivorsSpec(init, width);
      assert forall k :: 0 <= k < |init| ==> init[k] == bs[k];
      forall id | id in CulledIds(bs, width)
        ensures exists k :: 0 <= k < |bs| && !Inside(bs[k], width) && bs[k].body.id == id
      {
        if id in CulledIds(init, width) {
          var k :| 0 <= k < |init| && !Inside(init[k], width) && init[k].body.id == id;
          assert bs[k] == init[k];
        }
      }
    }
  }

  /** Drawing the survivors in view of a world twice culls nothing more: a
      frame with no motion after another keeps every box. */
  lemma {:induction false} SurvivorsStable(bs: seq<Box>, width: int)
    ensures Survivors(Survivors(bs, width), width) == Survivors(bs, width)
    ensures CulledIds(Survivors(bs, width), width) == {}
    decreases |bs|
  {
    if |bs| > 0 {
      var init := bs[..|bs| - 1];
      var last := bs[|bs| - 1];
      SurvivorsStable(init, width);
      var s0 := Survivors(init, width);
      if Inside(last, width) {
        var s1 := s0 + [Draw(last)];
        assert Survivors(bs, width) == s1;
        assert s1[..|s1| - 1] == s0 && s1[|s1| - 1] == Draw(last);
        DrawIdempotent(last);
        assert Inside(Draw(last), width);
        assert Survivors(s1, width) == Survivors(s0, width) + [Draw(Draw(last))];
        assert CulledIds(s1, width) == CulledIds(s0, width);
      } else {
        assert Survivors(bs, width) == s0;
      }
    }
  }

  /** The bodies of a list with one more box. */
  lemma BoxBodiesSnoc(bs: seq<Box>, b: Box)
    ensures BoxBodies(bs + [b]) == BoxBodies(bs) + {b.body.id}
  {
    var s := bs + [b];
    forall id | id in BoxBodies(s) ensures id in BoxBodies(bs) + {b.body.id} {
      var k :| 0 <= k < |s| && s[k].body.id == id;
      if k < |bs| {
        assert s[k] == bs[k];
      }
    }
    forall id | id in BoxBodies(bs) ensures id in BoxBodies(s) {
      var k :| 0 <= k < |bs| && bs[k].body.id == id;
      assert s[k] == bs[k];
    }
    assert s[|bs|] == b;
  }

  /** With distinct bodies, the survivors keep distinct bodies and carry
      exactly the bodies that were not culled. */
  lemma {:induction false} SurvivorBodies(bs: seq<Box>, width: int)
    requires DistinctBodies(bs)
    ensures DistinctBodies(Survivors(bs, width))
    ensures CulledIds(bs, width) <= BoxBodies(bs)
    ensures BoxBodies(Survivors(bs, width)) == BoxBodies(bs) - CulledIds(bs, width)
    decreases |bs|
  {
    if |bs| > 0 {
      var init := bs[..|bs| - 1];
      var last := bs[|bs| - 1];
      assert bs == init + [last];
      SurvivorBodies(init, width);
      BoxBodiesSnoc(init, last);
      assert last.body.id !in BoxBodies(init) by {
        forall k | 0 <= k < |init| ensures init[k].body.id != last.body.id {
          assert init[k] == bs[k];
        }
      }
      var s0 := Survivors(init, width);
      if Inside(last, width) {
        var d := Draw(last);
        BoxBodiesSnoc(s0, d);
        assert Survivors(bs, width) == s0 + [d];
        assert CulledIds(bs, width) == CulledIds(init, width);
        assert BoxBodies(bs) == BoxBodies(init) + {last.body.id};
        assert d.body.id == last.body.id;
        forall i, j | 0 <= i < j < |s0 + [d]|
          ensures (s0 + [d])[i].body.id != (s0 + [d])[j].body.id
        {
          if j == |s0| {
            assert (s0 + [d])[i] == s0[i];
            assert s0[i].body.id in BoxBodies(s0);
          } else {
            assert (s0 + [d])[i] == s0[i] && (s0 + [d])[j] == s0[j];
          }
        }
      } else {
        assert Survivors(bs, width) == s0;
        assert CulledIds(bs, width) == CulledIds(init, width) + {last.body.id};
        assert BoxBodies(bs) == BoxBodies(init) + {last.body.id};
      }
    }
  }

  /** One more box of a list: Survivors and CulledIds grow by that box alone. */
  lemma SurvivorsSnoc(bs: seq<Box>, k: nat, width: int)
    requires k < |bs|
    ensures Survivors(bs[..k + 1], width) ==
      Survivors(bs[..k], width) + (if Inside(bs[k], width) then [Draw(bs[k])] else [])
    ensures CulledIds(bs[..k + 1], width) ==
      CulledIds(bs[..k], width) + (if Inside(bs[k], width) then {} else {bs[k].body.id})
  {
    assert bs[..k + 1][..k] == bs[..k];
  }

  /** Replacing the boxes by ones with the same bodies, all attached, keeps
      the world valid. */
  lemma SameBodiesKeepValid(w: World, bs: seq<Box>)
    requires Valid(w) && |bs| == |w.boxes|
    requires forall k :: 0 <= k < |bs| ==> bs[k].body.id == w.boxes[k].body.id && bs[k].attached
    ensures Valid(w.(boxes := bs))
  {
    assert BoxBodies(bs) == BoxBodies(w.boxes) by {
      forall id | id in BoxBodies(bs) ensures id in BoxBodies(w.boxes) {
        var k :| 0 <= k < |bs| && bs[k].body.id == id;
      }
      forall id | id in BoxBodies(w.boxes) ensures id in BoxBodies(bs) {
        var k :| 0 <= k < |w.boxes| && w.boxes[k].body.id == id;
        assert bs[k].body.id == id;
      }
    }
  }

  /** The loop's view of the list: the first `i` entries are the survivors
      of the first `j` boxes, the rest are the boxes not yet visited. */
  predicate Progress(cur: seq<Box>, i: int, adv: seq<Box>, j: int, width: int) {
    && 0 <= i <= |cur| && 0 <= j <= |adv|
    && cur[..i] == Survivors(adv[..j], width)
    && cur[i..] == adv[j..]
  }

  /** Everything the box loop keeps true after visiting `j` boxes, with `i`
      of them kept so far and `drawn` the draw calls made. */
  ghost predicate CullInvariant(w0: World, w: World, i: int, j: int, drawn: seq<Effect>) {
    && Progress(w.boxes, i, w0.boxes, j, w0.width)
    && w.space == w0.space - CulledIds(w0.boxes[..j], w0.width)
    && w.impact == w0.impact - CulledIds(w0.boxes[..j], w0.width)
    && w == w0.(boxes := w.boxes, space := w.space, impact := w.impact)
    && drawn == DrawnBoxes(w.boxes[..i])
    && (forall k :: 0 <= k < j ==> ViewportTestSafe(w0.boxes[k]))
    && (Valid(w0) ==> Valid(w))
  }

  /** Drawing a box in view in place keeps the loop's invariant one box on. */
  lemma KeepStep(w0: World, w: World, i: int, j: int, drawn: seq<Effect>)
    requires CullInvariant(w0, w, i, j, drawn) && i < |w.boxes|
    requires w.boxes[i].attached && Inside(w.boxes[i], w0.width)
    ensures CullInvariant(w0, w.(boxes := w.boxes[i := Draw(w.boxes[i])]), i + 1, j + 1,
                          drawn + [DrawBox(Draw(w.boxes[i]))])
  {
    var cur := w.boxes;
    var adv := w0.boxes;
    var width := w0.width;
    assert cur[i..][0] == adv[j..][0];
    SurvivorsSnoc(adv, j, width);
    var next := cur[i := Draw(cur[i])];
    assert next[..i + 1] == cur[..i] + [Draw(cur[i])];
    assert next[i + 1..] == cur[i..][1..];
    if Valid(w0) {
      SameBodiesKeepValid(w, next);
    }
  }

  /** Removing a box out of view keeps the loop's invariant one box on, at
      the same index. */
  lemma DropStep(w0: World, w: World, i: int, j: int, drawn: seq<Effect>)
    requires CullInvariant(w0, w, i, j, drawn) && i < |w.boxes|
    requires ViewportTestSafe(w.boxes[i]) && !Inside(w.boxes[i], w0.width)
    ensures CullInvariant(w0, RemoveBox(w, i), i, j + 1, drawn)
  {
    var cur := w.boxes;
    var adv := w0.boxes;
    var width := w0.width;
    assert cur[i..][0] == adv[j..][0];
    SurvivorsSnoc(adv, j, width);
    var next := RemoveBox(w, i).boxes;
    assert next[..i] == cur[..i];
    assert next[i..] == cur[i..][1..];
    if Valid(w0) {
      RemoveBoxPreservesValid(w, i);
    }
  }

  // ---------------------------------------------------------------------------
  // Draw

  /** The box loop of `Draw()`: walks the boxes with the
      `removeBox(box, i); i--` idiom, drawing each box in view and removing
      each box out of view. An unattached box right of the left edge
      dereferences nil in `inViewport`; one at or past it is removed. */
  method CullBoxes(w0: World) returns (r: Result<World>, drawn: seq<Effect>)
    ensures r.Ok? <==> forall k :: 0 <= k < |w0.boxes| ==> ViewportTestSafe(w0.boxes[k])
    ensures r.Fatal? ==> r.fault == NilDereference
    ensures r.Ok? ==>
      && r.value.boxes == Survivors(w0.boxes, w0.width)
      && r.value.space == w0.space - CulledIds(w0.boxes, w0.width)
      && r.value.impact == w0.impact - CulledIds(w0.boxes, w0.width)
      && r.value == w0.(boxes := r.value.boxes, space := r.value.space, impact := r.value.impact)
      && drawn == DrawnBoxes(r.value.boxes)
    ensures r.Ok? && Valid(w0) ==> Valid(r.value)
  {
    var w := w0;
    drawn := [];
    var i: int := 0;
    ghost var j := 0;
    assert w0.boxes[..0] == [];
    while i < |w.boxes|
      invariant CullInvariant(w0, w, i, j, drawn)
      decreases |w.boxes| - i
    {
      var b := w.boxes[i];
      var inView := InViewport(b, w.width);
      if inView.Fatal? {
        assert w.boxes[i..][0] == w0.boxes[j..][0];
        return Fatal(inView.fault), drawn;
      }
      if inView.value {
        KeepStep(w0, w, i, j, drawn);
        var d := Draw(b);
        w := w.(boxes := w.boxes[i := d]);
        drawn := drawn + [DrawBox(d)];
      } else {
        DropStep(w0, w, i, j, drawn);
        w := RemoveBox(w, i);
        i := i - 1;
      }
      i := i + 1;
      j := j + 1;
    }
    assert w0.boxes[j..] == [];
    assert w0.boxes[..j] == w0.boxes;
    assert w.boxes[..i] == w.boxes;
    r := Ok(w);
  }

  /** `Draw()` with the engine's poses after the step given as `pose`: clear,
      step the space by 1/fps, run the box loop, then draw the ground (nil
      before setGround) and print the frame rate at (width/2, height − 25).
      A zero frame rate makes the step a float division by zero. */
  method DrawFrame(s: GameState, pose: BodyId -> Pose) returns (r: Result<GameState>, effects: seq<Effect>)
    ensures s.fps == 0 ==> r.Fatal? && r.fault == NonFiniteGeometry
    ensures s.fps != 0 && r.Fatal? ==> r.fault == NilDereference
    ensures var adv := Advanced(s.world.boxes, pose);
            r.Ok? <==> s.fps != 0 && s.world.ground.Some? &&
                       forall k :: 0 <= k < |adv| ==> ViewportTestSafe(adv[k])
    ensures r.Ok? ==>
      var adv := Advanced(s.world.boxes, pose);
      var w := r.value.world;
      && w.boxes == Survivors(adv, s.world.width)
      && w.space == s.world.space - CulledIds(adv, s.world.width)
      && w.impact == s.world.impact - CulledIds(adv, s.world.width)
      && w == s.world.(boxes := w.boxes, space := w.space, impact := w.impact)
      && r.value.fps == s.fps && r.value.frames == s.frames
      && effects == [ClearScreen, StepSpace(1.0 / s.fps as real)]
                    + DrawnBoxes(w.boxes)
                    + [DrawGround(s.world.ground.value),
                       PrintFps(s.fps, GoDiv(s.world.width, 2) as real, s.world.height as real - FpsTextOffset)]
    ensures r.Ok? && Valid(s.world) ==> Valid(r.value.world)
  {
    if s.fps == 0 {
      return Fatal(NonFiniteGeometry), [];
    }
    var adv := Advanced(s.world.boxes, pose);
    var stepped := s.world.(boxes := adv);
    if Valid(s.world) {
      SameBodiesKeepValid(s.world, adv);
    }
    effects := [ClearScreen, StepSpace(1.0 / s.fps as real)];
    var culled, drawn := CullBoxes(stepped);
    effects := effects + drawn;
    if culled.Fatal? {
      return Fatal(culled.fault), effects;
    }
    if s.world.ground.None? {
      return Fatal(NilDereference), effects;
    }
    effects := effects + [DrawGround(s.world.ground.value),
                          PrintFps(s.fps, GoDiv(s.world.width, 2) as real, s.world.height as real - FpsTextOffset)];
    r := Ok(s.(world := culled.value));
  }

  /** After a frame every remaining box is in view and drawn at its body's
      new pose, and every box in view after the step is still there. */
  lemma DrawKeepsExactlyTheVisible(s: GameState, pose: BodyId -> Pose, ws: seq<Box>)
    requires ws == Survivors(Advanced(s.world.boxes, pose), s.world.width)
    ensures forall d :: d in ws ==> Inside(d, s.world.width) && d.sprite.centre == d.body.pos
    ensures forall k :: 0 <= k < |s.world.boxes| && Inside(Advance(s.world.boxes[k], pose), s.world.width) ==>
      Draw(Advance(s.world.boxes[k], pose)) in ws
  {
    var adv := Advanced(s.world.boxes, pose);
    SurvivorsSpec(adv, s.world.width);
    forall k | 0 <= k < |s.world.boxes| && Inside(Advance(s.world.boxes[k], pose), s.world.width)
      ensures Draw(Advance(s.world.boxes[k], pose)) in ws
    {
      assert adv[k] == Advance(s.world.boxes[k], pose);
    }
  }
}

=== FILE: lib_grid.dfy ===
/** `World.CreateFromString` (chipmunklib/world.go): a grid of text rows in
    which every `+` becomes one square box, rows stacked downward from a top
    line that sits `nY` cells above the ground. Go strings are byte strings:
    `len(s[0])` counts bytes and `range line` yields each character with its
    byte offset. In UTF-8 a `+` is the single byte 0x2B, which occurs in no
    other character's encoding, so the `+` characters of a row are exactly
    its 0x2B bytes, at their offsets; rows are modelled as their bytes. */
module LibGrid {
  import opened Outcomes
  import opened LibBox
  import opened LibWorld

  /** The byte of `+`. */
  const Plus: byte := 0x2B

  /** Byte offset and row of a grid character. */
  datatype Cell = Cell(col: nat, row: nat)

  predicate PlusAt(s: seq<seq<byte>>, c: Cell) {
    c.row < |s| && c.col < |s[c.row]| && s[c.row][c.col] == Plus
  }

  /** Row-major order: earlier row, or same row and earlier column. */
  predicate Before(c: Cell, d: Cell) {
    c.row < d.row || (c.row == d.row && c.col < d.col)
  }

  predicate RowMajor(cells: seq<Cell>) {
    forall i, j :: 0 <= i < j < |cells| ==> Before(cells[i], cells[j])
  }

  /** The `+` cells of `line` (row `row`) from column `from` on, left to right. */
  function RowCells(line: seq<byte>, row: nat, from: nat): seq<Cell>
    requires from <= |line|
    decreases |line| - from
  {
    if from == |line| then []
    else (if line[from] == Plus then [Cell(from, row)] else []) + RowCells(line, row, from + 1)
  }

  /** The `+` cells of rows `row..` in row-major order: the order in which the
      nested `range` loops visit them. */
  function GridCells(s: seq<seq<byte>>, row: nat): seq<Cell>
    requires row <= |s|
    decreases |s| - row
  {
    if row == |s| then [] else RowCells(s[row], row, 0) + GridCells(s, row + 1)
  }

  lemma {:induction false} RowCellsSpec(line: seq<byte>, row: nat, from: nat)
    requires from <= |line|
    ensures forall c :: c in RowCells(line, row, from) <==>
      c.row == row && from <= c.col < |line| && line[c.col] == Plus
    ensures forall i, j :: 0 <= i < j < |RowCells(line, row, from)| ==>
      RowCells(line, row, from)[i].col < RowCells(line, row, from)[j].col
    ensures forall i :: 0 <= i < |RowCells(line, row, from)| ==> RowCells(line, row, from)[i].row == row
    decreases |line| - from
  {
    if from < |line| {
      RowCellsSpec(line, row, from + 1);
    }
  }

  /** Two row-major runs, the first entirely before the second, concatenate
      to a row-major run. */
  lemma RowMajorAppend(a: seq<Cell>, b: seq<Cell>)
    requires RowMajor(a) && RowMajor(b)
    requires forall i, j :: 0 <= i < |a| && 0 <= j < |b| ==> Before(a[i], b[j])
    ensures RowMajor(a + b)
  {
    forall i, j | 0 <= i < j < |a + b| ensures Before((a + b)[i], (a + b)[j]) {
      if j < |a| {
        assert (a + b)[i] == a[i] && (a + b)[j] == a[j];
      } else if i < |a| {
        assert (a + b)[i] == a[i] && (a + b)[j] == b[j - |a|];
      } else {
        assert (a + b)[i] == b[i - |a|] && (a + b)[j] == b[j - |a|];
      }
    }
  }

  /** GridCells lists every `+` of the rows from `row` on, each once, in
      row-major order, and nothing else. */
  lemma {:induction false} GridCellsSpec(s: seq<seq<byte>>, row: nat)
    requires row <= |s|
    ensures forall c :: c in GridCells(s, row) <==> row <= c.row && PlusAt(s, c)
    ensures RowMajor(GridCells(s, row))
    ensures forall i :: 0 <= i < |GridCells(s, row)| ==> GridCells(s, row)[i].row >= row
    decreases |s| - row
  {
    if row < |s| {
      GridCellsSpec(s, row + 1);
      RowCellsSpec(s[row], row, 0);
      var a := RowCells(s[row], row, 0);
      var b := GridCells(s, row + 1);
      assert GridCells(s, row) == a + b;
      assert RowMajor(a) by {
        forall i, j | 0 <= i < j < |a| ensures Before(a[i], a[j]) {
          assert a[i].row == row && a[j].row == row;
        }
      }
      forall i, j | 0 <= i < |a| && 0 <= j < |b| ensures Before(a[i], b[j]) {
        assert a[i].row == row && b[j].row >= row + 1;
      }
      RowMajorAppend(a, b);
      forall c ensures c in a + b <==> row <= c.row && PlusAt(s, c) {
        assert c in a + b <==> c in a || c in b;
      }
    }
  }

  /** Square cell side and the y of the top row. */
  datatype Layout = Layout(side: real, startY: real)

  /** `boxW = width / nX`, `boxH = (height - groundY) / nY`, forced square by
      keeping the smaller; with an empty first row `boxW` is a float division
      by zero, +Inf for a positive width (so `boxH` wins) and NaN or -Inf
      otherwise. */
  function CellLayout(width: int, height: int, groundY: real, nX: nat, nY: nat): (r: Result<Layout>)
    requires nY > 0
    ensures r.Fatal? <==> nX == 0 && width <= 0
    ensures r.Ok? ==> r.value.side <= (height as real - groundY) / nY as real
    ensures r.Ok? && nX > 0 ==> r.value.side <= width as real / nX as real
    ensures r.Ok? ==> r.value.side == (height as real - groundY) / nY as real
                      || (nX > 0 && r.value.side == width as real / nX as real)
    ensures r.Ok? ==> r.value.startY == groundY + nY as real * r.value.side
  {
    var boxH := (height as real - groundY) / nY as real;
    if nX == 0 then
      if width > 0 then Ok(Layout(boxH, groundY + nY as real * boxH)) else Fatal(NonFiniteGeometry)
    else
      var boxW := width as real / nX as real;
      var side := if boxW >= boxH then boxH else boxW;
      Ok(Layout(side, groundY + nY as real * side))
  }

  /** Where the box of a `+` at column x, row y goes: (x·side, startY − y·side),
      angle 0, a side × side square. */
  function CellSpec(c: Cell, l: Layout): BoxSpec {
    BoxSpec(l.side, l.side, Vec(c.col as real * l.side, l.startY - c.row as real * l.side), 0.0)
  }

  function CellSpecs(cells: seq<Cell>, l: Layout): (specs: seq<BoxSpec>)
    ensures |specs| == |cells|
    ensures forall k :: 0 <= k < |cells| ==> specs[k] == CellSpec(cells[k], l)
  {
    seq(|cells|, k requires 0 <= k < |cells| => CellSpec(cells[k], l))
  }

  /** The layout CreateFromString uses for a non-empty grid on a grounded world. */
  function GridLayout(w: World, s: seq<seq<byte>>): Result<Layout>
    requires |s| > 0 && w.ground.Some?
  {
    CellLayout(w.width, w.height, GroundCentre(w.ground.value).y, |s[0]|, |s|)
  }

  /** `CreateFromString(s)`: `s[0]` panics on an empty grid, the ground's
      centre is read through `w.ground` (nil before setGround), then one box
      per `+` is added in row-major order. */
  function CreateFromString(w: World, s: seq<seq<byte>>): (r: Result<World>)
    ensures |s| == 0 ==> r == Fatal(IndexOutOfRange)
    ensures |s| > 0 && w.ground == None ==> r == Fatal(NilDereference)
    ensures r.Ok? ==> |s| > 0 && w.ground.Some? && (|s[0]| > 0 || w.width > 0)
    ensures |s| > 0 && w.ground.Some? && (|s[0]| > 0 || w.width > 0) ==> r.Ok?
    ensures r.Ok? ==> |r.value.boxes| == |w.boxes| + |GridCells(s, 0)|
    ensures r.Ok? ==> r.value.boxes[..|w.boxes|] == w.boxes
    ensures r.Ok? ==> r.value.ground == w.ground
  {
    if |s| == 0 then Fatal(IndexOutOfRange)
    else if w.ground == None then Fatal(NilDereference)
    else
      var layout :- GridLayout(w, s);
      Ok(AddBoxes(w, CellSpecs(GridCells(s, 0), layout)))
  }

  /** Every `+` of the grid gets exactly one new box, placed on its cell, and
      every new box comes from a `+`; the k-th new box belongs to the k-th
      `+` in row-major order. Characters other than `+` create nothing. */
  lemma CreateFromStringPlacesBoxes(w: World, s: seq<seq<byte>>)
    requires CreateFromString(w, s).Ok?
    ensures var r := CreateFromString(w, s).value;
            var cells := GridCells(s, 0);
            var l := GridLayout(w, s).value;
            && (forall k :: 0 <= k < |cells| ==>
                  PlusAt(s, cells[k]) && r.boxes[|w.boxes| + k] == SpecBox(CellSpec(cells[k], l), w.nextBody + k))
            && (forall c :: PlusAt(s, c) ==> c in cells)
            && RowMajor(cells)
  {
    GridCellsSpec(s, 0);
    var cells := GridCells(s, 0);
    var l := GridLayout(w, s).value;
    var specs := CellSpecs(cells, l);
    var r := AddBoxes(w, specs);
    assert CreateFromString(w, s) == Ok(r);
    forall k | 0 <= k < |cells|
      ensures PlusAt(s, cells[k]) && r.boxes[|w.boxes| + k] == SpecBox(CellSpec(cells[k], l), w.nextBody + k)
    {
      assert cells[k] in cells;
      assert specs[k] == CellSpec(cells[k], l);
    }
    assert forall c :: PlusAt(s, c) ==> c in cells;
  }

  /** CreateFromString keeps the world's bookkeeping valid. */
  lemma CreateFromStringValid(w: World, s: seq<seq<byte>>)
    requires Valid(w) && CreateFromString(w, s).Ok?
    ensures Valid(CreateFromString(w, s).value)
  {
    AddBoxesPreservesValid(w, CellSpecs(GridCells(s, 0), GridLayout(w, s).value));
  }

  /** The single-glyph grid `["+"]` gives one square box, at x = 0 on the
      top of its cell, whose side is the smaller of the width and the height
      left above the ground. */
  lemma SingleGlyph(w: World)
    requires w.ground.Some? && Valid(w)
    ensures CreateFromString(w, [[Plus]]).Ok?
    ensures var r := CreateFromString(w, [[Plus]]).value;
            var groundY := GroundCentre(w.ground.value).y;
            var side := if w.width as real >= w.height as real - groundY then w.height as real - groundY else w.width as real;
            && |r.boxes| == |w.boxes| + 1
            && r.boxes[|w.boxes|].sprite.width == r.boxes[|w.boxes|].sprite.height == side
            && r.boxes[|w.boxes|].body.pos == Vec(0.0, groundY + side)
            && r.boxes[|w.boxes|].body.angle == 0.0
  {
    var s := [[Plus]];
    assert RowCells(s[0], 0, 1) == [];
    assert GridCells(s, 1) == [];
    assert GridCells(s, 0) == [Cell(0, 0)];
  }

  /** `["é+"]`: the two bytes of `é` make the row three columns wide, and the
      `+` sits at byte offset 2. */
  lemma MultiByteRow(w: World)
    requires w.ground.Some?
    ensures var s := [[0xC3, 0xA9, Plus]];
            && GridCells(s, 0) == [Cell(2, 0)]
            && GridLayout(w, s) == CellLayout(w.width, w.height, GroundCentre(w.ground.value).y, 3, 1)
  {
    var s: seq<seq<byte>> := [[0xC3, 0xA9, Plus]];
    assert RowCells(s[0], 0, 3) == [];
    assert RowCells(s[0], 0, 2) == [Cell(2, 0)];
    assert RowCells(s[0], 0, 1) == [Cell(2, 0)];
    assert RowCells(s[0], 0, 0) == [Cell(2, 0)];
    assert GridCells(s, 1) == [];
    assert GridCells(s, 0) == [Cell(2, 0)];
  }
}

=== FILE: lib_svg.dfy ===
/** `World.CreateFromSvg` (chipmunklib/svg.go): every `<rect>` of every
    `<g>` becomes one box, scaled from the file's coordinate space into the
    window with the y axis flipped, and the first group's `<line>` becomes the
    ground. Reading the asset and decoding the XML are external; their
    outcome is an input. */
module LibSvg {
  import opened Outcomes
  import opened LibBox
  import opened LibWorld

  datatype SvgLine = SvgLine(x1: real, y1: real, x2: real, y2: real)
  datatype SvgRect = SvgRect(width: real, height: real, x: real, y: real, transform: string)
  datatype SvgGroup = SvgGroup(rects: seq<SvgRect>, line: SvgLine)
  datatype SvgFile = SvgFile(width: real, height: real, groups: seq<SvgGroup>)

  // ---------------------------------------------------------------------------
  // fmt.Sscanf(transform, "rotate(%f %f,%f)", &a, &b, &c), success or failure

  /** Package fmt's white space: the Unicode space code points. */
  predicate IsSpace(c: char) {
    || '\t' <= c <= '\r'
    || c == ' ' || c == '\U{0085}' || c == '\U{00A0}' || c == '\U{1680}'
    || '\U{2000}' <= c <= '\U{200A}'
    || c == '\U{2028}' || c == '\U{2029}' || c == '\U{202F}' || c == '\U{205F}' || c == '\U{3000}'
  }

  /** A space Sscanf skips. A newline is never skipped: a float verb that
      meets one fails, and a space in the format does not match it. */
  predicate IsBlank(c: char) {
    IsSpace(c) && c != '\n'
  }

  predicate IsDecimal(c: char) {
    '0' <= c <= '9'
  }

  /** First index at or after `i` that is not a blank. */
  function SkipSpaces(t: string, i: nat): (j: nat)
    requires i <= |t|
    ensures i <= j <= |t|
    ensures j == |t| || !IsBlank(t[j])
    decreases |t| - i
  {
    if i < |t| && IsBlank(t[i]) then SkipSpaces(t, i + 1) else i
  }

  /** End of the run of decimal digits starting at `i`. */
  function SkipDigits(t: string, i: nat): (j: nat)
    requires i <= |t|
    ensures i <= j <= |t|
    ensures j == |t| || !IsDecimal(t[j])
    decreases |t| - i
  {
    if i < |t| && IsDecimal(t[i]) then SkipDigits(t, i + 1) else i
  }

  /** The three letters at `i` spell `nan`, in any case. */
  predicate NanAt(t: string, i: nat) {
    i + 3 <= |t| && t[i] in "nN" && t[i + 1] in "aA" && t[i + 2] in "nN"
  }

  /** The three letters at `i` spell `inf`, in any case. */
  predicate InfAt(t: string, i: nat) {
    i + 3 <= |t| && t[i] in "iI" && t[i + 1] in "nN" && t[i + 2] in "fF"
  }

  /** End of a float token starting at `i` that parses: `nan`; or an optional
      sign followed by `inf`, or by digits with an optional fraction (at least
      one mantissa digit) and an optional exponent (`e`, `E` or the binary
      `p`, an optional sign, at least one digit). Sscanf reads the longest
      such prefix and fails when it does not parse, so None is a failure. */
  function FloatEnd(t: string, i: nat): (r: Option<nat>)
    requires i <= |t|
    ensures r.Some? ==> i < r.value <= |t|
  {
    if NanAt(t, i) then Some(i + 3)
    else
    var j0 := if i < |t| && (t[i] == '+' || t[i] == '-') then i + 1 else i;
    if InfAt(t, j0) then Some(j0 + 3)
    else
    var j1 := SkipDigits(t, j0);
    var j2 := if j1 < |t| && t[j1] == '.' then SkipDigits(t, j1 + 1) else j1;
    var mantissaDigits := (j1 - j0) + (if j2 > j1 then j2 - j1 - 1 else 0);
    if mantissaDigits == 0 then None
    else if j2 < |t| && t[j2] in "eEp" then
      var k := if j2 + 1 < |t| && (t[j2 + 1] == '+' || t[j2 + 1] == '-') then j2 + 2 else j2 + 1;
      var k1 := SkipDigits(t, k);
      if k1 == k then None else Some(k1)
    else Some(j2)
  }

  /** A float verb: leading blanks are skipped, then a float token is read. */
  function ScanFloat(t: string, i: nat): (r: Option<nat>)
    requires i <= |t|
    ensures r.Some? ==> i < r.value <= |t|
  {
    FloatEnd(t, SkipSpaces(t, i))
  }

  /** The input matches `rotate(%f %f,%f)`: the literal `rotate(`, a float,
      at least one blank (the format's space), a float, a comma, a float, a
      closing parenthesis. Text after the parenthesis is not examined. */
  predicate ScansAsRotate(t: string) {
    && |t| >= 7 && t[..7] == "rotate("
    && var a := ScanFloat(t, 7);
       && a.Some? && a.value < |t| && IsBlank(t[a.value])
       && var b := ScanFloat(t, SkipSpaces(t, a.value));
          && b.Some? && b.value < |t| && t[b.value] == ','
          && var c := ScanFloat(t, b.value + 1);
             && c.Some? && c.value < |t| && t[c.value] == ')'
  }

  /** ScansAsRotate from the three float ends. */
  lemma ScansAsRotateAt(t: string, a: nat, b: nat, c: nat)
    requires |t| >= 7 && t[..7] == "rotate("
    requires ScanFloat(t, 7) == Some(a) && a < |t| && IsBlank(t[a])
    requires ScanFloat(t, SkipSpaces(t, a)) == Some(b) && b < |t| && t[b] == ','
    requires ScanFloat(t, b + 1) == Some(c) && c < |t| && t[c] == ')'
    ensures ScansAsRotate(t)
  {
  }

  const PlainSample := "rotate(90 10,20)"

  lemma PlainSamplePrefix()
    ensures |PlainSample| >= 7 && PlainSample[..7] == "rotate("
    ensures PlainSample[12] == ',' && PlainSample[15] == ')'
  {
  }

  /** The angle `90` ends at index 9 and one space follows it. */
  lemma PlainSampleAngle()
    ensures ScanFloat(PlainSample, 7) == Some(9) && SkipSpaces(PlainSample, 9) == 10
  {
    var t := PlainSample;
    assert SkipSpaces(t, 7) == 7;
    assert SkipDigits(t, 9) == 9 && SkipDigits(t, 8) == 9 && SkipDigits(t, 7) == 9;
    assert SkipSpaces(t, 10) == 10 && SkipSpaces(t, 9) == 10;
  }

  /** The centre's x, `10`, ends at index 12. */
  lemma PlainSampleCentreX()
    ensures ScanFloat(PlainSample, 10) == Some(12)
  {
    var t := PlainSample;
    assert SkipSpaces(t, 10) == 10;
    assert SkipDigits(t, 12) == 12 && SkipDigits(t, 11) == 12 && SkipDigits(t, 10) == 12;
  }

  /** The centre's y, `20`, ends at index 15. */
  lemma PlainSampleCentreY()
    ensures ScanFloat(PlainSample, 13) == Some(15)
  {
    var t := PlainSample;
    assert SkipSpaces(t, 13) == 13;
    assert SkipDigits(t, 15) == 15 && SkipDigits(t, 14) == 15 && SkipDigits(t, 13) == 15;
  }

  lemma ScanPlainRotate()
    ensures ScansAsRotate(PlainSample)
  {
    PlainSamplePrefix();
    PlainSampleAngle();
    PlainSampleCentreX();
    PlainSampleCentreY();
    ScansAsRotateAt(PlainSample, 9, 12, 15);
  }

  const SignedSample := "rotate(-45.5 0.25,1e2)"

  lemma SignedSamplePrefix()
    ensures |SignedSample| >= 7 && SignedSample[..7] == "rotate("
    ensures SignedSample[17] == ',' && SignedSample[21] == ')'
  {
  }

  /** The signed fraction `-45.5` ends at index 12. */
  lemma SignedSampleAngle()
    ensures ScanFloat(SignedSample, 7) == Some(12)
  {
    var t := SignedSample;
    assert SkipSpaces(t, 7) == 7;
    assert SkipDigits(t, 10) == 10 && SkipDigits(t, 9) == 10 && SkipDigits(t, 8) == 10;
    assert SkipDigits(t, 12) == 12 && SkipDigits(t, 11) == 12;
  }

  /** One space separates the angle from the centre. */
  lemma SignedSampleGap()
    ensures SkipSpaces(SignedSample, 12) == 13
  {
    var t := SignedSample;
    assert SkipSpaces(t, 13) == 13;
  }

  /** The fraction `0.25` ends at index 17. */
  lemma SignedSampleCentreX()
    ensures ScanFloat(SignedSample, 13) == Some(17)
  {
    var t := SignedSample;
    assert SkipSpaces(t, 13) == 13;
    assert SkipDigits(t, 14) == 14 && SkipDigits(t, 13) == 14;
    assert SkipDigits(t, 17) == 17 && SkipDigits(t, 16) == 17 && SkipDigits(t, 15) == 17;
  }

  /** The exponent form `1e2` ends at index 21. */
  lemma SignedSampleCentreY()
    ensures ScanFloat(SignedSample, 18) == Some(21)
  {
    var t := SignedSample;
    assert SkipSpaces(t, 18) == 18;
    assert SkipDigits(t, 19) == 19 && SkipDigits(t, 18) == 19;
    assert SkipDigits(t, 21) == 21 && SkipDigits(t, 20) == 21;
  }

  lemma ScanSignedFractionExponent()
    ensures ScansAsRotate(SignedSample)
  {
    SignedSamplePrefix();
    SignedSampleAngle();
    SignedSampleGap();
    SignedSampleCentreX();
    SignedSampleCentreY();
    ScansAsRotateAt(SignedSample, 12, 17, 21);
  }

  lemma ScanOneArgumentFails()
    ensures !ScansAsRotate("rotate(90)")
  {
    var t := "rotate(90)";
    assert SkipSpaces(t, 7) == 7 && SkipDigits(t, 7) == 9;
    assert SkipSpaces(t, 9) == 9 && SkipDigits(t, 9) == 9;
  }

  /** The angle must be followed by a space: `rotate(90-10,20)` fails. */
  lemma ScanMissingSpaceFails()
    ensures !ScansAsRotate("rotate(90-10,20)")
  {
    var t := "rotate(90-10,20)";
    assert SkipSpaces(t, 7) == 7 && !NanAt(t, 7) && !InfAt(t, 7);
    assert SkipDigits(t, 9) == 9 && SkipDigits(t, 8) == 9 && SkipDigits(t, 7) == 9;
    assert ScanFloat(t, 7) == Some(9) && !IsBlank(t[9]);
  }

  /** A second decimal point ends the token, and the format's space then
      meets `.`: `rotate(1.5.5,2)` fails. */
  lemma ScanSecondPointFails()
    ensures !ScansAsRotate("rotate(1.5.5,2)")
  {
    var t := "rotate(1.5.5,2)";
    assert SkipSpaces(t, 7) == 7 && !NanAt(t, 7) && !InfAt(t, 7);
    assert SkipDigits(t, 8) == 8 && SkipDigits(t, 7) == 8;
    assert SkipDigits(t, 10) == 10 && SkipDigits(t, 9) == 10;
    assert ScanFloat(t, 7) == Some(10) && !IsBlank(t[10]);
  }

  /** A newline does not match the format's space. */
  lemma ScanNewlineFails()
    ensures !ScansAsRotate("rotate(90\n10,20)")
  {
    var t := "rotate(90\n10,20)";
    assert SkipSpaces(t, 7) == 7 && !NanAt(t, 7) && !InfAt(t, 7);
    assert SkipDigits(t, 9) == 9 && SkipDigits(t, 8) == 9 && SkipDigits(t, 7) == 9;
    assert ScanFloat(t, 7) == Some(9) && !IsBlank(t[9]);
  }

  const SpecialSample := "rotate(-Inf\t1p3,NaN)"

  /** Infinities, NaN, a binary exponent and a tab all scan. */
  lemma ScanSpecialValues()
    ensures ScansAsRotate(SpecialSample)
  {
    var t := SpecialSample;
    assert |t| >= 7 && t[..7] == "rotate(";
    assert SkipSpaces(t, 7) == 7 && !NanAt(t, 7) && InfAt(t, 8);
    assert ScanFloat(t, 7) == Some(11) && IsBlank(t[11]);
    assert SkipSpaces(t, 12) == 12 && SkipSpaces(t, 11) == 12;
    assert !NanAt(t, 12) && !InfAt(t, 12);
    assert SkipDigits(t, 13) == 13 && SkipDigits(t, 12) == 13;
    assert SkipDigits(t, 15) == 15 && SkipDigits(t, 14) == 15;
    assert ScanFloat(t, 12) == Some(15) && t[15] == ',';
    assert SkipSpaces(t, 16) == 16 && NanAt(t, 16);
    assert ScanFloat(t, 16) == Some(19) && t[19] == ')';
    ScansAsRotateAt(t, 11, 15, 19);
  }

  lemma ScanOtherTransformFails()
    ensures !ScansAsRotate("matrix(1 0,0)")
  {
    assert "matrix(1 0,0)"[..7][0] != "rotate("[0];
  }

  // ---------------------------------------------------------------------------
  // Rect to box

  /** The rects of all groups in document order. */
  function AllRects(groups: seq<SvgGroup>): seq<SvgRect> {
    if |groups| == 0 then [] else groups[0].rects + AllRects(groups[1..])
  }

  /** Scale factors from file space to window pixels. */
  datatype Scale = Scale(sx: real, sy: real)

  /** A file y in window coordinates: scaled, then flipped so that y grows
      upward from the bottom of a window `windowHeight` tall. */
  function FlipY(windowHeight: int, y: real, sc: Scale): real {
    windowHeight as real - y * sc.sy
  }

  /** A rect's transform is acceptable: absent, or one that scans. */
  predicate TransformOk(r: SvgRect) {
    r.transform == "" || ScansAsRotate(r.transform)
  }

  /** A rect's box: centre ((x + w/2)·sx, H − (y + h/2)·sy), size (w·sx, h·sy);
      a non-empty transform sets the angle to 90° (whatever it says; it was
      checked to scan), and an empty one leaves the new body's angle alone. */
  function RectSpec(r: SvgRect, windowHeight: int, sc: Scale): (s: BoxSpec)
    ensures s.angle == (if r.transform == "" then 0.0 else 90.0 / DegreeConst)
    ensures s.width == r.width * sc.sx && s.height == r.height * sc.sy
  {
    var centre := Vec((r.x + r.width / 2.0) * sc.sx, FlipY(windowHeight, r.y + r.height / 2.0, sc));
    var angle := if r.transform == "" then 0.0 else 90.0 / DegreeConst;
    BoxSpec(r.width * sc.sx, r.height * sc.sy, centre, angle)
  }


  /** Every rect's transform is empty or scans, checked front to back. */
  predicate AllTransformsOk(rects: seq<SvgRect>)
    decreases |rects|
  {
    |rects| == 0 || (TransformOk(rects[0]) && AllTransformsOk(rects[1..]))
  }

  lemma {:induction false} AllTransformsOkIff(rects: seq<SvgRect>)
    ensures AllTransformsOk(rects) <==> forall k :: 0 <= k < |rects| ==> TransformOk(rects[k])
    decreases |rects|
  {
    if |rects| > 0 {
      AllTransformsOkIff(rects[1..]);
      assert forall k :: 1 <= k < |rects| ==> rects[k] == rects[1..][k - 1];
    }
  }

  /** All rects' boxes in order, or the fault of the first bad transform. */
  function RectSpecs(rects: seq<SvgRect>, windowHeight: int, sc: Scale): (s: Result<seq<BoxSpec>>)
    ensures s.Ok? <==> AllTransformsOk(rects)
    ensures s.Fatal? ==> s.fault == BadTransform
    ensures s.Ok? ==> |s.value| == |rects|
    ensures s.Ok? ==> forall k :: 0 <= k < |rects| ==> s.value[k] == RectSpec(rects[k], windowHeight, sc)
    decreases |rects|
  {
    if |rects| == 0 then Ok([])
    else if !TransformOk(rects[0]) then Fatal(BadTransform)
    else
      var rest := RectSpecs(rects[1..], windowHeight, sc);
      if rest.Fatal? then
        Fatal(rest.fault)
      else
        assert forall k :: 1 <= k < |rects| ==> rects[k] == rects[1..][k - 1];
        Ok([RectSpec(rects[0], windowHeight, sc)] + rest.value)
  }


  /** The ground laid from a group's line: from x = 0 to x = width, each y
      scaled and flipped. */
  function SvgGround(w: World, line: SvgLine, sc: Scale): (r: World)
    ensures r.ground.Some?
    ensures r.ground.value.from == Vec(0.0, FlipY(w.height, line.y1, sc))
    ensures r.ground.value.to == Vec(w.width as real, FlipY(w.height, line.y2, sc))
    ensures r.boxes == w.boxes
  {
    var ground := NewGround(w, 0.0, FlipY(w.height, line.y1, sc),
                            w.width as real, FlipY(w.height, line.y2, sc));
    SetGround(ground.0, ground.1)
  }

  /** `CreateFromSvg(filename)` given what reading and decoding the file gave:
      a read or decode failure is fatal; a transform that does not scan is
      fatal; a zero file height, or a zero file width with any rect to
      place, makes the geometry a float division by zero (`ScalesFinitely`);
      every rect of every group is added as a box in document order; then
      `Groups[0].Line` (an index panic with no groups) becomes the ground from
      x = 0 to x = width at its two flipped, scaled y's. */
  function CreateFromSvg(w: World, doc: Result<SvgFile>): (r: Result<World>)
    ensures doc.Fatal? ==> r == Fatal(doc.fault)
    ensures doc.Ok? && |doc.value.groups| == 0 ==> r == Fatal(IndexOutOfRange)
    ensures doc.Ok? && |doc.value.groups| > 0 ==>
      (r.Fatal? && r.fault == BadTransform <==> !AllTransformsOk(AllRects(doc.value.groups)))
    ensures doc.Ok? && |doc.value.groups| > 0 && !ScalesFinitely(doc.value) ==> r.Fatal?
    ensures doc.Ok? && |doc.value.groups| > 0 && doc.value.height != 0.0 && AllRects(doc.value.groups) == [] ==>
      r.Ok? && r.value.boxes == w.boxes
    ensures r.Ok? ==> |r.value.boxes| == |w.boxes| + |AllRects(doc.value.groups)|
    ensures r.Ok? ==> r.value.boxes[..|w.boxes|] == w.boxes
    ensures r.Ok? ==> r.value.ground.Some?
  {
    if doc.Fatal? then Fatal(doc.fault)
    else
    var svg := doc.value;
    var rects := AllRects(svg.groups);
    if |svg.groups| == 0 then Fatal(IndexOutOfRange)
    else if !ScalesFinitely(svg) then
      if AllTransformsOk(rects) then Fatal(NonFiniteGeometry) else Fatal(BadTransform)
    else
      var specs := RectSpecs(rects, w.height, SvgScale(w, svg));
      if specs.Fatal? then
        Fatal(BadTransform)
      else
      Ok(SvgWorld(w, svg))
  }

  /** The scaled geometry stays finite: `scaleY` is read by the ground
      and by every rect, `scaleX` only by the rects. */
  predicate ScalesFinitely(svg: SvgFile) {
    svg.height != 0.0 && (svg.width != 0.0 || AllRects(svg.groups) == [])
  }

  /** `scaleX` and `scaleY`. With a zero file width `scaleX` is never read
      (there is no rect), and 0 stands in for it. */
  function SvgScale(w: World, svg: SvgFile): Scale
    requires ScalesFinitely(svg)
  {
    Scale(if svg.width == 0.0 then 0.0 else w.width as real / svg.width, w.height as real / svg.height)
  }

  /** What a successful CreateFromSvg returns: the k-th new box is built
      from the k-th rect's spec (RectSpecs says which), and the ground spans
      the window at the first group's line, scaled and flipped. */
  function SvgWorld(w: World, svg: SvgFile): (r: World)
    requires ScalesFinitely(svg) && |svg.groups| > 0
    requires RectSpecs(AllRects(svg.groups), w.height, SvgScale(w, svg)).Ok?
    ensures |r.boxes| == |w.boxes| + |AllRects(svg.groups)| && r.boxes[..|w.boxes|] == w.boxes
    ensures forall k :: 0 <= k < |AllRects(svg.groups)| ==>
      r.boxes[|w.boxes| + k] == SpecBox(RectSpecs(AllRects(svg.groups), w.height, SvgScale(w, svg)).value[k], w.nextBody + k)
    ensures r.ground.Some?
    ensures r.ground.value.from == Vec(0.0, FlipY(w.height, svg.groups[0].line.y1, SvgScale(w, svg)))
    ensures r.ground.value.to == Vec(w.width as real, FlipY(w.height, svg.groups[0].line.y2, SvgScale(w, svg)))
  {
    var sc := SvgScale(w, svg);
    var specs := RectSpecs(AllRects(svg.groups), w.height, sc).value;
    var mid := AddBoxes(w, specs);
    assert mid.width == w.width && mid.height == w.height;
    var r := SvgGround(mid, svg.groups[0].line, sc);
    assert r.boxes == mid.boxes;
    r
  }


  /** CreateFromSvg succeeds exactly on a document with groups, finite
      scaled geometry and only scannable transforms, and then returns SvgWorld. */
  lemma CreateFromSvgUnfold(w: World, svg: SvgFile)
    ensures CreateFromSvg(w, Ok(svg)).Ok? <==>
      && ScalesFinitely(svg) && |svg.groups| > 0
      && RectSpecs(AllRects(svg.groups), w.height, SvgScale(w, svg)).Ok?
    ensures CreateFromSvg(w, Ok(svg)).Ok? ==> CreateFromSvg(w, Ok(svg)).value == SvgWorld(w, svg)
  {
  }




  /** Loading keeps the world's bookkeeping valid. */
  lemma CreateFromSvgValid(w: World, svg: SvgFile)
    requires Valid(w) && CreateFromSvg(w, Ok(svg)).Ok?
    ensures Valid(CreateFromSvg(w, Ok(svg)).value)
  {
    CreateFromSvgUnfold(w, svg);
    var sc := SvgScale(w, svg);
    var specs := RectSpecs(AllRects(svg.groups), w.height, sc).value;
    var w1 := AddBoxes(w, specs);
    var line := svg.groups[0].line;
    assert SvgWorld(w, svg) == SvgGround(w1, line, sc);
    AddBoxesPreservesValid(w, specs);
    SetNewGroundPreservesValid(w1, 0.0, FlipY(w1.height, line.y1, sc),
                               w1.width as real, FlipY(w1.height, line.y2, sc));
  }

  /** A box rotated by a transform is drawn at 90 degrees. */
  lemma RotatedRectDrawsAtRightAngle(r: SvgRect, windowHeight: int, sc: Scale, id: BodyId)
    requires r.transform != ""
    ensures Draw(SpecBox(RectSpec(r, windowHeight, sc), id)).sprite.rotation == 90.0
  {
  }

  /** Worked example: rect (0, 0, 10, 10) in a 100×100 file on a 200×200
      window is a 20×20 box centred at (10, 190). */
  lemma WorkedExample(w: World)
    requires w.width == 200 && w.height == 200
    ensures var rect := SvgRect(10.0, 10.0, 0.0, 0.0, "");
            var svg := SvgFile(100.0, 100.0, [SvgGroup([rect], SvgLine(0.0, 190.0, 100.0, 190.0))]);
            var r := CreateFromSvg(w, Ok(svg));
            && r.Ok?
            && |r.value.boxes| == |w.boxes| + 1
            && r.value.boxes[|w.boxes|].body.pos == Vec(10.0, 190.0)
            && r.value.boxes[|w.boxes|].sprite.width == 20.0
            && r.value.boxes[|w.boxes|].sprite.height == 20.0
  {
    var rect := SvgRect(10.0, 10.0, 0.0, 0.0, "");
    var svg := SvgFile(100.0, 100.0, [SvgGroup([rect], SvgLine(0.0, 190.0, 100.0, 190.0))]);
    assert AllRects(svg.groups) == [rect] by {
      assert AllRects(svg.groups[1..]) == [];
    }
    CreateFromSvgUnfold(w, svg);
  }
}

=== FILE: lib_world.dfy ===
/** The physics demo's world (chipmunklib/world.go): the list of boxes, the
    ground, and the bookkeeping the physics space keeps for them. The space is
    modelled as the set of body ids added to it, and a body's `UserData` as
    membership in `impact` (the only value ever stored there is
    `impactUserData`). */
module LibWorld {
  import opened Outcomes
  import opened LibBox

  /** Y component of the space's gravity. */
  const Gravity: real := -900.0

  /** The static ground segment: its body and its two end points. */
  datatype Ground = Ground(body: BodyId, from: Vec, to: Vec)

  /** Centre of the ground's drawable segment, read by CreateFromString. */
  function GroundCentre(g: Ground): Vec {
    Vec((g.from.x + g.to.x) / 2.0, (g.from.y + g.to.y) / 2.0)
  }

  datatype World = World(
    width: int,
    height: int,
    gravity: Vec,
    boxes: seq<Box>,
    ground: Option<Ground>,
    space: set<BodyId>,          // bodies added to the physics space
    impact: set<BodyId>,         // bodies whose UserData is impactUserData
    groundBodies: set<BodyId>,   // ground bodies ever added by setGround
    nextBody: BodyId,            // allocator for fresh body ids
    audio: bool)                 // the two audio players are alive

  /** `NewWorld(width, height)` without its resource loading: an empty
      space with gravity (0, -900), no boxes, no ground. */
  function NewWorld(width: int, height: int): (w: World)
    ensures w.width == width && w.height == height
    ensures w.gravity == Vec(0.0, Gravity)
    ensures w.boxes == [] && w.ground == None && w.space == {}
    ensures Valid(w)
  {
    World(width, height, Vec(0.0, Gravity), [], None, {}, {}, {}, 0, true)
  }

  function BoxBodies(boxes: seq<Box>): set<BodyId> {
    set i | 0 <= i < |boxes| :: boxes[i].body.id
  }

  predicate DistinctBodies(boxes: seq<Box>) {
    forall i, j :: 0 <= i < j < |boxes| ==> boxes[i].body.id != boxes[j].body.id
  }

  /** The world's bookkeeping invariant: the boxes have distinct bodies, each
      box is attached, a box body is in the space exactly when its box is in
      the list, and exactly those bodies carry impact UserData; the rest of
      the space is ground bodies. */
  ghost predicate Valid(w: World) {
    && DistinctBodies(w.boxes)
    && (forall i :: 0 <= i < |w.boxes| ==> w.boxes[i].attached && w.boxes[i].body.id < w.nextBody)
    && (forall g :: g in w.groundBodies ==> g < w.nextBody)
    && w.groundBodies !! BoxBodies(w.boxes)
    && w.space == BoxBodies(w.boxes) + w.groundBodies
    && w.impact == BoxBodies(w.boxes)
    && (w.ground.Some? ==> w.ground.value.body in w.groundBodies)
  }

  /** In a valid world a body that is not a ground body is in the box list
      iff it is in the space iff it carries impact UserData. */
  lemma MembershipAgrees(w: World, id: BodyId)
    requires Valid(w) && id !in w.groundBodies
    ensures (exists i :: 0 <= i < |w.boxes| && w.boxes[i].body.id == id) <==> id in w.space
    ensures id in w.space <==> id in w.impact
  {
  }

  // ---------------------------------------------------------------------------
  // addBox / removeBox

  /** `addBox`: sets `box.world`, adds the body to the space, appends the box
      and gives its body impact UserData. */
  function AddBox(w: World, b: Box): (r: World)
    ensures |r.boxes| == |w.boxes| + 1 && r.boxes[..|w.boxes|] == w.boxes
    ensures r.boxes[|w.boxes|] == b.(attached := true)
    ensures r.space == w.space + {b.body.id} && r.impact == w.impact + {b.body.id}
    ensures r.ground == w.ground && r.groundBodies == w.groundBodies && r.nextBody == w.nextBody
    ensures r.width == w.width && r.height == w.height
  {
    w.(boxes := w.boxes + [b.(attached := true)],
       space := w.space + {b.body.id},
       impact := w.impact + {b.body.id})
  }

  /** Adding a box whose body id is fresh (allocated, never used) keeps the
      world valid. */
  lemma AddBoxPreservesValid(w: World, b: Box)
    requires Valid(w)
    requires b.body.id < w.nextBody && b.body.id !in w.space
    ensures Valid(AddBox(w, b))
  {
    var r := AddBox(w, b);
    assert BoxBodies(r.boxes) == BoxBodies(w.boxes) + {b.body.id} by {
      forall id | id in BoxBodies(r.boxes) ensures id in BoxBodies(w.boxes) + {b.body.id} {
        var i :| 0 <= i < |r.boxes| && r.boxes[i].body.id == id;
        if i < |w.boxes| {
          assert r.boxes[i] == w.boxes[i];
        }
      }
      forall id | id in BoxBodies(w.boxes) ensures id in BoxBodies(r.boxes) {
        var i :| 0 <= i < |w.boxes| && w.boxes[i].body.id == id;
        assert r.boxes[i] == w.boxes[i];
      }
      assert r.boxes[|w.boxes|].body.id == b.body.id;
    }
  }

  /** `removeBox(box, i)` with `box == w.boxes[i]`, as every caller passes it:
      clears the body's UserData, removes it from the space and cuts index `i`
      out of the list. */
  function RemoveBox(w: World, i: nat): (r: World)
    requires i < |w.boxes|
    ensures r.space == w.space - {w.boxes[i].body.id}
    ensures r.impact == w.impact - {w.boxes[i].body.id}
    ensures |r.boxes| == |w.boxes| - 1
    ensures forall j :: 0 <= j < i ==> r.boxes[j] == w.boxes[j]
    ensures forall j :: i <= j < |r.boxes| ==> r.boxes[j] == w.boxes[j + 1]
    ensures r.ground == w.ground && r.groundBodies == w.groundBodies && r.nextBody == w.nextBody
    ensures r.width == w.width && r.height == w.height && r.audio == w.audio
  {
    var id := w.boxes[i].body.id;
    w.(boxes := w.boxes[..i] + w.boxes[i + 1..],
       space := w.space - {id},
       impact := w.impact - {id})
  }

  /** Removing a box keeps the world valid, and its body is then in neither
      the list, the space, nor the UserData set. */
  lemma RemoveBoxPreservesValid(w: World, i: nat)
    requires Valid(w) && i < |w.boxes|
    ensures Valid(RemoveBox(w, i))
    ensures w.boxes[i].body.id !in BoxBodies(RemoveBox(w, i).boxes)
  {
    var r := RemoveBox(w, i);
    var id := w.boxes[i].body.id;
    assert BoxBodies(r.boxes) == BoxBodies(w.boxes) - {id} by {
      forall x | x in BoxBodies(r.boxes) ensures x in BoxBodies(w.boxes) - {id} {
        var j :| 0 <= j < |r.boxes| && r.boxes[j].body.id == x;
        if j < i {
          assert r.boxes[j] == w.boxes[j];
        } else {
          assert r.boxes[j] == w.boxes[j + 1];
        }
      }
      forall x | x in BoxBodies(w.boxes) - {id} ensures x in BoxBodies(r.boxes) {
        var j :| 0 <= j < |w.boxes| && w.boxes[j].body.id == x;
        if j < i {
          assert r.boxes[j] == w.boxes[j];
        } else {
          assert j > i;
          assert r.boxes[j - 1] == w.boxes[j];
        }
      }
    }
    forall j | 0 <= j < |r.boxes| ensures r.boxes[j] == w.boxes[if j < i then j else j + 1] {
    }
    assert DistinctBodies(r.boxes) by {
      forall j1, j2 | 0 <= j1 < j2 < |r.boxes| ensures r.boxes[j1].body.id != r.boxes[j2].body.id {
        assert r.boxes[j1] == w.boxes[if j1 < i then j1 else j1 + 1];
        assert r.boxes[j2] == w.boxes[if j2 < i then j2 else j2 + 1];
      }
    }
  }

  // ---------------------------------------------------------------------------
  // Box creation as the scene builders do it

  /** A box the builders ask for: its size and the pose given to its body. */
  datatype BoxSpec = BoxSpec(width: real, height: real, pos: Vec, angle: real)

  /** The box `newBox` + `SetPosition`/`SetAngle` + `addBox` produce for a
      spec, when its body gets id `id`. */
  function SpecBox(s: BoxSpec, id: BodyId): (b: Box)
    ensures b.body.id == id && b.attached
    ensures b.body.pos == s.pos && b.body.angle == s.angle
    ensures b.sprite.width == b.shape.width == s.width && b.sprite.height == b.shape.height == s.height
    ensures b.body.mass == BoxMass && b.shape.elasticity == BoxElasticity
  {
    Place(NewBox(id, s.width, s.height), s.pos, s.angle).(attached := true)
  }

  /** One box built and added with a freshly allocated body. */
  function AddNewBox(w: World, s: BoxSpec): (r: World)
    ensures r.nextBody == w.nextBody + 1
    ensures r == AddBox(w, SpecBox(s, w.nextBody)).(nextBody := w.nextBody + 1)
  {
    AddBox(w, Place(NewBox(w.nextBody, s.width, s.height), s.pos, s.angle)).(nextBody := w.nextBody + 1)
  }

  /** The builders' loop: one box per spec, in order, body ids allocated
      consecutively. */
  function AddBoxes(w: World, specs: seq<BoxSpec>): (r: World)
    ensures |r.boxes| == |w.boxes| + |specs| && r.boxes[..|w.boxes|] == w.boxes
    ensures forall k :: 0 <= k < |specs| ==> r.boxes[|w.boxes| + k] == SpecBox(specs[k], w.nextBody + k)
    ensures r.nextBody == w.nextBody + |specs|
    ensures forall id :: id in r.space <==> id in w.space || w.nextBody <= id < r.nextBody
    ensures forall id :: id in r.impact <==> id in w.impact || w.nextBody <= id < r.nextBody
    ensures r.ground == w.ground && r.groundBodies == w.groundBodies
    ensures r.width == w.width && r.height == w.height && r.audio == w.audio
    decreases |specs|
  {
    if |specs| == 0 then
      w
    else
      var w1 := AddNewBox(w, specs[0]);
      var r := AddBoxes(w1, specs[1..]);
      assert r.boxes[..|w.boxes|] == w.boxes by {
        assert r.boxes[..|w1.boxes|][..|w.boxes|] == w1.boxes[..|w.boxes|];
      }
      assert r.boxes[|w.boxes|] == SpecBox(specs[0], w.nextBody) by {
        assert r.boxes[..|w1.boxes|][|w.boxes|] == w1.boxes[|w.boxes|];
      }
      assert forall k :: 1 <= k < |specs| ==> r.boxes[|w.boxes| + k] == SpecBox(specs[k], w.nextBody + k) by {
        forall k | 1 <= k < |specs| ensures r.boxes[|w.boxes| + k] == SpecBox(specs[k], w.nextBody + k) {
          assert specs[1..][k - 1] == specs[k];
          assert r.boxes[|w1.boxes| + (k - 1)] == SpecBox(specs[1..][k - 1], w1.nextBody + (k - 1));
        }
      }
      r
  }

  /** Adding built boxes keeps the world valid. */
  lemma {:induction false} AddBoxesPreservesValid(w: World, specs: seq<BoxSpec>)
    requires Valid(w)
    ensures Valid(AddBoxes(w, specs))
    decreases |specs|
  {
    if |specs| > 0 {
      var b := SpecBox(specs[0], w.nextBody);
      var w0 := w.(nextBody := w.nextBody + 1);
      assert Valid(w0);
      AddBoxPreservesValid(w0, b);
      assert AddNewBox(w, specs[0]) == AddBox(w0, b);
      AddBoxesPreservesValid(AddNewBox(w, specs[0]), specs[1..]);
    }
  }

  // ---------------------------------------------------------------------------
  // setGround / Destroy

  /** `newGround(world, x1, y1, x2, y2)` with a freshly allocated static body. */
  function NewGround(w: World, x1: real, y1: real, x2: real, y2: real): (r: (World, Ground))
    ensures r.1.body == w.nextBody && r.0.nextBody == w.nextBody + 1
    ensures r.1.from == Vec(x1, y1) && r.1.to == Vec(x2, y2)
    ensures r.0 == w.(nextBody := w.nextBody + 1)
  {
    (w.(nextBody := w.nextBody + 1), Ground(w.nextBody, Vec(x1, y1), Vec(x2, y2)))
  }

  /** `setGround`: adds the ground's body to the space and makes it the
      world's ground; an earlier ground's body stays in the space. */
  function SetGround(w: World, g: Ground): (r: World)
    ensures r.ground == Some(g)
    ensures r.space == w.space + {g.body}
    ensures r.groundBodies == w.groundBodies + {g.body}
    ensures r.boxes == w.boxes && r.impact == w.impact && r.nextBody == w.nextBody
    ensures r.width == w.width && r.height == w.height && r.gravity == w.gravity && r.audio == w.audio
  {
    w.(ground := Some(g), space := w.space + {g.body}, groundBodies := w.groundBodies + {g.body})
  }

  lemma SetNewGroundPreservesValid(w: World, x1: real, y1: real, x2: real, y2: real)
    requires Valid(w)
    ensures Valid(SetGround(NewGround(w, x1, y1, x2, y2).0, NewGround(w, x1, y1, x2, y2).1))
  {
    var g := NewGround(w, x1, y1, x2, y2);
    assert g.1.body !in BoxBodies(w.boxes);
  }

  /** What `Destroy`'s loop keeps: `r` is `w` with its audio released and the
      first `|w.boxes| - |r.boxes|` boxes removed from the list, the space
      and the impact set. */
  ghost predicate Destroying(w: World, r: World) {
    && |r.boxes| <= |w.boxes|
    && r.boxes == w.boxes[|w.boxes| - |r.boxes|..]
    && r.space == w.space - BoxBodies(w.boxes[..|w.boxes| - |r.boxes|])
    && r.impact == w.impact - BoxBodies(w.boxes[..|w.boxes| - |r.boxes|])
    && !r.audio && r.ground == w.ground && r.groundBodies == w.groundBodies
    && r.nextBody == w.nextBody && r.width == w.width
    && (Valid(w) ==> Valid(r))
  }

  /** The bodies of one more box of a prefix. */
  lemma BoxBodiesExtend(boxes: seq<Box>, n: nat)
    requires n < |boxes|
    ensures BoxBodies(boxes[..n + 1]) == BoxBodies(boxes[..n]) + {boxes[n].body.id}
  {
    assert forall j :: 0 <= j < n ==> boxes[..n + 1][j] == boxes[..n][j];
    assert boxes[..n + 1][n] == boxes[n];
  }

  /** One turn of `Destroy`'s loop: removing box 0 keeps `Destroying`. */
  lemma DestroyingStep(w: World, r: World)
    requires Destroying(w, r) && |r.boxes| > 0
    ensures Destroying(w, RemoveBox(r, 0))
  {
    var done := |w.boxes| - |r.boxes|;
    assert r.boxes[0] == w.boxes[done];
    BoxBodiesExtend(w.boxes, done);
    if Valid(w) {
      RemoveBoxPreservesValid(r, 0);
    }
    var r' := RemoveBox(r, 0);
    assert r'.boxes == w.boxes[done + 1..];
  }

  /** `Destroy`: releases the audio players, then removes every box with the
      `removeBox(w.boxes[i], i); i--` idiom, so index 0 each time. */
  method Destroy(w: World) returns (r: World)
    ensures r.boxes == []
    ensures r.space == w.space - BoxBodies(w.boxes)
    ensures r.impact == w.impact - BoxBodies(w.boxes)
    ensures !r.audio
    ensures r.ground == w.ground && r.groundBodies == w.groundBodies
    ensures Valid(w) ==> Valid(r) && r.space == w.groundBodies && r.impact == {}
  {
    r := w.(audio := false);
    assert w.boxes[..0] == [];
    var i: int := 0;
    while i < |r.boxes|
      invariant i == 0
      invariant Destroying(w, r)
      decreases |r.boxes|
    {
      DestroyingStep(w, r);
      r := RemoveBox(r, i);
      i := i - 1;
      i := i + 1;
    }
    assert w.boxes[..|w.boxes|] == w.boxes;
  }

  // ---------------------------------------------------------------------------
  // Remove(x, y): pick a box at a tap

  /** The tap `p` (bottom-left origin) lies within the pick radius of the box's
      drawn centre: squared distance below `BoxSize`. */
  predicate Hit(b: Box, p: Vec) {
    var dx := b.sprite.centre.x - p.x;
    var dy := b.sprite.centre.y - p.y;
    dx * dx + dy * dy < BoxSize
  }

  /** Index of the first box at or after `from` that the tap hits, or -1. */
  function FirstHit(boxes: seq<Box>, p: Vec, from: nat): (k: int)
    requires from <= |boxes|
    ensures k == -1 || from <= k < |boxes|
    ensures k >= 0 ==> Hit(boxes[k], p)
    ensures forall j :: from <= j < |boxes| && (k < 0 || j < k) ==> !Hit(boxes[j], p)
    decreases |boxes| - from
  {
    if from == |boxes| then -1
    else if Hit(boxes[from], p) then from
    else FirstHit(boxes, p, from + 1)
  }

  /** `Remove(x, y)`: flips the tap to a bottom-left origin, removes the first
      box (in list order) whose centre is within the pick radius and returns
      its index; returns -1 and leaves the world alone when there is none. */
  function Remove(w: World, x: real, y: real): (r: (World, int))
    ensures var p := Vec(x, w.height as real - y);
      && (r.1 == -1 ==> r.0 == w && forall j :: 0 <= j < |w.boxes| ==> !Hit(w.boxes[j], p))
      && (r.1 != -1 ==> 0 <= r.1 < |w.boxes| && Hit(w.boxes[r.1], p)
                        && (forall j :: 0 <= j < r.1 ==> !Hit(w.boxes[j], p))
                        && r.0 == RemoveBox(w, r.1))
  {
    var k := FirstHit(w.boxes, Vec(x, w.height as real - y), 0);
    if k < 0 then (w, -1) else (RemoveBox(w, k), k)
  }

  /** A successful pick shortens the list by one and takes the picked body out
      of the space; the world stays valid either way. */
  lemma RemoveKeepsValid(w: World, x: real, y: real)
    requires Valid(w)
    ensures Valid(Remove(w, x, y).0)
    ensures Remove(w, x, y).1 >= 0 ==>
      |Remove(w, x, y).0.boxes| == |w.boxes| - 1 &&
      w.boxes[Remove(w, x, y).1].body.id !in Remove(w, x, y).0.space
  {
    var r := Remove(w, x, y);
    if r.1 >= 0 {
      RemoveBoxPreservesValid(w, r.1);
    }
  }
}

=== FILE: old_chipmunk.dfy ===
/** The older physics demo (the `chipmunk` package): the same boxes and
    ground, but `addBox` neither sets `box.world` nor gives the body UserData,
    the scene is 50 boxes dropped at random x, and a frame has no frame-rate
    text. Randomness is an input: `draws(2k)` and `draws(2k+1)` are the two
    `rand.Float32()` values box k receives. */
module OldChipmunk {
  import opened Outcomes
  import opened LibBox
  import LibWorld
  import opened LibGameState

  const FramesPerSecond: int := 30
  const NumOfBoxes: nat := 50

  /** Side of every box of the scene. */
  const BoxSide: real := 40.0

  /** Go's `math.Pi`, as written in the math package. */
  const Pi: real := 3.14159265358979323846264338327950288419716939937510582097494459

  /** The world: boxes, ground, the bodies in the space and a body-id allocator. */
  datatype World = World(
    width: int,
    height: int,
    gravity: Vec,
    boxes: seq<Box>,
    ground: Option<LibWorld.Ground>,
    space: set<BodyId>,
    groundBodies: set<BodyId>,
    nextBody: BodyId)

  /** A box is in the list exactly when its body is in the space; every other
      body of the space is a ground body. */
  ghost predicate Valid(w: World) {
    && LibWorld.DistinctBodies(w.boxes)
    && (forall i :: 0 <= i < |w.boxes| ==> w.boxes[i].body.id < w.nextBody)
    && (forall g :: g in w.groundBodies ==> g < w.nextBody)
    && w.groundBodies !! LibWorld.BoxBodies(w.boxes)
    && w.space == LibWorld.BoxBodies(w.boxes) + w.groundBodies
    && (w.ground.Some? ==> w.ground.value.body in w.groundBodies)
  }

  /** `newWorld(width, height)`: an empty space with gravity (0, -900). */
  function NewWorld(width: int, height: int): (w: World)
    ensures w.width == width && w.height == height
    ensures w.gravity == Vec(0.0, LibWorld.Gravity)
    ensures w.boxes == [] && w.ground == None && w.space == {}
    ensures Valid(w)
  {
    World(width, height, Vec(0.0, LibWorld.Gravity), [], None, {}, {}, 0)
  }

  /** `addBox`: adds the body to the space, appends the box, and returns
      the same box, whose world pointer stays unset. */
  function AddBox(w: World, b: Box): (r: (World, Box))
    ensures r.1 == b
    ensures r.0.boxes == w.boxes + [b]
    ensures !r.0.boxes[|w.boxes|].attached <==> !b.attached
    ensures r.0.space == w.space + {b.body.id}
    ensures r.0.ground == w.ground && r.0.nextBody == w.nextBody
  {
    (w.(boxes := w.boxes + [b], space := w.space + {b.body.id}), b)
  }

  /** `addBox` as the library version does it: also sets `box.world`. */
  function AddBoxCorrected(w: World, b: Box): (r: (World, Box))
    ensures r.1 == b.(attached := true) && r.0.boxes == w.boxes + [r.1]
    ensures r.0.space == w.space + {b.body.id}
    ensures r.0.ground == w.ground && r.0.nextBody == w.nextBody
  {
    (w.(boxes := w.boxes + [b.(attached := true)], space := w.space + {b.body.id}), b.(attached := true))
  }

  lemma AddBoxPreservesValid(w: World, b: Box, fixed: bool)
    requires Valid(w) && b.body.id < w.nextBody && b.body.id !in w.space
    ensures Valid(if fixed then AddBoxCorrected(w, b).0 else AddBox(w, b).0)
  {
    var r := if fixed then AddBoxCorrected(w, b).0 else AddBox(w, b).0;
    var nb := r.boxes[|w.boxes|];
    assert r.boxes == w.boxes + [nb];
    BoxBodiesSnoc(w.boxes, nb);
  }

  /** `newGround(x1, y1, x2, y2)` with a freshly allocated static body. */
  function NewGround(w: World, x1: real, y1: real, x2: real, y2: real): (r: (World, LibWorld.Ground))
    ensures r.1.body == w.nextBody && r.0 == w.(nextBody := w.nextBody + 1)
    ensures r.1.from == Vec(x1, y1) && r.1.to == Vec(x2, y2)
  {
    (w.(nextBody := w.nextBody + 1), LibWorld.Ground(w.nextBody, Vec(x1, y1), Vec(x2, y2)))
  }

  /** `setGround`: adds the ground's body to the space and replaces the
      world's ground. */
  function SetGround(w: World, g: LibWorld.Ground): (r: World)
    ensures r.ground == Some(g) && r.space == w.space + {g.body}
    ensures r.groundBodies == w.groundBodies + {g.body}
    ensures r.boxes == w.boxes && r.nextBody == w.nextBody
    ensures r.width == w.width && r.height == w.height && r.gravity == w.gravity
  {
    w.(ground := Some(g), space := w.space + {g.body}, groundBodies := w.groundBodies + {g.body})
  }

  lemma SetNewGroundPreservesValid(w: World, x1: real, y1: real, x2: real, y2: real)
    requires Valid(w)
    ensures Valid(SetGround(NewGround(w, x1, y1, x2, y2).0, NewGround(w, x1, y1, x2, y2).1))
  {
    assert w.nextBody !in LibWorld.BoxBodies(w.boxes);
  }

  // ---------------------------------------------------------------------------
  // newGameState

  /** The k-th box of the scene: 40×40, at (draws(2k)·width, height), at
      angle draws(2k+1)·2π, with body id `id`; `attached` says whether its
      world pointer is set. */
  function SceneBox(width: int, height: int, draws: nat -> real, k: nat, id: BodyId, attached: bool): (b: Box)
    ensures b.body.id == id && b.attached == attached
    ensures b.body.pos == Vec(draws(2 * k) * width as real, height as real)
    ensures b.body.angle == draws(2 * k + 1) * 2.0 * Pi
    ensures b.sprite.width == BoxSide && b.sprite.height == BoxSide
  {
    Place(NewBox(id, BoxSide, BoxSide), Vec(draws(2 * k) * width as real, height as real), draws(2 * k + 1) * 2.0 * Pi)
      .(attached := attached)
  }

  /** One scene box added with a freshly allocated body, by `addBox` as
      written or, with `fixed`, as the library adds it. */
  function AddSceneBox(w: World, draws: nat -> real, k: nat, fixed: bool): (r: World)
    ensures r.boxes == w.boxes + [SceneBox(w.width, w.height, draws, k, w.nextBody, fixed)]
    ensures r.nextBody == w.nextBody + 1
    ensures r.width == w.width && r.height == w.height && r.ground == w.ground
  {
    var b := SceneBox(w.width, w.height, draws, k, w.nextBody, false);
    var w0 := w.(nextBody := w.nextBody + 1);
    if fixed then AddBoxCorrected(w0, b).0 else AddBox(w0, b).0
  }

  lemma AddSceneBoxValid(w: World, draws: nat -> real, k: nat, fixed: bool)
    requires Valid(w)
    ensures Valid(AddSceneBox(w, draws, k, fixed))
  {
    var b := SceneBox(w.width, w.height, draws, k, w.nextBody, false);
    var w0 := w.(nextBody := w.nextBody + 1);
    AddBoxPreservesValid(w0, b, fixed);
  }

  /** The scene boxes `0..n` with body ids from `firstId` on. */
  function SceneBoxes(width: int, height: int, draws: nat -> real, firstId: BodyId, n: nat, fixed: bool): (bs: seq<Box>)
    ensures |bs| == n
    ensures forall k :: 0 <= k < n ==> bs[k] == SceneBox(width, height, draws, k, firstId + k, fixed)
  {
    seq(n, k requires 0 <= k < n => SceneBox(width, height, draws, k, firstId + k, fixed))
  }

  lemma SceneBoxesSnoc(width: int, height: int, draws: nat -> real, firstId: BodyId, n: nat, fixed: bool)
    requires n > 0
    ensures SceneBoxes(width, height, draws, firstId, n, fixed) ==
      SceneBoxes(width, height, draws, firstId, n - 1, fixed) + [SceneBox(width, height, draws, n - 1, firstId + n - 1, fixed)]
  {
  }

  /** The first `n` boxes of the scene, added one by one. */
  function AddSceneBoxes(w: World, draws: nat -> real, n: nat, fixed: bool): (r: World)
    ensures r.boxes == w.boxes + SceneBoxes(w.width, w.height, draws, w.nextBody, n, fixed)
    ensures r.nextBody == w.nextBody + n
    ensures r.width == w.width && r.height == w.height && r.ground == w.ground
  {
    if n == 0 then
      assert w.boxes + SceneBoxes(w.width, w.height, draws, w.nextBody, 0, fixed) == w.boxes;
      w
    else
      var r0 := AddSceneBoxes(w, draws, n - 1, fixed);
      SceneBoxesSnoc(w.width, w.height, draws, w.nextBody, n, fixed);
      AddSceneBox(r0, draws, n - 1, fixed)
  }

  lemma {:induction false} AddSceneBoxesValid(w: World, draws: nat -> real, n: nat, fixed: bool)
    requires Valid(w)
    ensures Valid(AddSceneBoxes(w, draws, n, fixed))
  {
    if n > 0 {
      var r0 := AddSceneBoxes(w, draws, n - 1, fixed);
      AddSceneBoxesValid(w, draws, n - 1, fixed);
      AddSceneBoxValid(r0, draws, n - 1, fixed);
    }
  }

  /** The first half of `newGameState`: an empty world of the window's size
      with a ground across it at the integer height h/3. */
  function GroundedWorld(width: int, height: int): (w: World)
    ensures w.boxes == [] && w.nextBody == 1 && w.width == width && w.height == height
    ensures w.ground.Some?
    ensures w.ground.value.from == Vec(0.0, GoDiv(height, 3) as real)
    ensures w.ground.value.to == Vec(width as real, GoDiv(height, 3) as real)
    ensures Valid(w)
  {
    var w0 := NewWorld(width, height);
    var h3 := GoDiv(height, 3) as real;
    var g := NewGround(w0, 0.0, h3, width as real, h3);
    SetNewGroundPreservesValid(w0, 0.0, h3, width as real, h3);
    SetGround(g.0, g.1)
  }

  /** `newGameState(window)` for a window of the given size: a ground across
      the window at the integer height h/3, then `NumOfBoxes` boxes. With
      `fixed`, boxes are added the way the library version adds them. */
  function NewGameState(width: int, height: int, draws: nat -> real, fixed: bool): (w: World)
    ensures w.boxes == SceneBoxes(width, height, draws, 1, NumOfBoxes, fixed)
    ensures w.ground.Some?
    ensures w.ground.value.from == Vec(0.0, GoDiv(height, 3) as real)
    ensures w.ground.value.to == Vec(width as real, GoDiv(height, 3) as real)
    ensures Valid(w)
  {
    var w1 := GroundedWorld(width, height);
    var bs := SceneBoxes(width, height, draws, 1, NumOfBoxes, fixed);
    assert [] + bs == bs;
    AddSceneBoxesValid(w1, draws, NumOfBoxes, fixed);
    AddSceneBoxes(w1, draws, NumOfBoxes, fixed)
  }

  // ---------------------------------------------------------------------------
  // draw

  datatype Frame = Frame(world: World, effects: seq<Effect>)

  /** The collision callbacks a physics step runs: one `CollisionEnter` per
      new contact the engine reports, in order, with `impact` the bodies
      carrying UserData. As written, the first panic ends the step; `fixed`
      runs the library's callback, which never panics. The result is the
      bodies whose impact sound played. */
  function StepCallbacks(contacts: seq<Arbiter>, impact: set<BodyId>, fixed: bool): (r: Result<seq<BodyId>>)
    ensures r.Ok? <==> fixed || forall k :: 0 <= k < |contacts| ==> contacts[k].b in impact
    ensures r.Fatal? ==> r.fault == FailedTypeAssertion
    ensures r.Ok? ==> forall i :: 0 <= i < |r.value| ==> r.value[i] in impact
    decreases |contacts|
  {
    if contacts == [] then Ok([])
    else
      var first := if fixed then Ok(LibBox.CollisionEnter(contacts[0], impact)) else CollisionEnter(contacts[0], impact);
      match first
      case Fatal(f) => Fatal(f)
      case Ok(c) =>
        match StepCallbacks(contacts[1..], impact, fixed)
        case Fatal(f) => Fatal(f)
        case Ok(rest) =>
          assert forall k :: 1 <= k < |contacts| ==> contacts[k] == contacts[1..][k - 1];
          Ok(c.sounds + rest)
  }

  /** No body of this package carries UserData: as written, a step with any
      contact panics; corrected, no step does. */
  lemma StepWithoutUserData(contacts: seq<Arbiter>, fixed: bool)
    ensures StepCallbacks(contacts, {}, fixed).Ok? <==> fixed || contacts == []
  {
    var none: set<BodyId> := {};
    var r := StepCallbacks(contacts, none, fixed);
    assert contacts != [] ==> contacts[0].b !in none;
  }

  /** `draw()` with the engine's poses after the step given as `pose` and the
      contacts it reports as `contacts`: clear, step by 1/30 (running the
      collision callbacks), cull with the same loop as the library
      (`inViewport` reads `box.world`, nil unless set), then draw the ground
      (nil before setGround). With `fixed`, the step runs the library's
      callback. */
  function DrawFrame(w: World, pose: BodyId -> Pose, contacts: seq<Arbiter>, fixed: bool): (r: Result<Frame>)
    ensures var adv := Advanced(w.boxes, pose);
            r.Ok? <==>
              && (fixed || contacts == [])
              && w.ground.Some? && forall k :: 0 <= k < |adv| ==> ViewportTestSafe(adv[k])
    ensures !fixed && contacts != [] ==> r == Fatal(FailedTypeAssertion)
    ensures (fixed || contacts == []) && r.Fatal? ==> r.fault == NilDereference
    ensures r.Ok? ==> r.value.world.boxes == Survivors(Advanced(w.boxes, pose), w.width)
    ensures r.Ok? ==> r.value.world.space == w.space - CulledIds(Advanced(w.boxes, pose), w.width)
    ensures r.Ok? ==> r.value.world == w.(boxes := r.value.world.boxes, space := r.value.world.space)
    ensures r.Ok? ==>
      r.value.effects == [ClearScreen, StepSpace(1.0 / FramesPerSecond as real)] + DrawnBoxes(r.value.world.boxes) + [DrawGround(w.ground.value)]
    ensures r.Ok? ==> forall b :: b in r.value.world.boxes ==> Inside(b, w.width) && b.sprite.centre == b.body.pos
    ensures r.Ok? ==> forall k :: 0 <= k < |w.boxes| && Inside(Advance(w.boxes[k], pose), w.width) ==>
      LibBox.Draw(Advance(w.boxes[k], pose)) in r.value.world.boxes
    ensures r.Ok? && Valid(w) ==> Valid(r.value.world)
  {
    StepWithoutUserData(contacts, fixed);
    var adv := Advanced(w.boxes, pose);
    if StepCallbacks(contacts, {}, fixed).Fatal? then Fatal(FailedTypeAssertion)
    else if exists k :: 0 <= k < |adv| && !ViewportTestSafe(adv[k]) then Fatal(NilDereference)
    else if w.ground.None? then Fatal(NilDereference)
    else
      var kept := Survivors(adv, w.width);
      var culled := CulledIds(adv, w.width);
      var next := w.(boxes := kept, space := w.space - culled);
      SurvivorsSpec(adv, w.width);
      assert forall k :: 0 <= k < |w.boxes| ==> adv[k] == Advance(w.boxes[k], pose);
      ValidAfterCull(w, adv, pose);
      Ok(Frame(next, [ClearScreen, StepSpace(1.0 / FramesPerSecond as real)] + DrawnBoxes(kept)
                     + [DrawGround(w.ground.value)]))
  }

  lemma ValidAfterCull(w: World, adv: seq<Box>, pose: BodyId -> Pose)
    requires adv == Advanced(w.boxes, pose)
    ensures Valid(w) ==> Valid(w.(boxes := Survivors(adv, w.width), space := w.space - CulledIds(adv, w.width)))
  {
    if Valid(w) {
      assert LibWorld.BoxBodies(adv) == LibWorld.BoxBodies(w.boxes) by {
        forall id | id in LibWorld.BoxBodies(adv) ensures id in LibWorld.BoxBodies(w.boxes) {
          var k :| 0 <= k < |adv| && adv[k].body.id == id;
        }
        forall id | id in LibWorld.BoxBodies(w.boxes) ensures id in LibWorld.BoxBodies(adv) {
          var k :| 0 <= k < |w.boxes| && w.boxes[k].body.id == id;
          assert adv[k].body.id == id;
        }
      }
      SurvivorBodies(adv, w.width);
      var kept := Survivors(adv, w.width);
      forall i | 0 <= i < |kept| ensures kept[i].body.id < w.nextBody {
        assert kept[i].body.id in LibWorld.BoxBodies(kept);
      }
    }
  }

  /** The first frame of the scene as written: a contact in the step fails
      B's type assertion. Without one, every box lacks its world pointer, so
      `inViewport` dereferences nil on the first box the step left right of
      the left edge; only a step that carried every box to x <= -40 lets the
      frame draw, with every box culled. */
  lemma FirstFramePanics(width: int, height: int, draws: nat -> real, pose: BodyId -> Pose, contacts: seq<Arbiter>)
    ensures var adv := Advanced(NewGameState(width, height, draws, false).boxes, pose);
            var r := DrawFrame(NewGameState(width, height, draws, false), pose, contacts, false);
            && (contacts != [] ==> r == Fatal(FailedTypeAssertion))
            && (contacts == [] && (exists k :: 0 <= k < |adv| && ReadsWorld(adv[k])) ==> r == Fatal(NilDereference))
            && (r.Ok? <==> contacts == [] && forall k :: 0 <= k < |adv| ==> !ReadsWorld(adv[k]))
            && (r.Ok? ==> r.value.world.boxes == [])
  {
    var w := NewGameState(width, height, draws, false);
    assert forall k :: 0 <= k < |w.boxes| ==> !w.boxes[k].attached;
    UnattachedFrame(w, pose, contacts);
  }

  /** A frame as written over boxes none of which has its world pointer. */
  lemma UnattachedFrame(w: World, pose: BodyId -> Pose, contacts: seq<Arbiter>)
    requires w.ground.Some?
    requires forall k :: 0 <= k < |w.boxes| ==> !w.boxes[k].attached
    ensures var adv := Advanced(w.boxes, pose);
            var r := DrawFrame(w, pose, contacts, false);
            && (contacts != [] ==> r == Fatal(FailedTypeAssertion))
            && (contacts == [] && (exists k :: 0 <= k < |adv| && ReadsWorld(adv[k])) ==> r == Fatal(NilDereference))
            && (r.Ok? <==> contacts == [] && forall k :: 0 <= k < |adv| ==> !ReadsWorld(adv[k]))
            && (r.Ok? ==> r.value.world.boxes == [])
  {
    var adv := Advanced(w.boxes, pose);
    assert forall k :: 0 <= k < |adv| ==> !adv[k].attached;
    var r := DrawFrame(w, pose, contacts, false);
    if r.Ok? {
      SurvivorsSpec(adv, w.width);
      if r.value.world.boxes != [] {
        var d := r.value.world.boxes[0];
        assert d in Survivors(adv, w.width);
      }
    }
  }

  /** A step that carries every box of the scene past the left edge: the
      first frame as written draws, with nothing left to draw. */
  lemma FirstFrameAllLeftDraws(width: int, height: int, draws: nat -> real)
    ensures var pose := (id: BodyId) => Pose(Vec(-1000.0, 0.0), 0.0);
            var r := DrawFrame(NewGameState(width, height, draws, false), pose, [], false);
            r.Ok? && r.value.world.boxes == []
  {
    var pose := (id: BodyId) => Pose(Vec(-1000.0, 0.0), 0.0);
    FirstFramePanics(width, height, draws, pose, []);
  }

  /** With `addBox` setting the world pointer and the library's callback,
      the first frame draws whatever the step reports: it culls boxes that
      fell out of view, keeps the rest, and ends with the ground. */
  lemma CorrectedFirstFrameDraws(width: int, height: int, draws: nat -> real, pose: BodyId -> Pose, contacts: seq<Arbiter>)
    ensures var r := DrawFrame(NewGameState(width, height, draws, true), pose, contacts, true);
            r.Ok? && Valid(r.value.world) && |r.value.world.boxes| <= NumOfBoxes
  {
    var w := NewGameState(width, height, draws, true);
    SurvivorsSpec(Advanced(w.boxes, pose), w.width);
  }

  // ---------------------------------------------------------------------------
  // Collision callback

  /** `CollisionEnter` as written: A is checked with the comma-ok assertion,
      B with the single-value one, which panics unless B carries impact
      UserData; B's sound is guarded by A's `ok`. */
  function CollisionEnter(arb: Arbiter, impact: set<BodyId>): (r: Result<Callback>)
    ensures r.Fatal? <==> arb.b !in impact
    ensures r.Fatal? ==> r.fault == FailedTypeAssertion
    ensures r.Ok? ==> r.value.accept
    ensures r.Ok? ==> (|r.value.sounds| > 0 <==> arb.a in impact)
    ensures r.Ok? && arb.a in impact ==> r.value == LibBox.CollisionEnter(arb, impact)
  {
    var ok := arb.a in impact;
    var first := if ok then [arb.a] else [];
    if arb.b !in impact then Fatal(FailedTypeAssertion)
    else Ok(Callback(first + (if ok then [arb.b] else []), true))
  }

  /** A silent A and a B with impact data: B's sound is skipped, where the
      library's callback plays it. */
  lemma CollisionSkipsB(a: BodyId, b: BodyId)
    requires a != b
    ensures CollisionEnter(Arbiter(a, b), {b}) == Ok(Callback([], true))
    ensures LibBox.CollisionEnter(Arbiter(a, b), {b}).sounds == [b]
  {
  }

  /** No body of this package ever gets UserData, so every contact panics. */
  lemma EveryContactPanics(arb: Arbiter)
    ensures CollisionEnter(arb, {}) == Fatal(FailedTypeAssertion)
    ensures LibBox.CollisionEnter(arb, {}) == Callback([], true)
  {
  }
}

=== FILE: outcomes.dfy ===
/** Shared failure vocabulary. Every Go `panic`, nil dereference, index error and
    `Fatalf` call of the modelled code ends the process; the model returns a
    `Fatal` value naming the cause instead. */
module Outcomes {

  /** The reasons the modelled programs stop. */
  datatype Fault =
    | IndexOutOfRange      // a slice, string or array index past its end
    | NilDereference       // a field read through a nil pointer
    | InvalidNumber        // strconv.Atoi rejected its argument
    | FailedTypeAssertion  // a single-value type assertion on the wrong dynamic type
    | ResourceError        // an asset could not be read
    | EglError             // egl.MakeCurrent reported a failure
    | DecodeError          // the XML decoder rejected the asset
    | BadTransform         // fmt.Sscanf could not scan a rect's transform attribute
    | NonFiniteGeometry    // a float division by zero; Go yields Inf/NaN, the model refuses it

  datatype Result<+T> = Ok(value: T) | Fatal(fault: Fault) {

    predicate IsFailure() {
      Fatal?
    }

    function PropagateFailure<U>(): Result<U>
      requires Fatal?
    {
      Fatal(fault)
    }

    function Extract(): T
      requires Ok?
    {
      value
    }
  }

  datatype Option<+T> = None | Some(value: T)

  /** Go's `byte`. */
  newtype byte = x: int | 0 <= x < 256

  /** Go's integer division by a positive divisor, which truncates toward zero
      (Dafny's `/` is Euclidean and rounds negative dividends down). */
  function GoDiv(a: int, b: int): (q: int)
    requires b > 0
    ensures a >= 0 ==> q * b <= a < q * b + b
    ensures a < 0 ==> q * b - b < a <= q * b
  {
    if a >= 0 then a / b else -((-a) / b)
  }
}

=== FILE: size_flag.dfy ===
/** The `-size` command-line flag of both desktop front ends: `"WxH"` is
    lower-cased, split on `x`, and the first two pieces are read with
    `strconv.Atoi`. Any failure panics. */
module SizeFlag {
  import opened Outcomes

  datatype Size = Size(width: int, height: int)

  /** Flag defaults of the physics demo and of the cube demo. */
  const ChipmunkDefault: string := "480x320"
  const CubeDefault: string := "320x480"

  /** Range of Go's `int` on the 64-bit targets; Atoi reports a range error outside it. */
  const IntMin: int := -0x8000_0000_0000_0000
  const IntMax: int := 0x7fff_ffff_ffff_ffff

  predicate InIntRange(n: int) {
    IntMin <= n <= IntMax
  }

  // ---------------------------------------------------------------------------
  // strings.ToLower, restricted to what can change the outcome

  /** Lower-cases ASCII letters. No non-ASCII rune lower-cases to `x` or to a
      digit, so this decides the same splits and the same Atoi verdicts as
      Go's Unicode-aware strings.ToLower. */
  function LowerChar(c: char): char {
    if 'A' <= c <= 'Z' then (c as int + 32) as char else c
  }

  function Lower(s: string): (r: string)
    ensures |r| == |s|
  {
    if |s| == 0 then "" else [LowerChar(s[0])] + Lower(s[1..])
  }

  lemma {:induction false} LowerConcat(a: string, b: string)
    ensures Lower(a + b) == Lower(a) + Lower(b)
    decreases |a|
  {
    if |a| > 0 {
      assert (a + b)[1..] == a[1..] + b;
      LowerConcat(a[1..], b);
    } else {
      assert a + b == b;
    }
  }

  /** Lower-casing twice is lower-casing once. */
  lemma {:induction false} LowerIdempotent(s: string)
    ensures Lower(Lower(s)) == Lower(s)
    decreases |s|
  {
    if |s| > 0 {
      LowerIdempotent(s[1..]);
      assert Lower(s)[1..] == Lower(s[1..]);
    }
  }

  // ---------------------------------------------------------------------------
  // strings.Split with a one-character separator

  /** The pieces between occurrences of `sep`; one more piece than separators. */
  function Split(s: string, sep: char): (pieces: seq<string>)
    ensures |pieces| >= 1
    decreases |s|
  {
    if |s| == 0 then [""]
    else
      var rest := Split(s[1..], sep);
      if s[0] == sep then [""] + rest
      else [[s[0]] + rest[0]] + rest[1..]
  }

  /** strings.Join, the inverse of Split. */
  function Join(pieces: seq<string>, sep: char): string
    requires |pieces| >= 1
  {
    if |pieces| == 1 then pieces[0] else pieces[0] + [sep] + Join(pieces[1..], sep)
  }

  /** Splitting a piece that holds no separator, followed by one separator. */
  lemma {:induction false} SplitAfterPiece(p: string, sep: char, rest: string)
    requires sep !in p
    ensures Split(p + [sep] + rest, sep) == [p] + Split(rest, sep)
    decreases |p|
  {
    if |p| == 0 {
      assert p + [sep] + rest == [sep] + rest;
      assert ([sep] + rest)[1..] == rest;
    } else {
      var s := p + [sep] + rest;
      assert s[0] == p[0];
      assert s[1..] == p[1..] + [sep] + rest;
      SplitAfterPiece(p[1..], sep, rest);
      assert [p[0]] + p[1..] == p;
    }
  }

  /** Two separator-free pieces, each followed by a separator. */
  lemma SplitTwoPieces(p: string, q: string, rest: string, sep: char)
    requires sep !in p && sep !in q
    ensures Split(p + [sep] + (q + [sep] + rest), sep) == [p, q] + Split(rest, sep)
  {
    var tail := q + [sep] + rest;
    SplitAfterPiece(p, sep, tail);
    SplitAfterPiece(q, sep, rest);
    assert [p] + ([q] + Split(rest, sep)) == [p, q] + Split(rest, sep);
  }

  /** A piece with no separator splits to itself. */
  lemma {:induction false} SplitSinglePiece(p: string, sep: char)
    requires sep !in p
    ensures Split(p, sep) == [p]
    decreases |p|
  {
    if |p| > 0 {
      SplitSinglePiece(p[1..], sep);
      assert [p[0]] + p[1..] == p;
    }
  }

  /** Split undoes Join when no piece contains the separator. */
  lemma {:induction false} SplitJoin(pieces: seq<string>, sep: char)
    requires |pieces| >= 1
    requires forall i :: 0 <= i < |pieces| ==> sep !in pieces[i]
    ensures Split(Join(pieces, sep), sep) == pieces
    decreases |pieces|
  {
    if |pieces| == 1 {
      SplitSinglePiece(pieces[0], sep);
    } else {
      SplitJoin(pieces[1..], sep);
      SplitAfterPiece(pieces[0], sep, Join(pieces[1..], sep));
      assert [pieces[0]] + pieces[1..] == pieces;
    }
  }

  /** Join undoes Split: no character of the input is lost or invented. */
  lemma {:induction false} JoinSplit(s: string, sep: char)
    ensures Join(Split(s, sep), sep) == s
    decreases |s|
  {
    if |s| > 0 {
      JoinSplit(s[1..], sep);
      var rest := Split(s[1..], sep);
      if s[0] == sep {
        assert Join([""] + rest, sep) == "" + [sep] + Join(rest, sep);
      } else {
        var out := [[s[0]] + rest[0]] + rest[1..];
        if |rest| == 1 {
          assert Join(out, sep) == [s[0]] + rest[0];
        } else {
          assert out[1..] == rest[1..];
          assert Join(out, sep) == [s[0]] + rest[0] + [sep] + Join(rest[1..], sep);
        }
      }
      assert [s[0]] + s[1..] == s;
    }
  }

  // ---------------------------------------------------------------------------
  // strconv.Atoi and its inverse strconv.Itoa

  predicate IsDigit(c: char) {
    '0' <= c <= '9'
  }

  predicate AllDigits(s: string) {
    forall i :: 0 <= i < |s| ==> IsDigit(s[i])
  }

  /** The value of a decimal digit string, read most significant digit first. */
  function DigitsValue(s: string): nat
    requires AllDigits(s)
  {
    if |s| == 0 then 0 else DigitsValue(s[..|s| - 1]) * 10 + (s[|s| - 1] as int - '0' as int)
  }

  /** strconv.Atoi on a 64-bit target: an optional sign, then at least one
      decimal digit and nothing else, with a value inside Go's `int`. */
  function Atoi(s: string): (r: Result<int>)
    ensures r.Ok? ==> InIntRange(r.value)
    ensures r.Fatal? ==> r.fault == InvalidNumber
    ensures |s| == 0 ==> r.Fatal?
  {
    var signed := |s| > 0 && (s[0] == '-' || s[0] == '+');
    var body := if signed then s[1..] else s;
    if |body| == 0 || !AllDigits(body) then Fatal(InvalidNumber)
    else
      var v: int := if signed && s[0] == '-' then -(DigitsValue(body) as int) else DigitsValue(body);
      if InIntRange(v) then Ok(v) else Fatal(InvalidNumber)
  }

  function DigitChar(d: nat): char
    requires d < 10
  {
    ('0' as int + d) as char
  }

  /** Decimal digits of a natural number, without leading zeros. */
  function DigitsOf(n: nat): (s: string)
    ensures |s| >= 1 && AllDigits(s)
  {
    if n < 10 then [DigitChar(n)] else DigitsOf(n / 10) + [DigitChar(n % 10)]
  }

  /** strconv.Itoa. */
  function Itoa(n: int): string {
    if n < 0 then "-" + DigitsOf(-n) else DigitsOf(n)
  }

  lemma {:induction false} DigitsOfValue(n: nat)
    ensures DigitsValue(DigitsOf(n)) == n
  {
    if n >= 10 {
      DigitsOfValue(n / 10);
      var s := DigitsOf(n);
      assert s[..|s| - 1] == DigitsOf(n / 10);
    }
  }

  /** Atoi reads back every in-range number that Itoa prints. */
  lemma AtoiItoa(n: int)
    requires InIntRange(n)
    ensures Atoi(Itoa(n)) == Ok(n)
  {
    if n < 0 {
      var d := DigitsOf(-n);
      DigitsOfValue(-n);
      assert Itoa(n) == "-" + d && Itoa(n)[0] == '-';
      assert Itoa(n)[1..] == d;
    } else {
      var d := DigitsOf(n);
      DigitsOfValue(n);
      assert Itoa(n) == d && IsDigit(d[0]);
    }
  }

  /** Text without upper-case letters is its own lower-casing. */
  lemma {:induction false} LowerOfNoUpper(s: string)
    requires forall i :: 0 <= i < |s| ==> !('A' <= s[i] <= 'Z')
    ensures Lower(s) == s
    decreases |s|
  {
    if |s| > 0 {
      LowerOfNoUpper(s[1..]);
    }
  }

  lemma ItoaHasNoLetters(n: int)
    ensures 'x' !in Itoa(n)
    ensures Lower(Itoa(n)) == Itoa(n)
  {
    var s := Itoa(n);
    var d := DigitsOf(if n < 0 then -n else n);
    assert forall i :: 0 <= i < |d| ==> IsDigit(d[i]);
    assert forall i :: 0 <= i < |s| ==> s[i] == '-' || IsDigit(s[i]);
    LowerOfNoUpper(s);
  }

  // ---------------------------------------------------------------------------
  // The flag itself

  /** `dims := strings.Split(strings.ToLower(size), "x")`, then the pieces
      are read by ParseDims. */
  function ParseSize(flag: string): (r: Result<Size>)
    ensures r.Ok? ==> InIntRange(r.value.width) && InIntRange(r.value.height)
    ensures r.Fatal? ==> r.fault == InvalidNumber || r.fault == IndexOutOfRange
  {
    ParseDims(Split(Lower(flag), 'x'))
  }

  /** Atoi of `dims[0]` (panics first on a bad width), then `dims[1]` (panics
      when the flag had no `x`), then Atoi of it. Later pieces are ignored. */
  function ParseDims(dims: seq<string>): (r: Result<Size>)
    requires |dims| >= 1
    ensures r.Ok? ==> |dims| >= 2
    ensures r.Ok? ==> Atoi(dims[0]) == Ok(r.value.width) && Atoi(dims[1]) == Ok(r.value.height)
  {
    var width :- Atoi(dims[0]);
    if |dims| < 2 then
      Fatal(IndexOutOfRange)
    else
      var height :- Atoi(dims[1]);
      Ok(Size(width, height))
  }

  /** The flag's case does not matter: `"320X480"` is read as `"320x480"`. */
  lemma ParseSizeIgnoresCase(flag: string)
    ensures ParseSize(flag) == ParseSize(Lower(flag))
  {
    LowerIdempotent(flag);
  }

  /** Round trip: printing a size as `WxH` and parsing it gives it back, for
      every pair of in-range integers, negative and zero included. */
  lemma ParseSizeItoa(width: int, height: int)
    requires InIntRange(width) && InIntRange(height)
    ensures ParseSize(Itoa(width) + "x" + Itoa(height)) == Ok(Size(width, height))
  {
    var a, b := Itoa(width), Itoa(height);
    var flag := a + "x" + b;
    assert Lower(flag) == flag by {
      ItoaHasNoLetters(width);
      ItoaHasNoLetters(height);
      LowerConcat(a + "x", b);
      LowerConcat(a, "x");
    }
    assert Split(flag, 'x') == [a, b] by {
      ItoaHasNoLetters(width);
      ItoaHasNoLetters(height);
      assert Join([a, b], 'x') == flag;
      SplitJoin([a, b], 'x');
    }
    AtoiItoa(width);
    AtoiItoa(height);
    assert ParseDims([a, b]) == Ok(Size(width, height));
  }

  /** ParseDims reads nothing but the first two pieces. */
  lemma ParseDimsFirstTwo(d1: seq<string>, d2: seq<string>)
    requires |d1| >= 2 && |d2| >= 2
    requires d1[0] == d2[0] && d1[1] == d2[1]
    ensures ParseDims(d1) == ParseDims(d2)
  {
  }

  lemma LowerOfPieces(a: string, b: string)
    ensures Lower(a + "x" + b) == Lower(a) + ['x'] + Lower(b)
  {
    LowerConcat(a + "x", b);
    LowerConcat(a, "x");
    assert Lower("x") == ['x'];
  }

  /** Text after a second `x` is never looked at: `"1x2x3"` parses as `"1x2"`. */
  lemma ParseSizeIgnoresThirdPiece(a: string, b: string, c: string)
    requires 'x' !in Lower(a) && 'x' !in Lower(b)
    ensures ParseSize(a + "x" + b + "x" + c) == ParseSize(a + "x" + b)
  {
    var la, lb, lc := Lower(a), Lower(b), Lower(c);
    var longFlag := a + "x" + b + "x" + c;
    var shortFlag := a + "x" + b;
    assert Lower(longFlag) == la + ['x'] + (lb + ['x'] + lc) by {
      LowerOfPieces(a + "x" + b, c);
      LowerOfPieces(a, b);
    }
    assert Lower(shortFlag) == la + ['x'] + lb by {
      LowerOfPieces(a, b);
    }
    var long := Split(Lower(longFlag), 'x');
    var short := Split(Lower(shortFlag), 'x');
    SplitTwoPieces(la, lb, lc, 'x');
    assert short == [la, lb] by {
      SplitSinglePiece(lb, 'x');
      SplitAfterPiece(la, 'x', lb);
    }
    ParseDimsFirstTwo(long, short);
  }

  /** A flag without any `x` or `X` always panics: at Atoi when its text is
      not a number, otherwise when indexing `dims[1]`. */
  lemma ParseSizeNeedsSeparator(flag: string)
    requires 'x' !in Lower(flag)
    ensures ParseSize(flag).Fatal?
    ensures Atoi(Lower(flag)).Ok? ==> ParseSize(flag) == Fatal(IndexOutOfRange)
  {
    SplitSinglePiece(Lower(flag), 'x');
  }

  lemma ItoaSmall()
    ensures Itoa(0) == "0" && Itoa(1) == "1" && Itoa(2) == "2" && Itoa(-5) == "-5"
    ensures Itoa(320) == "320" && Itoa(480) == "480"
  {
    assert DigitsOf(32) == "32";
    assert DigitsOf(48) == "48";
  }

  /** The two defaults are what Itoa prints for the documented sizes. */
  lemma DefaultsPrinted()
    ensures ChipmunkDefault == Itoa(480) + "x" + Itoa(320)
    ensures CubeDefault == Itoa(320) + "x" + Itoa(480)
  {
    ItoaSmall();
    assert "480" + "x" + "320" == "480x320";
    assert "320" + "x" + "480" == "320x480";
  }

  /** Both defaults parse to the sizes the demos document. */
  lemma ParseSizeDefaults()
    ensures ParseSize(ChipmunkDefault) == Ok(Size(480, 320))
    ensures ParseSize(CubeDefault) == Ok(Size(320, 480))
  {
    DefaultsPrinted();
    ParseSizeItoa(480, 320);
    ParseSizeItoa(320, 480);
  }

  /** `"320X480"` is read as `"320x480"`. */
  lemma ParseSizeUpperCaseExample()
    ensures ParseSize("320X480") == Ok(Size(320, 480))
  {
    var a, b := Itoa(320), Itoa(480);
    assert "320X480" == a + "X" + b by { ItoaSmall(); }
    assert Lower("320X480") == a + "x" + b by {
      ItoaHasNoLetters(320);
      ItoaHasNoLetters(480);
      LowerConcat(a + "X", b);
      LowerConcat(a, "X");
      assert Lower("X") == "x";
    }
    ParseSizeIgnoresCase("320X480");
    ParseSizeIgnoresCase(a + "x" + b);
    ParseSizeItoa(320, 480);
  }

  /** `"1x2x3"` is read as 1 by 2. */
  lemma ParseSizeThirdPieceExample()
    ensures ParseSize("1x2x3") == Ok(Size(1, 2))
  {
    ItoaSmall();
    assert Lower("1") == "1" && Lower("2") == "2";
    ParseSizeIgnoresThirdPiece("1", "2", "3");
    assert "1x2x3" == "1" + "x" + "2" + "x" + "3";
    assert "1x2" == Itoa(1) + "x" + Itoa(2);
    ParseSizeItoa(1, 2);
  }

  /** Zero and negative sizes are accepted. */
  lemma ParseSizeSignExample()
    ensures ParseSize("0x-5") == Ok(Size(0, -5))
  {
    ItoaSmall();
    assert "0x-5" == Itoa(0) + "x" + Itoa(-5);
    ParseSizeItoa(0, -5);
  }

  /** A width that is not a number panics before the height is looked at. */
  lemma ParseSizeBadWidth(rest: string)
    ensures ParseSize("wide" + rest) == Fatal(InvalidNumber)
  {
    LowerConcat("wide", rest);
    assert Lower("wide") == "wide";
    var l := Lower("wide" + rest);
    var dims := Split(l, 'x');
    assert l[0] == 'w';
    assert dims[0][0] == 'w' by {
      assert Split(l, 'x') == [[l[0]] + Split(l[1..], 'x')[0]] + Split(l[1..], 'x')[1..];
    }
  }
}
